=== FILE: README.md ===
# horcrux, modelled in Dafny

horcrux splits a file into encrypted *horcruxes* (shards) and binds them back together.

**Split** does the following:
- makes a 32-byte AES key and shares it out with Shamir's secret sharing;
- writes one shard file per share: a banner of comment lines, a `-- HEADER --` marker, the shard's header record on one line, a `-- BODY --` marker;
- streams the encrypted file (AES in OFB mode) into the shard bodies. When every shard is needed to restore the file (threshold == total), the stream is dealt round-robin, 100 bytes at a time, by a *Demultiplexer*. Otherwise every shard gets a full copy.

**Bind** does the following:
- lists a directory and keeps the `.horcrux` entries;
- parses each header and checks that the shards share one origin and are numerous enough;
- recombines the key;
- decrypts either the first shard's copy or, through a *Multiplexer* over the bodies sorted by index, the dealt stream.

The first, standalone version of the program (`main.go`) worked differently:
- it layered one AES-GCM encryption per shard;
- it cut the base64 text into equal parts, one per shard;
- it bound them by reordering, concatenating and peeling the layers off in reverse.

The model covers these pieces:
- **`Multiplexing` and `MultiplexingLaws`**: the round-robin engine. The engine's `(index, used)` state is a `Turn`. Writers are sinks that only grow. Readers are their unread suffix. `Deal` is the reference definition of where each byte goes; `Write`, `Read` and `Copy` are methods with loop invariants tied to it.
- **`ShardFormat`**: the shard layout and the line scanner that finds the header line and the body offset. It has both parsers: the strict one (`GetHeaderFromHorcruxFile`) and the binder's lenient copy.
- **`Naming`**: `filepath.Ext`, `filepath.Base`, `strings.TrimSuffix`, decimal formatting and shard file names.
- **`Cipher`**: the OFB stream as XOR with a keystream that depends only on the key, plus key generation.
- **`Ordering`**: storing shards at slot `Index - 1`.
- **`Split` and `Bind`**: the two commands as functions from their inputs (file system, random source, clock, libraries) to the files they write or the error they stop with.
- **`RoundTrip`**: binding the shards of a split restores the file.
- **`Legacy`**: the `main.go` pipeline and its own round trip.

The following are parameters of the model rather than code in it:
- Shamir's scheme;
- JSON, YAML and base64;
- the AES keystream and AES-GCM;
- the file system, the random source and the clock.

## Model

| member | source | states |
|---|---|---|
| Multiplexing.Min | pkg/multiplexing/multiplexing.go:12-17 | the result is one of the two arguments and no larger than either |
| Multiplexing.NextTurn | pkg/multiplexing/multiplexing.go:25-31 | moving on goes to the next participant modulo their number, wrapping to 0, with a fresh quota, so the turn stays valid |
| Multiplexing.SinkWrite | pkg/multiplexing/multiplexing.go:38-43 | a writer accepts a prefix of the chunk, and reports an error exactly when it accepted less than the whole chunk, having run out of room |
| Multiplexing.Write | pkg/multiplexing/multiplexing.go:33-50 | the state between calls stays valid (index in range, 0 <= used < 100). The writers' contents and the turn are exactly the round-robin deal of the accepted prefix p[..n] from the previous state. Writers with room for everything accept all of p without error. On an error, n < len(p) and the engine stays on the failing writer. Each underlying write gets 1..(100 - bytesWritten) bytes, then at most 100 |
| Multiplexing.WriteAll | pkg/multiplexing/multiplexing.go:33-50 | successive Write calls leave the same state as dealing the concatenation of their inputs in one go |
| Multiplexing.DealAppend | pkg/multiplexing/multiplexing.go:33-50 | dealing x ++ y equals dealing x and then dealing y from where x left off, so Write(p); Write(q) is the same as Write(p ++ q) |
| Multiplexing.DealGrows | pkg/multiplexing/multiplexing.go:33-50 | every writer's content only grows, and the bytes added across all writers total exactly len(s) |
| Multiplexing.DealChunk | pkg/multiplexing/multiplexing.go:36-46 | a chunk that fits in the current quota goes to the writer in turn, which moves on exactly when the quota is used up |
| Multiplexing.SourceRead | pkg/multiplexing/multiplexing.go:71-72 | a read returns min(request, remaining) bytes from the front of the reader, EOF at an empty reader, and an error for a missing (nil) reader |
| Multiplexing.Read | pkg/multiplexing/multiplexing.go:66-85 | the bytes returned are the front of what the multiplexer still has to deliver (Pending(m) == got ++ Pending(m')), with got <= len(p) and within the reader's quota. EOF and error hold exactly when nothing is left or the reader in turn is missing. It makes one underlying request of 1..(100 - bytesRead) bytes, and the state between calls stays valid |
| Multiplexing.Copy | pkg/multiplexing/multiplexing.go:66-85 | reading with any buffer size until EOF or error yields exactly the pending stream, and fails exactly when a missing reader is reached |
| Multiplexing.CopyEnds | pkg/multiplexing/multiplexing.go:66-85 | once nothing is pending, the multiplexer fails exactly when the reader in turn is missing |
| MultiplexingLaws.FreshMux | pkg/commands/bind.go:84 | a multiplexer over bodies starts valid, with one reader per body holding that body |
| MultiplexingLaws.MultiplexInverts | pkg/multiplexing/multiplexing.go:33-85 | a multiplexer over the demultiplexer's outputs, in the same order, delivers exactly the original stream, then EOF and no error |
| MultiplexingLaws.DealFreshClosedForm | pkg/multiplexing/multiplexing.go:33-50 | byte k of the stream goes to writer (k / 100) mod N, in stream order, and the turn after s is the closed form for position len(s) |
| MultiplexingLaws.DealFreshTotal | pkg/multiplexing/multiplexing.go:3-4 | the writers' shares add up to exactly the length of the stream: nothing is duplicated or dropped |
| MultiplexingLaws.TurnAtStep | pkg/multiplexing/multiplexing.go:44-46 | one more byte keeps the turn valid and moves to the next writer exactly at a quota boundary |
| MultiplexingLaws.PendingTracks | pkg/multiplexing/multiplexing.go:66-85 | a multiplexer whose readers hold the rest of a deal delivers exactly the rest of the stream, without error |
| ShardFormat.Banner | pkg/commands/split.go:159-164 | the banner is five comment lines and an empty line |
| ShardFormat.Header | pkg/commands/split.go:158-169 | everything written before a shard's body: the banner, the header marker, the marshalled header line and the body marker, each line ended by a line feed. It has no contract of its own. FindHeaderInShard, ShardBody and NewHorcruxOfShard state that both parsers read the header line back from it, with the body starting right after it |
| ShardFormat.BannerLines | pkg/commands/split.go:159-164 | no banner line contains a line break or equals the header marker, whatever the index and total |
| ShardFormat.DropCR | pkg/commands/horcrux.go:54-55 | a scanned line is the raw line with at most one trailing carriage return removed |
| ShardFormat.NextToken | pkg/commands/horcrux.go:54-56 | the scanner yields a token exactly when input remains, and always advances |
| ShardFormat.ScanAny | pkg/commands/horcrux.go:59-64 | a `Scan()` whose result is not checked never moves backwards or past the end. ScanAnyAtEnd adds that it stays put, with an empty token, exactly at the end of the input |
| ShardFormat.ScanAnyAtEnd | pkg/commands/horcrux.go:59-64 | an unchecked scan stays at its position exactly at the end of the input, and there its token is empty |
| ShardFormat.FindHeader | pkg/commands/horcrux.go:53-67 | the scanning loop shared by both parsers (its copy in the binder is bind.go:119-131). It has no contract of its own. SkipLines states how it passes non-marker lines, AtMarker what it takes at the first marker line, and NoMarker what it gives without one |
| ShardFormat.SkipLines | pkg/commands/horcrux.go:54-56 | scanning over non-marker lines adds len(line) + 1 per line consumed to the offset |
| ShardFormat.AtMarker | pkg/commands/horcrux.go:57-67 | at the first marker line the scanner takes the next line as the header line and skips one more line without checking it, and the offset counts exactly those three lines |
| ShardFormat.Body | pkg/commands/horcrux.go:70-72 | seeking to the offset leaves the rest of the file after it, or nothing past the end |
| ShardFormat.GetHeader | pkg/commands/horcrux.go:50-78 | when a marker line is found, it fails (with a decoding error) exactly when the line after it does not decode, and otherwise returns the decoded header. Without a marker it returns the zero header and no error. The offset is always the one the scanner found |
| ShardFormat.GetHeaderLenient | pkg/commands/bind.go:116-141 | the binder's parser never fails, and its offset is the one the scanner found |
| ShardFormat.NewHorcrux | pkg/commands/horcrux.go:28-44 | open errors and decoding errors propagate. On success it holds the path given, the parsed header, and the file from the parser's offset on, which is a suffix of the file |
| ShardFormat.FindHeaderInShard | pkg/commands/horcrux.go:50-78 | scanning header(i, n, h) ++ body finds header line h and the offset len(header(i, n, h)), for any body, including bodies with marker-like lines |
| ShardFormat.ShardBody | pkg/commands/horcrux.go:70-72 | reading from that offset yields exactly the body |
| ShardFormat.GetHeaderOfShard | pkg/commands/horcrux.go:57-63 | a shard's header line that decodes gives its record and the body offset; one that does not decode is an error; the lenient parser keeps whatever the decoder left |
| ShardFormat.NewHorcruxOfShard | pkg/commands/horcrux.go:28-44 | opening a shard gives its path, its decoded record and exactly its body |
| ShardFormat.NoMarker | pkg/commands/horcrux.go:74-77 | a file without a marker line gives the zero header and no error, with the offset at the end and an empty body |
| Naming.Itoa | pkg/commands/split.go:80 | decimal formatting gives digits, with a leading minus sign only for a negative number |
| Naming.ItoaRoundTrip | pkg/commands/split.go:80 | the decimal text of a number reads back as that number |
| Naming.ItoaInjective | pkg/commands/split.go:80 | distinct numbers have distinct decimal texts |
| Naming.Ext | pkg/commands/bind.go:25 | the extension is a suffix of the name: empty, or a dot followed by neither a dot nor a slash |
| Naming.ExtOfSuffix | pkg/commands/bind.go:25 | a name ending in an extension has exactly that extension |
| Naming.Base | pkg/commands/split.go:46 | the base name is never empty. It is "." for the empty path and "/" for a path of slashes only. Otherwise it is the final element of the path once trailing slashes are removed: a suffix without `/` that is the whole trimmed path or follows a `/` |
| Naming.JoinPathBase | pkg/commands/split.go:81 | a file name joined to a directory has that file name as its base |
| Naming.JoinPath | pkg/commands/split.go:81 | the joined path ends with the name. Under an empty directory it is the name alone. Otherwise it starts with the directory, and a `/` comes just before the name |
| Naming.TrimSuffix | pkg/commands/split.go:79 | a present suffix is removed exactly once; otherwise the text is unchanged |
| Naming.Stem | pkg/commands/split.go:79 | the stem followed by the extension gives back the name: only the last extension is removed |
| Naming.ShardFilename | pkg/commands/split.go:79-80 | the shard name `<stem>_<index>_of_<total>.horcrux`. It has no contract of its own. ShardFilenameExt states its extension is `.horcrux`, and ShardFilenameInjective that the shards of one split get distinct names |
| Naming.ShardFilenameExt | pkg/commands/split.go:80 | every shard file name has extension `.horcrux`, so the binder keeps it |
| Naming.ShardFilenameInjective | pkg/commands/split.go:80 | shards of one file and total get distinct names |
| Naming.ShardNames | pkg/commands/bind.go:23-28 | a name is kept exactly when it is listed and its extension is `.horcrux` |
| Naming.ShardNamesAppend | pkg/commands/bind.go:23-28 | filtering two listings in a row gives the first one's names followed by the second one's, so the filter keeps the listing order and every repeat |
| Naming.ShardNamesKeepsAll | pkg/commands/bind.go:23-28 | a listing of shard names only is kept whole and in order |
| Naming.ShardNamesNone | pkg/commands/bind.go:23-28 | a listing without shard names keeps nothing |
| Cipher.XorStream | pkg/commands/utils.go:19-22 | the stream cipher preserves length |
| Cipher.Crypt | pkg/commands/utils.go:13-23 | the reader panics exactly when the key is not 16, 24 or 32 bytes long, and otherwise preserves length |
| Cipher.XorStreamInvolution | pkg/commands/utils.go:19-22 | applying the keystream twice restores the data |
| Cipher.CryptInvolution | pkg/commands/utils.go:13-23 | decrypting what was encrypted with an accepted key gives back the data |
| Cipher.XorStreamConcat | pkg/commands/utils.go:22 | data read in pieces is transformed the same as the whole |
| Cipher.GenerateKey | pkg/commands/split.go:171-175 | a key is made exactly when the random source has 32 bytes, and it is those first 32 bytes |
| Cipher.GeneratedKeyWorks | pkg/commands/split.go:171-175 | a generated key never makes the cipher panic |
| Ordering.PlaceFirst | pkg/commands/bind.go:79-82 | the loop succeeds exactly when every index seen is in 1..n, panics otherwise, and yields n slots |
| Ordering.Place | pkg/commands/bind.go:79-82 | storing each shard at slot Index-1 of a slice of len(shards) slots succeeds exactly when every index is in 1..len, and panics otherwise |
| Ordering.PlaceContents | pkg/commands/bind.go:79-82 | a slot holds the last shard listed with its index, and a slot no index names keeps the zero value |
| Ordering.PlaceSorts | pkg/commands/bind.go:77-84 | when the indices are a permutation of 1..len, every slot is filled and slot j holds the shard with index j+1, whatever the listing order |
| Ordering.PermutesOwner | pkg/commands/bind.go:79-82 | under a permutation, the shard with index j+1 is the one stored at slot j |
| Split.ShardRecord | pkg/commands/split.go:67-74 | the header record of shard i: the original name, the time, index i+1, the total, the threshold and fragment i. It has no contract of its own; StartShards states these fields for every shard it writes |
| Split.ShardPath | pkg/commands/split.go:79-81 | where shard i goes: its shard name, with index i+1, joined to the destination. It has no contract of its own; JoinPathBase states that the base of that path is the shard name |
| Split.StartShards | pkg/commands/split.go:63-98 | the header loop succeeds exactly when every shard file can be created. Shard i goes to `<stem>_<i+1>_of_<total>.horcrux` in the destination and carries index i+1 and fragment i, with the name, time, total and threshold shared. An error is a creation error or a panic |
| Split.Bodies | pkg/commands/split.go:104-117 | one body per shard; when threshold != total every body is the whole stream; a demultiplexer over no shards fails exactly when there is something to write |
| Split.Prepare | pkg/commands/split.go:29-61 | preparation succeeds exactly when the key is made, the key is shared out, the file opens, and the destination is or becomes a directory. It keeps that key and those fragments. A key error, or an open error after the key is shared, is returned as it is |
| Split.Split | pkg/commands/split.go:29-127 | a split that succeeds had its preparation succeed, read its source, and met no failing shard write while there were bytes to write. It writes exactly `total` shards and puts shard i at its computed path |
| Split.CopyErrors | pkg/commands/split.go:119-122 | once the headers are written, a source that cannot be read ends split with the read error. A shard write that fails while there are bytes to write ends it with that error |
| Split.NotDirectoryFirst | pkg/commands/split.go:49-61 | a destination that exists and is not a directory fails with "Destination must be a directory", whatever creating a file, reading the source or writing a body would do. So no shard is created and the source is not read |
| Split.SplitContent | pkg/commands/split.go:63-119 | shard i holds the header made from its record, then its share of the encrypted stream |
| Split.SplitShard | pkg/commands/split.go:63-119 | shard i reads back as its own record with index i+1, and reading on from the offset gives exactly its body |
| Split.ReadsBack | pkg/commands/split.go:158-169 | a written header followed by a body parses back to the header line's record and that body |
| Split.BodiesRecombine | pkg/commands/split.go:104-117 | when threshold == total the bodies partition the stream (byte k to shard (k/100) mod total), and a multiplexer over them in index order reads the stream back. Otherwise each body is the whole stream |
| Bind.Load | pkg/commands/bind.go:116-141 | a shard as bind.go:40 reads it with the lenient parser. It has no contract of its own; LoadParts states it |
| Bind.LoadParts | pkg/commands/bind.go:116-141 | a loaded shard holds the header the lenient parser found and the file from the parser's offset on, so the bytes before the offset followed by the body give back the file |
| Bind.OpenAll | pkg/commands/bind.go:33-44 | one attempt per listed name. Attempt i fails with name i's open error exactly when that name does not open, and otherwise holds the shard the lenient parser reads from its contents |
| Bind.Gather | pkg/commands/bind.go:33-58 | the loop succeeds exactly when every file opens and every shard shares the first one's name and timestamp. It then keeps every shard, duplicates included, in listing order. Its error is the consistency error or a file's open error |
| Bind.GatherStopsAt | pkg/commands/bind.go:33-38 | the first file that does not open stops the loop with its error |
| Bind.GatherFails | pkg/commands/bind.go:33-38 | a file that does not open stops the loop however many names follow |
| Bind.DuplicatesKept | pkg/commands/bind.go:45-57 | in any listing the loop accepts, a shard listed at two places is kept at both, and every listed shard counts |
| Bind.DuplicateAccepted | pkg/commands/bind.go:45-57 | listing one more copy of an accepted shard adds that copy to what the loop keeps |
| Bind.ForeignShardRefused | pkg/commands/bind.go:52-54 | when every file opens, a shard from another split, wherever it is listed, stops the loop with the consistency error |
| Bind.ForeignShardStopsBind | pkg/commands/bind.go:52-54 | the same for the whole command: bind ends with the consistency error |
| Bind.Fragments | pkg/commands/bind.go:66-69 | one key fragment per accepted shard, in acceptance order |
| Bind.MakeInput | pkg/commands/bind.go:76-87 | when total != threshold, the first shard's body is read alone. Otherwise the reader is built exactly when every index is in 1..len, and panics otherwise. The reader is a fresh multiplexer with one reader per shard |
| Bind.Drain | pkg/commands/bind.go:104-107 | copying a single file gives its body; copying the multiplexer gives its pending stream, or fails exactly when it reaches an empty slot |
| Bind.CopyInput | pkg/commands/bind.go:104-107 | copying the input with any buffer size gives exactly what Drain says |
| Bind.Finish | pkg/commands/bind.go:89-110 | a key of the wrong length panics. A successful finish writes to the chosen name the decryption of what the input drains to |
| Bind.Bind | pkg/commands/bind.go:17-110 | a listing error is returned as it is. A bind that succeeds had every listed shard open and agree, at least one shard, at least the first one's threshold, and fragments that combine |
| Bind.BindCounts | pkg/commands/bind.go:60-64 | no shards gives "No horcruxes in directory"; fewer than the first one's threshold gives the error with the required and held counts |
| Bind.NoShardNames | pkg/commands/bind.go:23-61 | a directory with no `.horcrux` entry has no horcruxes |
| Bind.BadIndexPanics | pkg/commands/bind.go:77-84 | when every shard is needed, an index outside 1..len makes bind panic |
| RoundTrip.GatherShards | pkg/commands/bind.go:33-58 | the listed shards of a split are all opened, parsed and kept, in listing order |
| RoundTrip.SortedInput | pkg/commands/bind.go:77-84 | shards listed in any order are placed as the demultiplexer's outputs in index order |
| RoundTrip.BindOfSplit | pkg/commands/bind.go:17-110 | binding restores the original bytes under the chosen name. When threshold == total the directory must hold every shard of a split, in any listing order; otherwise any threshold-or-more of them will do |
| Legacy.LegacyHeader | main.go:129-137 | the first version's banner. It has no contract of its own; LegacyHeaderPrefix states it is the current header up to its marker lines |
| Legacy.LegacyHeaderPrefix | main.go:129-137 | the first version's banner is the current header up to its marker lines |
| Legacy.Part | main.go:294-299 | every part but the last has len(s)/n characters; the last has the remainder |
| Legacy.SplitIntoEqualParts | main.go:290-303 | n > 0 gives exactly n parts, the first n-1 of length len(s)/n and the last with the remainder. n = 0 panics with a division by zero, and a negative n cannot size the slice |
| Legacy.EqualPartsConcat | main.go:290-303 | the parts concatenate back to the text they were cut from |
| Legacy.Concat | main.go:206-210 | the parts one after the other. It has no contract of its own; EqualPartsConcat and ConcatFirst state what joining the cut parts gives |
| Legacy.ConcatFirst | main.go:290-303 | the first k parts rebuild the first k*(len(s)/n) characters |
| Legacy.Keys | main.go:80-88 | the keys are drawn exactly when the random source has 32 bytes per shard, and key i is the source's bytes 32i up to 32(i+1). A short source gives its error. The 12-byte GCM nonce each encryption also draws from the source (main.go:249) is part of the abstract encrypt |
| Legacy.EncryptLayers | main.go:82-90 | the file encrypted with each key in turn, the first key first. It has no contract of its own; PeelLayers states that bind's loop undoes it |
| Legacy.DecryptFrom | main.go:217-224 | the decryption loop fails only with a base64 error or a panic. In a round whose slot exists, a key that is not base64 gives the base64 error, and a key that decodes to other than 16, 24 or 32 bytes panics in `aes.NewCipher` (main.go:258-262), as the empty key of an unfilled slot does |
| Legacy.PeelLayers | main.go:217-224 | when the keys decode back and decryption inverts encryption, the loop over slots total-1 down to 0 undoes split's layers, made first key first |
| Legacy.ExtraRoundsFail | main.go:217-224 | holding more records than the total makes some round fail, so nothing is written |
| Legacy.LegacySplit | main.go:65-127 | a read error is returned as it is. A readable file with a count <= 0 panics. Success gives `total` files whose records carry index i+1, the total, the base name and the time |
| Legacy.Record | main.go:98-109 | the record of shard i: the base name, the time, index i+1, the total, key i in base64 and text part i. It has no contract of its own; LegacySplit and LegacySplitContents state it for every file |
| Legacy.LegacyFile.Name | main.go:118-119 | the file name `<stem>_<index>_of_<total>.horcrux` in the working directory. It has no contract of its own; ShardFilenameExt and ShardFilenameInjective state its extension and its distinctness |
| Legacy.LegacyFile.Content | main.go:116 | the banner for the record's index and total followed by the record in YAML. It has no contract of its own; LegacySplitContents states it for every file |
| Legacy.LegacySplitContents | main.go:98-110 | each file holds the record built from key i, encoded, and part i of the encoded ciphertext |
| Legacy.Tries | main.go:157-167 | attempt i fails with path i's open error exactly when that path does not open, and otherwise holds the record decoded from its contents |
| Legacy.Listed | main.go:143-148 | one attempt per `.horcrux` path the walk visits |
| Legacy.Accept | main.go:169-187 | an accepted record is appended, even when its index was seen before; a refusal is the consistency error |
| Legacy.Collect | main.go:157-188 | a successful loop opened every file and holds every record in order; an error is the consistency error or a file's open error |
| Legacy.Leader | main.go:177-181 | the record bind goes by is the first one with a name, or the last one when none has one |
| Legacy.CollectAgrees | main.go:157-188 | the loop succeeds exactly when every file opens and, once a record has a name, every later record has that name and timestamp. It then goes by the leader's name, timestamp and total |
| Legacy.AcceptAgrees | main.go:177-187 | one round accepts a record exactly when it agrees with those before it |
| Legacy.LegacyBind | main.go:139-236 | a successful bind held at least as many records as the total, with indices in range, and writes under the name chosen for the original file |
| Legacy.LegacyBindChecks | main.go:190-198 | a bind that writes a file held records that all opened and agreed, exactly as many as the leader's total |
| Legacy.LegacyInconsistent | main.go:182-184 | a record whose name or timestamp differs from an earlier named record ends bind with the consistency error |
| Legacy.LegacyTooFew | main.go:190-198 | fewer records than the total gives the error with the total and the indices held, in reading order |
| Legacy.LegacyRoundTrip | main.go:139-236 | binding every file of a split, listed in any order, writes back the original bytes under the original name. This assumes that the codecs invert and that each file decodes to its record |

## Left out

- File system, clock and random source: these are parameters.
  - Opening, reading, creating and writing files are functions of the path.
  - The directory listing and the walk are given as sequences.
  - `time.Now` is an integer.
  - `crypto/rand` is a byte sequence.
  - Closing, truncating (`os.Truncate`) and progress printing have no effect in the model.
- `Base`/`JoinPath` model `/` as the only separator. `filepath.Join` is modelled as joining with one slash, without the path cleaning it also does.
- Integer widths: counts, indices and timestamps are unbounded integers. The program's values (at most 99 shards, Unix times) never come near 64-bit limits.
- `bufio.Scanner`: its 64 KiB token limit and its unchecked `Err()` are not modelled. Lines are split on `\n` with one trailing `\r` dropped. The header lemmas are stated for header lines without `\r` or `\n`.
- A failing `Seek` in both header parsers is not modelled. Seeking past the end leaves an empty body, as reading would.
- Shamir's `Split`/`Combine`, JSON, YAML and base64 are abstract functions. Round trips take their inverse laws as preconditions.
- `json.Marshal` of the header record cannot fail, so its error branch is absent.
- AES in OFB mode is abstract: a keystream function of the key, XORed with the data.
- AES-GCM in the first version is abstract: an encrypt/decrypt pair whose inverse law is a precondition.
- The random GCM nonce is part of the abstract `encrypt`.
- Legacy.DecryptFrom: once the key size is accepted, the abstract `decrypt` gives nothing both for data shorter than the 12-byte nonce (a slice-bounds panic in the program) and for a failed authentication. The model reports both as the authentication panic.
- Legacy.Keys: the program draws each key and then encrypts with it, and that encryption reads a 12-byte GCM nonce from the same random source (main.go:84, 249). The model folds the nonce into the abstract `encrypt` and gives the keys consecutive 32-byte slices of the source, so which random bytes become key i differs from the program.
- The first version's text is treated as one character per rune; base64 text is ASCII, so the two agree.
- Prompts and flag parsing are inputs.
  - Split's total and threshold are parameters.
  - `strconv.Atoi` errors on the prompt are absent.
  - The first version's count is given as an integer.
  - The prompt for a new name when the output exists is the `target` function of the disk.
- `fileExists` is part of `target`.
- Bind opens each listed name as given (`os.Open(filename)` on a bare name, relative to the working directory), as the program does. The model does not join the name with the directory.
- Errors of `filepath.Walk` are ignored by the first version's bind, and its walk order is the given sequence.
- Split.Split: the copy at split.go:119-122 is modelled by its outcome, not chunk by chunk.
  - Reading the source gives all its bytes or an error; a read error is reported even if a shard write would have failed on an earlier chunk.
  - A failing shard write is one error of the system, reported when there are bytes to write and at least one shard.
  - Which shard fails, and how much of the stream reached the shards before the error, is not modelled.
- The first version's split ignores `ioutil.WriteFile` errors. It also never reaches the `yaml.Marshal` failure, which the model leaves out.
- Multiplexing.Read: each call makes exactly one underlying read. The Go loop reassigns `p` to its first `totalN` bytes after each read, so the loop ends after one round. This is modelled as written. It is allowed by `io.Reader`, and `Copy` shows that callers still receive the whole stream.
- An `io.Copy` that fails part way leaves a partial output file in the program. The model returns the error alone.
- Legacy.LegacySplit: its contract does not restate each file's name. `LegacyFile.Name()` computes it from the record fields the contract does state.
- The program's comments and documentation disagree with its code in several places. The model follows the code:
  - Both binders describe a duplicate index as skipped, but `continue` only continues the inner loop, so a duplicate is kept and counts toward the threshold.
  - A file without a header marker gives the zero header and no error. The "could not find header" branch cannot be taken, because the header is allocated before the check.
  - The line after the header line is skipped without checking that it reads `-- BODY --`.
  - A multiplexer slot left empty by a duplicate or missing index is an error only when round-robin reaches it.

=== FILE: bind.dfy ===
/** The `bind` command: read every `.horcrux` entry of a directory, check that the shards belong
    together and that there are enough of them, rebuild the key from their fragments, and
    decrypt their bodies into the original file, reading them round-robin in index order when
    every shard was needed, or reading the first one's full copy otherwise. */
module Bind {
  import opened Wrappers
  import opened Bytes
  import opened Naming
  import opened Failures
  import opened Cipher
  import opened ShardFormat
  import opened Multiplexing
  import opened Ordering
  import opened Collaborators

  /** The file system around one bind. */
  datatype Disk = Disk(
    /** The names `ioutil.ReadDir` lists for the directory, or its error. */
    listing: Result<seq<string>, Failure>,
    /** Opening and reading a file by the name given; bind passes each listed name as it is. */
    open: string -> Result<seq<byte>, Failure>,
    /** The name the restored file gets: the original file's name, or the name typed at the
        prompt when a file of that name exists. */
    target: string -> string,
    /** The error, if any, of opening that file for writing. */
    create: string -> Option<Failure>)

  /** A shard as bind holds it: its header and the rest of its file after the header. */
  datatype Held = Held(header: HorcruxHeader, body: seq<byte>)

  /** The original file as bind writes it. */
  datatype Restored = Restored(path: string, content: seq<byte>)

  /** One shard file read with the binder's lenient parser, its file left at the body. */
  function Load(data: seq<byte>, unmarshal: seq<byte> -> Decoded): Held {
    var p := GetHeaderLenient(data, unmarshal);
    Held(p.header, Body(data, p.offset))
  }

  /** A loaded shard holds the header the lenient parser found and a tail of the file: the
      bytes from the parser's offset on. */
  lemma LoadParts(data: seq<byte>, unmarshal: seq<byte> -> Decoded)
    ensures Load(data, unmarshal).header == GetHeaderLenient(data, unmarshal).header
    ensures var b := Load(data, unmarshal).body;
            |b| <= |data| && b == data[|data| - |b|..]
    ensures GetHeaderLenient(data, unmarshal).offset <= |data| ==>
              data[..GetHeaderLenient(data, unmarshal).offset] + Load(data, unmarshal).body == data
  {
  }

  /** Two headers that may be bound together: same original name and same timestamp. */
  predicate SameOrigin(a: HorcruxHeader, b: HorcruxHeader) {
    a.originalFilename == b.originalFilename && a.timestamp == b.timestamp
  }

  /** What opening and reading each listed name gives: its error, or the shard it holds. */
  function OpenAll(names: seq<string>, open: string -> Result<seq<byte>, Failure>, unmarshal: seq<byte> -> Decoded): (rs: seq<Result<Held, Failure>>)
    ensures |rs| == |names|
    ensures forall i :: 0 <= i < |names| ==> (rs[i].Err? <==> open(names[i]).Err?)
    ensures forall i :: 0 <= i < |names| && rs[i].Err? ==> rs[i].error == open(names[i]).error
    ensures forall i :: 0 <= i < |names| && open(names[i]).Ok? ==> rs[i] == Ok(Load(open(names[i]).value, unmarshal))
  {
    seq(|names|, i requires 0 <= i < |names| =>
      match open(names[i])
      case Ok(data) => Ok(Load(data, unmarshal))
      case Err(e) => Err(e))
  }

  /** Every shard agrees with the first on where it comes from. */
  predicate Consistent(hs: seq<Held>) {
    forall i :: 0 <= i < |hs| ==> SameOrigin(hs[i].header, hs[0].header)
  }

  /** The first `k` rounds of the loop over the names, given what opening each one gives: an
      error opening a file stops the loop, and so does a shard whose origin differs from the
      first one's. A shard whose index was seen already is kept all the same: the check for it
      only continues its own inner loop. */
  function Gather(tries: seq<Result<Held, Failure>>, k: nat): (r: Result<seq<Held>, Failure>)
    requires k <= |tries|
    ensures r.Ok? <==> AllOk(tries, k) && Consistent(Values(tries, k))
    ensures r.Ok? ==> r.value == Values(tries, k)
    ensures r.Err? ==> r.error == Inconsistent || exists i :: 0 <= i < k && tries[i] == Err(r.error)
  {
    if k == 0 then Ok([])
    else
      var held :- Gather(tries, k - 1);
      var h :- tries[k - 1];
      if |held| > 0 && !SameOrigin(h.header, held[0].header) then Err(Inconsistent)
      else
        assert Values(tries, k) == held + [h];
        Ok(held + [h])
  }

  /** The key fragments in the order the shards were accepted. */
  function Fragments(held: seq<Held>): (fs: seq<seq<byte>>)
    ensures |fs| == |held|
    ensures forall i :: 0 <= i < |held| ==> fs[i] == held[i].header.keyFragment
  {
    seq(|held|, i requires 0 <= i < |held| => held[i].header.keyFragment)
  }

  /** The reader the decryption is put over. */
  datatype Input = Muxed(mux: Multiplexer) | Whole(body: seq<byte>)

  /** The body of each shard, each a reader at the start of its body. */
  function Sources(held: seq<Held>): (rs: seq<Source>)
    ensures |rs| == |held|
  {
    seq(|held|, i requires 0 <= i < |held| => Source(held[i].body, false))
  }

  function Indices(held: seq<Held>): (ix: seq<int>)
    ensures |ix| == |held|
    ensures forall i :: 0 <= i < |held| ==> ix[i] == held[i].header.index
  {
    seq(|held|, i requires 0 <= i < |held| => held[i].header.index)
  }

  /** Every index lies in 1..len(held). */
  predicate IndicesInRange(held: seq<Held>) {
    forall i :: 0 <= i < |held| ==> 1 <= held[i].header.index <= |held|
  }

  /** The reader for the encrypted stream. When the first shard's total equals its threshold,
      the files are stored by index into a slice of one slot per shard held, which panics on
      an index outside 1..len, and read through a Multiplexer; otherwise the first file
      alone is read. */
  function MakeInput(held: seq<Held>): (r: Result<Input, Failure>)
    requires |held| > 0
    ensures held[0].header.total != held[0].header.threshold ==> r == Ok(Whole(held[0].body))
    ensures held[0].header.total == held[0].header.threshold ==>
      && (r.Ok? <==> IndicesInRange(held))
      && (r.Err? ==> r.error.Panic?)
      && (r.Ok? ==> r.value.Muxed? && ValidMultiplexer(r.value.mux) && |r.value.mux.readers| == |held|
                    && r.value.mux.readerIndex == 0 && r.value.mux.bytesRead == 0)
  {
    var first := held[0].header;
    if first.total == first.threshold then
      var ordered :- Place(Sources(held), Indices(held), Source([], true));
      Ok(Muxed(Multiplexer(ordered, 0, 0)))
    else Ok(Whole(held[0].body))
  }

  /** Everything `io.Copy` gets out of the input: a single file reads to its end; the
      multiplexer delivers its pending bytes, or fails when it reaches an empty slot. */
  function Drain(input: Input): (r: Result<seq<byte>, Failure>)
    requires input.Muxed? ==> ValidMultiplexer(input.mux)
    ensures input.Whole? ==> r == Ok(input.body)
    ensures input.Muxed? ==> (r.Err? <==> Fails(input.mux))
    ensures input.Muxed? && r.Ok? ==> r.value == Pending(input.mux)
  {
    match input
    case Whole(body) => Ok(body)
    case Muxed(m) => if Fails(m) then Err(IoError("read")) else Ok(Pending(m))
  }

  /** `Bind(dir)`: the file it restores, or the error it stops with, in the program's order:
      the listing, the shards, the count checks, the key, the reader, the cipher, the output
      file and the copy. */
  function Bind(disk: Disk, lib: Libraries): (r: Result<Restored, Failure>)
    ensures disk.listing.Err? ==> r == Err(disk.listing.error)
    ensures r.Ok? ==> disk.listing.Ok? && Accepted(ShardNames(disk.listing.value), disk.open, lib)
  {
    var names :- disk.listing;
    var shards := ShardNames(names);
    var held :- Gather(OpenAll(shards, disk.open, lib.unmarshal), |shards|);
    if |held| == 0 then Err(NoHorcruxes)
    else if |held| < held[0].header.threshold then Err(NotEnough(held[0].header.threshold, |held|))
    else
      var key :- lib.shamirCombine(Fragments(held));
      var input :- MakeInput(held);
      Finish(held[0].header.originalFilename, key, input, disk, lib)
  }

  /** What bind demands of the shards it lists before it writes anything: each opens, all
      share the first one's origin, there is at least one, there are at least as many as the
      first one's threshold, and their fragments combine. */
  predicate Accepted(shards: seq<string>, open: string -> Result<seq<byte>, Failure>, lib: Libraries) {
    var tries := OpenAll(shards, open, lib.unmarshal);
    && AllOk(tries, |shards|)
    && Consistent(Values(tries, |shards|))
    && 0 < |shards|
    && Values(tries, |shards|)[0].header.threshold <= |shards|
    && lib.shamirCombine(Fragments(Values(tries, |shards|))).Ok?
  }

  /** The end of bind once the key and the reader are in hand: the cipher panics on a key of the
      wrong length, the output file is opened, and the decrypted stream is copied into it. */
  function Finish(originalFilename: string, key: seq<byte>, input: Input, disk: Disk, lib: Libraries): (r: Result<Restored, Failure>)
    requires input.Muxed? ==> ValidMultiplexer(input.mux)
    ensures !ValidKeySize(|key|) ==> r.Err? && r.error.Panic?
    ensures r.Ok? ==> Drain(input).Ok? && r.value.path == disk.target(originalFilename)
    ensures r.Ok? ==> Crypt(lib.keystream, key, Drain(input).value) == Ok(r.value.content)
  {
    if !ValidKeySize(|key|) then Err(Panic("crypto/aes: invalid key size"))
    else
      var name := disk.target(originalFilename);
      match disk.create(name)
      case Some(e) => Err(e)
      case None =>
        var encrypted :- Drain(input);
        Ok(Restored(name, XorStream(lib.keystream, key, encrypted, 0)))
  }

  /** `io.Copy` out of the input with a buffer of `size` bytes: a multiplexer is read until end
      of input or failure, whatever the size; a single file is read to its end. */
  method CopyInput(input: Input, size: nat) returns (r: Result<seq<byte>, Failure>)
    requires input.Muxed? ==> ValidMultiplexer(input.mux)
    requires size > 0
    ensures r == Drain(input)
  {
    match input
    case Whole(body) =>
      r := Ok(body);
    case Muxed(m) =>
      var out, failed := Copy(m, size);
      r := if failed then Err(IoError("read")) else Ok(out);
  }

  // ---------------------------------------------------------------------------------------------
  // Properties

  /** The count checks, in order: no shard at all, then fewer than the first one's threshold.
      The shards counted are those the loop kept, duplicates included. */
  lemma BindCounts(disk: Disk, lib: Libraries)
    requires disk.listing.Ok?
    requires Gather(OpenAll(ShardNames(disk.listing.value), disk.open, lib.unmarshal), |ShardNames(disk.listing.value)|).Ok?
    ensures var held := Gather(OpenAll(ShardNames(disk.listing.value), disk.open, lib.unmarshal),
                               |ShardNames(disk.listing.value)|).value;
            && (|held| == 0 ==> Bind(disk, lib) == Err(NoHorcruxes))
            && (0 < |held| < held[0].header.threshold ==> Bind(disk, lib) == Err(NotEnough(held[0].header.threshold, |held|)))
  {
  }

  /** A directory without any `.horcrux` entry has no horcruxes. */
  lemma NoShardNames(disk: Disk, lib: Libraries)
    requires disk.listing.Ok? && forall i :: 0 <= i < |disk.listing.value| ==> !IsShardName(disk.listing.value[i])
    ensures Bind(disk, lib) == Err(NoHorcruxes)
  {
    ShardNamesNone(disk.listing.value);
    var shards := ShardNames(disk.listing.value);
    assert Gather(OpenAll(shards, disk.open, lib.unmarshal), |shards|) == Ok([]);
  }

  /** The loop stops at the first listed file that does not open, with that file's error,
      when every file before it opened and agreed with the first. */
  lemma {:induction false} GatherStopsAt(tries: seq<Result<Held, Failure>>, k: nat)
    requires k < |tries| && AllOk(tries, k) && Consistent(Values(tries, k)) && tries[k].Err?
    ensures forall n :: k < n <= |tries| ==> Gather(tries, n) == Err(tries[k].error)
  {
    forall n | k < n <= |tries|
      ensures Gather(tries, n) == Err(tries[k].error)
    {
      GatherFails(tries, k, n);
    }
  }

  lemma {:induction false} GatherFails(tries: seq<Result<Held, Failure>>, k: nat, n: nat)
    requires k < n <= |tries| && AllOk(tries, k) && Consistent(Values(tries, k)) && tries[k].Err?
    ensures Gather(tries, n) == Err(tries[k].error)
    decreases n
  {
    if n > k + 1 {
      GatherFails(tries, k, n - 1);
    } else {
      assert Gather(tries, k) == Ok(Values(tries, k));
    }
  }

  /** A shard listed twice is kept at both places and counts twice toward the threshold: the
      loop keeps one shard per listed name, whatever their indices. */
  lemma DuplicatesKept(tries: seq<Result<Held, Failure>>, i: int, j: int, h: Held)
    requires 0 <= i < j < |tries| && tries[i] == Ok(h) && tries[j] == Ok(h)
    requires Gather(tries, |tries|).Ok?
    ensures |Gather(tries, |tries|).value| == |tries|
    ensures Gather(tries, |tries|).value[i] == h && Gather(tries, |tries|).value[j] == h
  {
  }

  /** The first `k` rounds see only the first `k` attempts. */
  lemma {:induction false} GatherPrefix(tries: seq<Result<Held, Failure>>, more: seq<Result<Held, Failure>>, k: nat)
    requires k <= |tries| && k <= |more| && tries[..k] == more[..k]
    ensures Gather(more, k) == Gather(tries, k)
  {
    if k > 0 {
      assert tries[..k - 1] == more[..k - 1] by {
        assert tries[..k - 1] == tries[..k][..k - 1] && more[..k - 1] == more[..k][..k - 1];
      }
      assert tries[k - 1] == tries[..k][k - 1] == more[..k][k - 1] == more[k - 1];
      GatherPrefix(tries, more, k - 1);
    }
  }

  /** Listing one more copy of a shard the loop accepted adds that copy to what it keeps. */
  lemma DuplicateAccepted(tries: seq<Result<Held, Failure>>, i: int)
    requires 0 <= i < |tries| && Gather(tries, |tries|).Ok?
    ensures Gather(tries + [tries[i]], |tries| + 1) == Ok(Gather(tries, |tries|).value + [tries[i].value])
  {
    var held := Gather(tries, |tries|).value;
    var more := tries + [tries[i]];
    assert more[..|tries|] == tries[..|tries|];
    GatherPrefix(tries, more, |tries|);
    assert held[i] == tries[i].value;
    assert SameOrigin(held[i].header, held[0].header);
  }

  /** Once every listed file opens, a shard whose origin differs from the first one's,
      wherever it is listed, stops the loop with the consistency error. */
  lemma ForeignShardRefused(tries: seq<Result<Held, Failure>>, k: nat)
    requires k <= |tries| && AllOk(tries, k) && !Consistent(Values(tries, k))
    ensures Gather(tries, k) == Err(Inconsistent)
  {
  }

  /** The same at the level of the command: bind reports "All horcruxes in the given directory
      must have the same original filename and timestamp." */
  lemma ForeignShardStopsBind(disk: Disk, lib: Libraries)
    requires disk.listing.Ok?
    requires var tries := OpenAll(ShardNames(disk.listing.value), disk.open, lib.unmarshal);
             AllOk(tries, |tries|) && !Consistent(Values(tries, |tries|))
    ensures Bind(disk, lib) == Err(Inconsistent)
  {
    var tries := OpenAll(ShardNames(disk.listing.value), disk.open, lib.unmarshal);
    ForeignShardRefused(tries, |tries|);
  }

  /** When every shard is needed, an index outside 1..len(shards held) panics before any file is
      written, once the key has been recombined. */
  lemma BadIndexPanics(disk: Disk, lib: Libraries, i: int)
    requires disk.listing.Ok?
    requires var held := Gather(OpenAll(ShardNames(disk.listing.value), disk.open, lib.unmarshal),
                                |ShardNames(disk.listing.value)|);
             && held.Ok? && 0 < |held.value| && held.value[0].header.threshold <= |held.value|
             && held.value[0].header.total == held.value[0].header.threshold
             && lib.shamirCombine(Fragments(held.value)).Ok?
             && 0 <= i < |held.value| && !(1 <= held.value[i].header.index <= |held.value|)
    ensures Bind(disk, lib).Err? && Bind(disk, lib).error.Panic?
  {
    var held := Gather(OpenAll(ShardNames(disk.listing.value), disk.open, lib.unmarshal), |ShardNames(disk.listing.value)|).value;
    assert !IndicesInRange(held);
    BindStopsAtInput(disk, lib, held);
  }

  /** Once the shards are gathered, counted and their key recombined, a reader that cannot be
      made ends bind with its error. */
  lemma BindStopsAtInput(disk: Disk, lib: Libraries, held: seq<Held>)
    requires disk.listing.Ok?
    requires Gather(OpenAll(ShardNames(disk.listing.value), disk.open, lib.unmarshal), |ShardNames(disk.listing.value)|) == Ok(held)
    requires 0 < |held| && held[0].header.threshold <= |held| && lib.shamirCombine(Fragments(held)).Ok?
    requires MakeInput(held).Err?
    ensures Bind(disk, lib) == Err(MakeInput(held).error)
  {
  }
}

=== FILE: bytes.dfy ===
/** Bytes, text lines and the conversion of the program's ASCII literals to bytes. */
module Bytes {

  type byte = bv8

  const NL: byte := 10
  const CR: byte := 13

  predicate IsAscii(s: string) {
    forall i :: 0 <= i < |s| ==> s[i] as int < 128
  }

  /** The bytes of an ASCII string, as Go's `[]byte(s)` gives them. */
  function Ascii(s: string): (r: seq<byte>)
    requires IsAscii(s)
    ensures |r| == |s|
    ensures forall i :: 0 <= i < |s| ==> r[i] == s[i] as bv8
  {
    seq(|s|, i requires 0 <= i < |s| => s[i] as bv8)
  }

  /** A line the program writes: no line feed inside and no carriage return at its end, so that
      reading it back line by line gives it unchanged. */
  predicate PlainLine(l: seq<byte>) {
    NL !in l && (|l| == 0 || l[|l| - 1] != CR)
  }

  /** Text without line breaks of either kind. */
  predicate NoBreaks(s: string) {
    forall i :: 0 <= i < |s| ==> s[i] != '\n' && s[i] != '\r'
  }

  /** Printable ASCII text: every character from space to tilde. */
  predicate Printable(s: string) {
    forall i :: 0 <= i < |s| ==> ' ' <= s[i] <= '~'
  }

  lemma PrintableConcat(a: string, b: string)
    requires Printable(a) && Printable(b)
    ensures Printable(a + b)
  {
  }

  /** A printable line converts to a line that reads back unchanged. */
  lemma PrintablePlainLine(s: string)
    requires Printable(s)
    ensures IsAscii(s) && NoBreaks(s) && PlainLine(Ascii(s))
  {
    AsciiPlainLine(s);
  }

  lemma AsciiPlainLine(s: string)
    requires IsAscii(s) && NoBreaks(s)
    ensures PlainLine(Ascii(s))
  {
    var r := Ascii(s);
    forall i | 0 <= i < |r|
      ensures r[i] != NL && r[i] != CR
    {
      assert r[i] == s[i] as bv8;
    }
  }

  /** Every line followed by a line feed: the text `strings.Join(lines, "\n") + "\n"`. */
  function JoinLines(ls: seq<seq<byte>>): seq<byte>
  {
    if |ls| == 0 then [] else ls[0] + [NL] + JoinLines(ls[1..])
  }

  lemma {:induction false} JoinLinesAppend(a: seq<seq<byte>>, b: seq<seq<byte>>)
    ensures JoinLines(a + b) == JoinLines(a) + JoinLines(b)
    decreases |a|
  {
    if |a| == 0 {
      assert a + b == b;
    } else {
      assert (a + b)[1..] == a[1..] + b;
      JoinLinesAppend(a[1..], b);
    }
  }
}

=== FILE: cipher.dfy ===
/** The stream cipher around file contents and the key it is given. `cryptoReader` runs AES in
    OFB mode (section 6.4 of NIST SP 800-38A) with an all-zero IV: the block cipher produces a
    keystream that depends only on the key, and each byte of data is XORed with the keystream
    byte at its position. AES is not modelled; the keystream of a key is a parameter. */
module Cipher {
  import opened Wrappers
  import opened Bytes
  import opened Failures

  /** `generateKey` asks for 32 random bytes: an AES-256 key. */
  const KEY_SIZE: int := 32

  /** The key lengths `aes.NewCipher` accepts (AES-128, AES-192 and AES-256). */
  predicate ValidKeySize(n: int) {
    n == 16 || n == 24 || n == 32
  }

  /** The keystream byte at each position, for each key. */
  type Keystream = (seq<byte>, nat) -> byte

  /** `data`, standing at stream position `from`, XORed with the keystream. */
  function XorStream(ks: Keystream, key: seq<byte>, data: seq<byte>, from: nat): (r: seq<byte>)
    ensures |r| == |data|
  {
    seq(|data|, i requires 0 <= i < |data| => data[i] ^ ks(key, from + i))
  }

  /** What reading `data` through `cryptoReader(data, key)` yields: a panic when the key is not
      an AES key (before anything is read), otherwise the data with the keystream applied. The
      same function encrypts and decrypts. */
  function Crypt(ks: Keystream, key: seq<byte>, data: seq<byte>): (r: Result<seq<byte>, Failure>)
    ensures r.Err? <==> !ValidKeySize(|key|)
    ensures r.Err? ==> r.error.Panic?
    ensures r.Ok? ==> |r.value| == |data|
  {
    if ValidKeySize(|key|) then Ok(XorStream(ks, key, data, 0)) else Err(Panic("crypto/aes: invalid key size"))
  }

  /** `generateKey`: the first 32 bytes the random source gives, or its error when it runs dry. */
  function GenerateKey(entropy: seq<byte>): (r: Result<seq<byte>, Failure>)
    ensures r.Ok? <==> |entropy| >= KEY_SIZE
    ensures r.Ok? ==> |r.value| == KEY_SIZE && r.value <= entropy
  {
    if |entropy| < KEY_SIZE then Err(IoError("rand.Read")) else Ok(entropy[..KEY_SIZE])
  }

  // ---------------------------------------------------------------------------------------------
  // Properties

  /** Applying the stream twice restores the data. */
  lemma XorStreamInvolution(ks: Keystream, key: seq<byte>, data: seq<byte>, from: nat)
    ensures XorStream(ks, key, XorStream(ks, key, data, from), from) == data
  {
    var once := XorStream(ks, key, data, from);
    var twice := XorStream(ks, key, once, from);
    forall i | 0 <= i < |data|
      ensures twice[i] == data[i]
    {
      XorTwice(data[i], ks(key, from + i));
    }
  }

  lemma XorTwice(a: byte, b: byte)
    ensures a ^ b ^ b == a
  {
  }

  /** Decryption inverts encryption: binding reads back what splitting wrote, for every key the
      cipher accepts. */
  lemma CryptInvolution(ks: Keystream, key: seq<byte>, data: seq<byte>)
    requires ValidKeySize(|key|)
    ensures Crypt(ks, key, Crypt(ks, key, data).value) == Ok(data)
  {
    XorStreamInvolution(ks, key, data, 0);
  }

  /** The cipher is a stream: data read in pieces, as `io.Copy` reads it, is transformed the same
      as the whole, each piece continuing at the position where the previous one stopped. */
  lemma XorStreamConcat(ks: Keystream, key: seq<byte>, a: seq<byte>, b: seq<byte>, from: nat)
    ensures XorStream(ks, key, a + b, from) == XorStream(ks, key, a, from) + XorStream(ks, key, b, from + |a|)
  {
    var whole := XorStream(ks, key, a + b, from);
    var parts := XorStream(ks, key, a, from) + XorStream(ks, key, b, from + |a|);
    forall i | 0 <= i < |a| + |b|
      ensures whole[i] == parts[i]
    {
      if i >= |a| {
        assert (a + b)[i] == b[i - |a|];
      }
    }
  }

  /** A key made by `generateKey` is an AES-256 key, so the cipher built on it does not panic. */
  lemma GeneratedKeyWorks(ks: Keystream, entropy: seq<byte>, data: seq<byte>)
    requires GenerateKey(entropy).Ok?
    ensures Crypt(ks, GenerateKey(entropy).value, data).Ok?
  {
  }
}

=== FILE: collaborators.dfy ===
/** The library calls both commands make and this model leaves abstract, gathered so that the
    split and the bind of one round trip can be given the same ones. */
module Collaborators {
  import opened Wrappers
  import opened Bytes
  import opened Failures
  import opened Cipher
  import opened ShardFormat

  datatype Libraries = Libraries(
    /** `shamir.Split(secret, parts, threshold)`. */
    shamirSplit: (seq<byte>, int, int) -> Result<seq<seq<byte>>, Failure>,
    /** `shamir.Combine(parts)`. */
    shamirCombine: seq<seq<byte>> -> Result<seq<byte>, Failure>,
    /** `json.Marshal` of a header (it cannot fail for this record type). */
    marshal: HorcruxHeader -> seq<byte>,
    /** `json.Unmarshal` into a zero header. */
    unmarshal: seq<byte> -> Decoded,
    /** The AES-OFB keystream of each key. */
    keystream: Keystream)

  /** What a round trip needs of the libraries: a marshalled header is one line that decodes
      back to the same header. */
  predicate HeaderCodecInverts(lib: Libraries, h: HorcruxHeader) {
    PlainLine(lib.marshal(h)) && lib.unmarshal(lib.marshal(h)) == Decoded(h, true)
  }
}

=== FILE: failures.dfy ===
/** The ways the program's operations end without their result. */
module Failures {

  datatype Failure =
    /** An error passed up from the operating system or from a library the model leaves
        abstract: reading a directory, opening, creating or writing a file, the random source. */
    | IoError(operation: string)
    /** `json.Unmarshal` rejected the header line. */
    | DecodeError
    /** `shamir.Split` or `shamir.Combine` rejected its arguments. */
    | SecretSharingError
    /** Base64 decoding rejected its input. */
    | Base64Error
    /** "Destination must be a directory". */
    | DestinationNotDirectory
    /** "All horcruxes in the given directory must have the same original filename and timestamp." */
    | Inconsistent
    /** "No horcruxes in directory". */
    | NoHorcruxes
    /** "You do not have all the required horcruxes. There are <required> required to resurrect the
        original file. You only have <held>". */
    | NotEnough(required: int, held: int)
    /** "You do not have all the required horcruxes. There are <total> in total. You only have
        horcrux(es) <indices>", from the older standalone program. */
    | MissingHorcruxes(total: int, indices: seq<int>)
    /** A runtime panic: a slice index out of range, an integer division by zero, or a cipher
        given a key of the wrong length. */
    | Panic(reason: string)
}

=== FILE: legacy.dfy ===
/** The first version of the program, kept in `main.go`: split encrypts the whole file once per
    shard, each time with a fresh key, base64-encodes the result and cuts the text into equal
    parts, one per shard; every shard stores its part and its own key in YAML after the banner.
    Bind needs every shard: it puts them in index order, joins the parts, decodes them and
    peels the layers off with the keys in the reverse order. */
module Legacy {
  import opened Wrappers
  import opened Bytes
  import opened Naming
  import opened Failures
  import opened Cipher
  import opened ShardFormat
  import opened Ordering
  import MultiplexingLaws

  /** The record a shard of the first version holds, `horcrux` in `main.go`. */
  datatype LegacyHorcrux = LegacyHorcrux(
    originalFilename: string,
    timestamp: int,
    index: int,
    total: int,
    /** The base64 text of this shard's key. */
    key: string,
    /** This shard's part of the base64 text of the encrypted file. */
    encryptedContent: string)

  /** The value of a slot no shard is stored in. */
  const ZERO_HORCRUX := LegacyHorcrux("", 0, 0, 0, "", "")

  /** The libraries the first version calls, each left abstract. */
  datatype Codecs = Codecs(
    /** `encrypt(data, key)`: AES-GCM sealing under a fresh nonce. */
    encrypt: (seq<byte>, seq<byte>) -> seq<byte>,
    /** `decrypt(data, key)` once the key has been accepted, or None where it panics: data
        shorter than the 12-byte nonce, or a failed authentication. */
    decrypt: (seq<byte>, seq<byte>) -> Option<seq<byte>>,
    /** `base64.StdEncoding.EncodeToString`. */
    encode64: seq<byte> -> string,
    /** `base64.StdEncoding.DecodeString`, or None for text that is not base64. */
    decode64: string -> Option<seq<byte>>,
    /** `yaml.Marshal` of a record (it cannot fail for this record type). */
    marshal: LegacyHorcrux -> seq<byte>,
    /** What `yaml.Decoder.Decode` leaves in a zero record when it reads a whole shard file; its
        error is ignored, so it always gives a record. */
    decode: seq<byte> -> LegacyHorcrux)

  /** A file as the first version writes it: its name and its bytes. */
  datatype Output = Output(path: string, content: seq<byte>)

  /** A shard file split writes, given by the record after its banner. */
  datatype LegacyFile = LegacyFile(record: LegacyHorcrux) {
    /** `<name without extension>_<index>_of_<total>.horcrux`, in the working directory. */
    function Name(): string {
      ShardFilename(record.originalFilename, record.index, record.total)
    }

    /** The banner for the record's index and total followed by the record in YAML. */
    function Content(marshal: LegacyHorcrux -> seq<byte>): seq<byte> {
      LegacyHeader(record.index, record.total) + marshal(record)
    }
  }

  /** `header(index, total)` of the first version: the same five comment lines and empty line
      that open a shard of the current version, without the header and body markers. */
  function LegacyHeader(index: int, total: int): seq<byte> {
    JoinLines(Banner(index, total))
  }

  // ---------------------------------------------------------------------------------------------
  // Cutting text into parts

  /** `string(runes[i*l : (i+1)*l])` for every part but the last, and `string(runes[i*l:])` for
      the last, where `l = len(runes) / n`. */
  function Part(s: string, n: nat, i: nat): (p: string)
    requires i < n
    ensures i < n - 1 ==> |p| == |s| / n
    ensures i == n - 1 ==> |p| == |s| - (n - 1) * (|s| / n)
  {
    var l := |s| / n;
    PartBounds(|s|, n, i);
    if i == n - 1 then s[i * l..] else s[i * l..(i + 1) * l]
  }

  /** `splitIntoEqualParts(s, n)`: `n` parts of `len(s) / n` characters each, the last one
      taking what is left over. A zero count divides by zero and a negative one cannot size
      the slice of parts; both panic. */
  function SplitIntoEqualParts(s: string, n: int): (r: Result<seq<string>, Failure>)
    ensures r.Ok? <==> n > 0
    ensures n == 0 ==> r == Err(Panic("integer divide by zero"))
    ensures n < 0 ==> r == Err(Panic("makeslice: len out of range"))
    ensures r.Ok? ==> |r.value| == n
    ensures r.Ok? ==> forall i :: 0 <= i < n - 1 ==> |r.value[i]| == |s| / n
    ensures r.Ok? ==> |r.value[n - 1]| == |s| - (n - 1) * (|s| / n)
  {
    if n == 0 then Err(Panic("integer divide by zero"))
    else if n < 0 then Err(Panic("makeslice: len out of range"))
    else Ok(seq(n, i requires 0 <= i < n => Part(s, n, i)))
  }

  /** The texts one after the other: `encodedContent += part` over the parts in order. */
  function Concat(parts: seq<string>): string {
    if |parts| == 0 then "" else Concat(parts[..|parts| - 1]) + parts[|parts| - 1]
  }

  // ---------------------------------------------------------------------------------------------
  // Layers of encryption

  /** The file after split's loop has encrypted it with each key in turn, the first key first. */
  function EncryptLayers(data: seq<byte>, keys: seq<seq<byte>>, encrypt: (seq<byte>, seq<byte>) -> seq<byte>): seq<byte>
    decreases |keys|
  {
    if |keys| == 0 then data else encrypt(EncryptLayers(data, keys[..|keys| - 1], encrypt), keys[|keys| - 1])
  }

  /** The rounds `i, i+1, ..., len(ordered)-1` of bind's decryption loop: round `i` decodes the
      key of the shard in slot `total - i - 1` and decrypts with it. A slot outside the slice
      panics, so does a failed decryption, and a key that is not base64 ends bind with its
      error. */
  function DecryptFrom(data: seq<byte>, ordered: seq<LegacyHorcrux>, total: int, i: nat, c: Codecs): (r: Result<seq<byte>, Failure>)
    ensures r.Err? ==> r.error == Base64Error || r.error.Panic?
    ensures i < |ordered| && 0 <= total - i - 1 < |ordered| ==>
              var text := ordered[total - i - 1].key;
              && (c.decode64(text).None? ==> r == Err(Base64Error))
              && (c.decode64(text).Some? && !ValidKeySize(|c.decode64(text).value|) ==>
                    r == Err(Panic("crypto/aes: invalid key size")))
    decreases |ordered| - i
  {
    if i >= |ordered| then Ok(data)
    else
      var slot := total - i - 1;
      if !(0 <= slot < |ordered|) then Err(Panic("index out of range"))
      else
        match c.decode64(ordered[slot].key)
        case None => Err(Base64Error)
        case Some(key) =>
          if !ValidKeySize(|key|) then Err(Panic("crypto/aes: invalid key size"))
          else
            match c.decrypt(data, key)
            case None => Err(Panic("cipher: message authentication failed"))
            case Some(plain) => DecryptFrom(plain, ordered, total, i + 1, c)
  }

  /** The 32-byte keys split draws from the random source one after the other; it stops with
      the source's error when the source runs dry. */
  function Keys(entropy: seq<byte>, n: nat): (r: Result<seq<seq<byte>>, Failure>)
    ensures r.Ok? <==> |entropy| >= n * KEY_SIZE
    ensures r.Err? ==> r.error == IoError("rand.Read")
    ensures r.Ok? ==> |r.value| == n && forall i :: 0 <= i < n ==> |r.value[i]| == KEY_SIZE
    ensures r.Ok? ==> forall i :: 0 <= i < n ==> r.value[i] == entropy[KEY_SIZE * i..KEY_SIZE * (i + 1)]
  {
    if n == 0 then Ok([])
    else
      var key :- GenerateKey(entropy);
      var rest :- Keys(entropy[KEY_SIZE..], n - 1);
      Ok([key] + rest)
  }

  // ---------------------------------------------------------------------------------------------
  // Split

  /** The record of shard `i` (0-based). */
  function Record(name: string, now: int, total: int, keys: seq<seq<byte>>, parts: seq<string>, i: nat, c: Codecs): LegacyHorcrux
    requires i < |keys| && i < |parts|
  {
    LegacyHorcrux(name, now, i + 1, total, c.encode64(keys[i]), parts[i])
  }

  /** `split(path)` once the count has been read from the prompt: the shard files it writes, in
      index order, each in the working directory. The file is read first; a negative count then
      cannot size the key slice and a zero count divides by zero when the text is cut. The
      error of writing each shard is ignored. */
  function LegacySplit(path: string, total: int, now: int, read: string -> Result<seq<byte>, Failure>,
                       entropy: seq<byte>, c: Codecs): (r: Result<seq<LegacyFile>, Failure>)
    ensures read(path).Err? ==> r == Err(read(path).error)
    ensures read(path).Ok? && total <= 0 ==> r.Err? && r.error.Panic?
    ensures r.Ok? ==> total > 0 && |r.value| == total
    ensures r.Ok? ==> forall i :: 0 <= i < total ==>
                        r.value[i].record.index == i + 1 && r.value[i].record.total == total &&
                        r.value[i].record.originalFilename == Base(path) && r.value[i].record.timestamp == now
  {
    var content :- read(path);
    if total < 0 then Err(Panic("makeslice: len out of range"))
    else
      var keys :- Keys(entropy, total);
      var parts :- SplitIntoEqualParts(c.encode64(EncryptLayers(content, keys, c.encrypt)), total);
      var name := Base(path);
      Ok(seq(total, i requires 0 <= i < total => LegacyFile(Record(name, now, total, keys, parts, i, c))))
  }

  // ---------------------------------------------------------------------------------------------
  // Bind

  /** The file system around one bind of the first version. */
  datatype LegacyDisk = LegacyDisk(
    /** Every path `filepath.Walk` visits under the directory; its errors are ignored. */
    walk: seq<string>,
    open: string -> Result<seq<byte>, Failure>,
    /** The name the restored file gets: the original name, or the one typed at the prompt when
        a file of that name exists. */
    target: string -> string,
    /** The error, if any, of writing a file. */
    write: (string, seq<byte>) -> Option<Failure>)

  /** What opening each path gives: its error, or the record decoded from the file. */
  function Tries(names: seq<string>, open: string -> Result<seq<byte>, Failure>, decode: seq<byte> -> LegacyHorcrux): (ts: seq<Result<LegacyHorcrux, Failure>>)
    ensures |ts| == |names|
    ensures forall i :: 0 <= i < |names| ==> (ts[i].Err? <==> open(names[i]).Err?)
    ensures forall i :: 0 <= i < |names| && ts[i].Err? ==> ts[i].error == open(names[i]).error
    ensures forall i :: 0 <= i < |names| && ts[i].Ok? ==> ts[i].value == decode(open(names[i]).value)
  {
    seq(|names|, i requires 0 <= i < |names| =>
      match open(names[i])
      case Ok(data) => Ok(decode(data))
      case Err(e) => Err(e))
  }

  /** Bind's running state: the name, timestamp and total it goes by, and the records held. */
  datatype Tally = Tally(originalFilename: string, timestamp: int, total: int, held: seq<LegacyHorcrux>)

  const START := Tally("", 0, 0, [])

  /** One round of bind's loop over the files. While no name has been taken, the record's name,
      timestamp and total are taken; afterwards a record whose name or timestamp differs ends
      bind. The record is kept either way: the check for a repeated index only continues its
      own inner loop. */
  function Accept(t: Tally, h: LegacyHorcrux): (r: Result<Tally, Failure>)
    ensures r.Ok? ==> r.value.held == t.held + [h]
    ensures r.Err? ==> r.error == Inconsistent
  {
    if t.originalFilename == "" then Ok(Tally(h.originalFilename, h.timestamp, h.total, t.held + [h]))
    else if h.originalFilename != t.originalFilename || h.timestamp != t.timestamp then Err(Inconsistent)
    else Ok(t.(held := t.held + [h]))
  }

  /** The first `k` rounds of the loop: an error opening a file stops it, as does a record
      `Accept` refuses. */
  function Collect(tries: seq<Result<LegacyHorcrux, Failure>>, k: nat): (r: Result<Tally, Failure>)
    requires k <= |tries|
    ensures r.Ok? ==> AllOk(tries, k) && r.value.held == Values(tries, k)
    ensures r.Err? ==> r.error == Inconsistent || exists i :: 0 <= i < k && tries[i] == Err(r.error)
  {
    if k == 0 then Ok(START)
    else
      var t :- Collect(tries, k - 1);
      var h :- tries[k - 1];
      assert Values(tries, k) == t.held + [h];
      Accept(t, h)
  }

  /** What bind's checks demand of the records in the order it reads them: once a record has
      a name, every later one carries that name and its timestamp. */
  predicate Agree(hs: seq<LegacyHorcrux>) {
    forall i, j :: 0 <= i < j < |hs| && hs[i].originalFilename != "" ==>
      hs[j].originalFilename == hs[i].originalFilename && hs[j].timestamp == hs[i].timestamp
  }

  /** The record whose name, timestamp and total bind goes by: the first one with a name, or
      the last one when none has a name. */
  function Leader(hs: seq<LegacyHorcrux>): (l: nat)
    requires |hs| > 0
    ensures l < |hs|
    ensures forall j :: 0 <= j < l ==> hs[j].originalFilename == ""
    ensures hs[l].originalFilename == "" ==> l == |hs| - 1
  {
    if |hs| == 1 || hs[0].originalFilename != "" then 0 else 1 + Leader(hs[1..])
  }

  /** The indices of the records held, as the count error lists them. */
  function Indices(hs: seq<LegacyHorcrux>): (ix: seq<int>)
    ensures |ix| == |hs|
    ensures forall i :: 0 <= i < |hs| ==> ix[i] == hs[i].index
  {
    seq(|hs|, i requires 0 <= i < |hs| => hs[i].index)
  }

  function Contents(hs: seq<LegacyHorcrux>): (cs: seq<string>)
    ensures |cs| == |hs|
    ensures forall i :: 0 <= i < |hs| ==> cs[i] == hs[i].encryptedContent
  {
    seq(|hs|, i requires 0 <= i < |hs| => hs[i].encryptedContent)
  }

  /** `bind(dir)` of the first version: the file it writes, or the error it stops with, in the
      program's order: opening and checking the shards, the count, the ordering by index, the
      base64 decoding, the layers of decryption and the write. */
  function LegacyBind(disk: LegacyDisk, c: Codecs): (r: Result<Output, Failure>)
    ensures r.Ok? ==> Collect(Listed(disk, c), |Listed(disk, c)|).Ok?
    ensures r.Ok? ==>
      var t := Collect(Listed(disk, c), |Listed(disk, c)|).value;
      && t.total <= |t.held|
      && Place(t.held, Indices(t.held), ZERO_HORCRUX).Ok?
      && r.value.path == disk.target(t.originalFilename)
  {
    var tries := Listed(disk, c);
    var t :- Collect(tries, |tries|);
    if |t.held| < t.total then Err(MissingHorcruxes(t.total, Indices(t.held)))
    else
      var ordered :- Place(t.held, Indices(t.held), ZERO_HORCRUX);
      match c.decode64(Concat(Contents(ordered)))
      case None => Err(Base64Error)
      case Some(encrypted) =>
        var content :- DecryptFrom(encrypted, ordered, t.total, 0, c);
        var name := disk.target(t.originalFilename);
        match disk.write(name, content)
        case Some(e) => Err(e)
        case None => Ok(Output(name, content))
  }

  /** What opening each `.horcrux` path the walk visits gives. */
  function Listed(disk: LegacyDisk, c: Codecs): (ts: seq<Result<LegacyHorcrux, Failure>>)
    ensures |ts| == |ShardNames(disk.walk)|
  {
    Tries(ShardNames(disk.walk), disk.open, c.decode)
  }

  // ---------------------------------------------------------------------------------------------
  // Properties

  /** The banner of the first version is the header of the current one up to its markers: the
      current version only added the marker lines and the header line between them. */
  lemma LegacyHeaderPrefix(index: int, total: int, line: seq<byte>)
    ensures LegacyHeader(index, total) + JoinLines([MarkerBytes(), line, BodyMarkerBytes()]) == Header(index, total, line)
  {
    JoinLinesAppend(Banner(index, total), [MarkerBytes(), line, BodyMarkerBytes()]);
  }

  lemma PartBounds(len: nat, n: nat, i: nat)
    requires i < n
    ensures 0 <= i * (len / n) <= (i + 1) * (len / n) <= len
    ensures (i + 1) * (len / n) == i * (len / n) + len / n
  {
    var l := len / n;
    assert n * l <= len;
    assert (i + 1) * l == i * l + l;
    MultiplexingLaws.MulLe(i + 1, n, l);
  }

  /** The parts rebuild the text they were cut from. */
  lemma EqualPartsConcat(s: string, n: int)
    requires n > 0
    ensures Concat(SplitIntoEqualParts(s, n).value) == s
  {
    var parts := SplitIntoEqualParts(s, n).value;
    var l := |s| / n;
    ConcatFirst(s, n, n - 1);
    PartBounds(|s|, n, n - 1);
    assert parts[..n][..n - 1] == parts[..n - 1];
    assert parts[..n] == parts;
  }

  /** The first `k` parts, `k < n`, rebuild the first `k * (len(s) / n)` characters. */
  lemma {:induction false} ConcatFirst(s: string, n: int, k: nat)
    requires 0 <= k < n
    ensures k * (|s| / n) <= |s|
    ensures Concat(SplitIntoEqualParts(s, n).value[..k]) == s[..k * (|s| / n)]
  {
    var parts := SplitIntoEqualParts(s, n).value;
    var l := |s| / n;
    if k == 0 {
      PartBounds(|s|, n, 0);
    } else {
      ConcatFirst(s, n, k - 1);
      PartBounds(|s|, n, k - 1);
      assert parts[..k][..k - 1] == parts[..k - 1];
      assert parts[k - 1] == s[(k - 1) * l..k * l];
      assert s[..(k - 1) * l] + s[(k - 1) * l..k * l] == s[..k * l];
    }
  }

  /** Bind's loop peels split's layers off: with keys that decode back from their base64 text
      and a cipher whose decryption undoes its encryption under every 32-byte key, decrypting
      with the keys of slots `total-1` down to 0 gives back the data encrypted with the keys
      of slots 0 up to `total-1`. Rounds from `i` on peel the innermost `total - i` layers. */
  lemma {:induction false} PeelLayers(data: seq<byte>, keys: seq<seq<byte>>, ordered: seq<LegacyHorcrux>, i: nat, c: Codecs)
    requires |ordered| == |keys| && i <= |keys|
    requires forall j :: 0 <= j < |keys| ==> |keys[j]| == KEY_SIZE && ordered[j].key == c.encode64(keys[j])
    requires forall x :: c.decode64(c.encode64(x)) == Some(x)
    requires forall x, k :: |k| == KEY_SIZE ==> c.decrypt(c.encrypt(x, k), k) == Some(x)
    ensures DecryptFrom(EncryptLayers(data, keys[..|keys| - i], c.encrypt), ordered, |keys|, i, c) == Ok(data)
    decreases |keys| - i
  {
    var m := |keys| - i;
    if m > 0 {
      var inner := EncryptLayers(data, keys[..m - 1], c.encrypt);
      assert keys[..m][..m - 1] == keys[..m - 1];
      assert EncryptLayers(data, keys[..m], c.encrypt) == c.encrypt(inner, keys[m - 1]);
      assert c.decode64(ordered[m - 1].key) == Some(keys[m - 1]);
      assert c.decrypt(c.encrypt(inner, keys[m - 1]), keys[m - 1]) == Some(inner);
      PeelLayers(data, keys, ordered, i + 1, c);
    }
  }

  /** Holding more records than the total makes the loop run past slot 0: some round panics or
      fails before the loop ends, so bind never writes a file. */
  lemma {:induction false} ExtraRoundsFail(data: seq<byte>, ordered: seq<LegacyHorcrux>, total: int, i: nat, c: Codecs)
    requires 0 < |ordered| && total < |ordered|
    requires i <= (if total < 0 then 0 else total)
    ensures DecryptFrom(data, ordered, total, i, c).Err?
    decreases |ordered| - i
  {
    var slot := total - i - 1;
    if 0 <= slot < |ordered| {
      match c.decode64(ordered[slot].key)
      case None =>
      case Some(key) =>
        if ValidKeySize(|key|) {
          match c.decrypt(data, key)
          case None =>
          case Some(plain) => ExtraRoundsFail(plain, ordered, total, i + 1, c);
        }
    }
  }

  /** The leader is the first record with a name, or the last record when none has one. */
  lemma {:induction false} LeaderIs(hs: seq<LegacyHorcrux>, m: nat)
    requires m < |hs|
    requires forall j :: 0 <= j < m ==> hs[j].originalFilename == ""
    requires hs[m].originalFilename != "" || m == |hs| - 1
    ensures Leader(hs) == m
  {
    if m > 0 {
      assert hs[0].originalFilename == "";
      LeaderIs(hs[1..], m - 1);
    }
  }

  /** `t` is the state bind reaches after the records `hs`: the zero state before any, and
      afterwards the leader's name, timestamp and total with every record held. */
  predicate Tallies(t: Tally, hs: seq<LegacyHorcrux>) {
    if |hs| == 0 then t == START
    else t == Tally(hs[Leader(hs)].originalFilename, hs[Leader(hs)].timestamp, hs[Leader(hs)].total, hs)
  }

  /** The loop over the files accepts exactly the records that agree, and then goes by the
      leader's name, timestamp and total. */
  lemma {:induction false} CollectAgrees(tries: seq<Result<LegacyHorcrux, Failure>>, k: nat)
    requires k <= |tries|
    ensures Collect(tries, k).Ok? <==> AllOk(tries, k) && Agree(Values(tries, k))
    ensures Collect(tries, k).Ok? ==> Tallies(Collect(tries, k).value, Values(tries, k))
  {
    if k > 0 {
      CollectAgrees(tries, k - 1);
      if AllOk(tries, k) {
        var hs := Values(tries, k);
        var prev := Values(tries, k - 1);
        assert hs == prev + [hs[k - 1]];
        if Collect(tries, k - 1).Ok? {
          AcceptAgrees(Collect(tries, k - 1).value, prev, hs[k - 1]);
        } else {
          AgreePrefix(prev, hs[k - 1]);
        }
      }
    }
  }

  lemma AgreePrefix(prev: seq<LegacyHorcrux>, h: LegacyHorcrux)
    ensures Agree(prev + [h]) ==> Agree(prev)
  {
    if Agree(prev + [h]) {
      forall i, j | 0 <= i < j < |prev| && prev[i].originalFilename != ""
        ensures prev[j].originalFilename == prev[i].originalFilename && prev[j].timestamp == prev[i].timestamp
      {
        assert (prev + [h])[i] == prev[i] && (prev + [h])[j] == prev[j];
      }
    }
  }

  /** One round of the loop keeps the state in step with the records: the record is accepted
      exactly when it agrees with those before it. */
  lemma AcceptAgrees(t: Tally, prev: seq<LegacyHorcrux>, h: LegacyHorcrux)
    requires Tallies(t, prev) && Agree(prev)
    ensures Accept(t, h).Ok? <==> Agree(prev + [h])
    ensures Accept(t, h).Ok? ==> Tallies(Accept(t, h).value, prev + [h])
  {
    var hs := prev + [h];
    var k := |hs|;
    if |prev| == 0 {
      LeaderIs(hs, 0);
    } else {
      var l := Leader(prev);
      if prev[l].originalFilename == "" {
        assert forall j :: 0 <= j < k - 1 ==> hs[j].originalFilename == "";
        LeaderIs(hs, k - 1);
      } else {
        assert hs[l] == prev[l];
        LeaderIs(hs, l);
        forall i | 0 <= i < k - 1 && hs[i].originalFilename != ""
          ensures hs[i].originalFilename == prev[l].originalFilename && hs[i].timestamp == prev[l].timestamp
        {
          if i != l {
            assert l < i;
          }
        }
        var matches := h.originalFilename == prev[l].originalFilename && h.timestamp == prev[l].timestamp;
        if Agree(hs) {
          assert hs[k - 1] == h;
        }
        if matches {
          forall i, j | 0 <= i < j < k && hs[i].originalFilename != ""
            ensures hs[j].originalFilename == hs[i].originalFilename && hs[j].timestamp == hs[i].timestamp
          {
            if j < k - 1 {
              assert hs[i] == prev[i] && hs[j] == prev[j];
            }
          }
        }
      }
    }
  }

  /** A bind that writes a file held records that all opened and agreed, and exactly as many
      as the leader's total: fewer are refused, and more make the decryption loop fail. */
  lemma LegacyBindChecks(disk: LegacyDisk, c: Codecs)
    requires LegacyBind(disk, c).Ok?
    ensures AllOk(Listed(disk, c), |Listed(disk, c)|)
    ensures Agree(Values(Listed(disk, c), |Listed(disk, c)|))
    ensures var hs := Values(Listed(disk, c), |Listed(disk, c)|);
            |hs| > 0 ==> |hs| == hs[Leader(hs)].total
  {
    var tries := Listed(disk, c);
    CollectAgrees(tries, |tries|);
    var t := Collect(tries, |tries|).value;
    if |t.held| > 0 && t.total < |t.held| {
      var ordered := Place(t.held, Indices(t.held), ZERO_HORCRUX).value;
      var encrypted := c.decode64(Concat(Contents(ordered)));
      if encrypted.Some? {
        ExtraRoundsFail(encrypted.value, ordered, t.total, 0, c);
      }
    }
  }

  /** Once a record with a name has been read, a later record with another name or timestamp
      ends bind with the consistency error, provided every file opens. */
  lemma LegacyInconsistent(disk: LegacyDisk, c: Codecs, i: nat, j: nat)
    requires AllOk(Listed(disk, c), |Listed(disk, c)|)
    requires var hs := Values(Listed(disk, c), |Listed(disk, c)|);
             && i < j < |hs| && hs[i].originalFilename != ""
             && (hs[j].originalFilename != hs[i].originalFilename || hs[j].timestamp != hs[i].timestamp)
    ensures LegacyBind(disk, c) == Err(Inconsistent)
  {
    var tries := Listed(disk, c);
    CollectAgrees(tries, |tries|);
  }

  /** Records that all open and agree but number fewer than the leader's total are refused with
      the total and the indices held, in the order they were read. */
  lemma LegacyTooFew(disk: LegacyDisk, c: Codecs)
    requires AllOk(Listed(disk, c), |Listed(disk, c)|)
    requires var hs := Values(Listed(disk, c), |Listed(disk, c)|);
             0 < |hs| < hs[Leader(hs)].total && Agree(hs)
    ensures var hs := Values(Listed(disk, c), |Listed(disk, c)|);
            LegacyBind(disk, c) == Err(MissingHorcruxes(hs[Leader(hs)].total, Indices(hs)))
  {
    var tries := Listed(disk, c);
    CollectAgrees(tries, |tries|);
  }

  // ---------------------------------------------------------------------------------------------
  // Round trip

  /** What split's files hold: the records its body builds from the keys it drew and the parts
      it cut. */
  lemma LegacySplitContents(path: string, total: int, now: int, read: string -> Result<seq<byte>, Failure>,
                            entropy: seq<byte>, c: Codecs)
    requires LegacySplit(path, total, now, read, entropy, c).Ok?
    ensures read(path).Ok? && total > 0 && Keys(entropy, total).Ok?
    ensures SplitIntoEqualParts(c.encode64(EncryptLayers(read(path).value, Keys(entropy, total).value, c.encrypt)), total).Ok?
    ensures forall i :: 0 <= i < total ==>
              LegacySplit(path, total, now, read, entropy, c).value[i].record ==
              Record(Base(path), now, total, Keys(entropy, total).value,
                     SplitIntoEqualParts(c.encode64(EncryptLayers(read(path).value, Keys(entropy, total).value, c.encrypt)), total).value, i, c)
  {
  }

  /** The paths the walk finds, with extension `.horcrux`, are split's files in the order
      `order` gives: path `k` opens to the file of index `order[k] + 1`. */
  predicate LegacyListing(disk: LegacyDisk, c: Codecs, files: seq<LegacyFile>, order: seq<int>) {
    && |ShardNames(disk.walk)| == |order|
    && forall k :: 0 <= k < |order| ==>
         0 <= order[k] < |files| && disk.open(ShardNames(disk.walk)[k]) == Ok(files[order[k]].Content(c.marshal))
  }

  /** The first version's bind undoes its split: when the directory holds every shard split
      wrote, once each and in any order, and the libraries invert one another (YAML reads a
      record back past the banner's comment lines, base64 decodes what it encoded, and AES-GCM
      opens what it sealed), bind writes the original bytes under the original file's name. */
  lemma LegacyRoundTrip(path: string, total: int, now: int, read: string -> Result<seq<byte>, Failure>,
                        entropy: seq<byte>, c: Codecs, files: seq<LegacyFile>, order: seq<int>, pos: seq<int>,
                        disk: LegacyDisk)
    requires LegacySplit(path, total, now, read, entropy, c) == Ok(files)
    requires LegacyListing(disk, c, files, order) && |order| == |files|
    requires Permutes(seq(|order|, k requires 0 <= k < |order| => order[k] + 1), pos)
    requires forall i :: 0 <= i < |files| ==> c.decode(files[i].Content(c.marshal)) == files[i].record
    requires forall x :: c.decode64(c.encode64(x)) == Some(x)
    requires forall x, k :: |k| == KEY_SIZE ==> c.decrypt(c.encrypt(x, k), k) == Some(x)
    requires read(path).Ok? && disk.write(disk.target(Base(path)), read(path).value) == None
    ensures LegacyBind(disk, c) == Ok(Output(disk.target(Base(path)), read(path).value))
  {
    var hs := LegacyCollected(path, total, now, read, entropy, c, files, order, disk);
    var ordered := LegacyRejoined(path, total, now, read, entropy, c, files, order, pos, hs);
    LegacyBindFrom(disk, c, Tally(Base(path), now, total, hs), ordered, read(path).value, Keys(entropy, total).value);
  }

  /** Bind's loop over the listed paths accepts every shard split wrote and goes by the split
      file's name, the split's timestamp and its total. */
  lemma LegacyCollected(path: string, total: int, now: int, read: string -> Result<seq<byte>, Failure>,
                        entropy: seq<byte>, c: Codecs, files: seq<LegacyFile>, order: seq<int>, disk: LegacyDisk)
    returns (hs: seq<LegacyHorcrux>)
    requires LegacySplit(path, total, now, read, entropy, c) == Ok(files)
    requires LegacyListing(disk, c, files, order) && |order| == |files|
    requires forall i :: 0 <= i < |files| ==> c.decode(files[i].Content(c.marshal)) == files[i].record
    ensures Collect(Listed(disk, c), |Listed(disk, c)|) == Ok(Tally(Base(path), now, total, hs))
    ensures |hs| == total && forall k :: 0 <= k < |order| ==> hs[k] == files[order[k]].record
  {
    hs := LegacyHeld(disk, c, files, order);
    var tries := Listed(disk, c);
    LegacyAgree(path, total, now, hs);
    CollectAgrees(tries, |tries|);
    LeaderIs(hs, 0);
    var first := files[order[0]].record;
    assert hs[0] == first && first.originalFilename == Base(path) && first.timestamp == now && first.total == total;
    assert Tallies(Collect(tries, |tries|).value, hs);
  }

  /** Sorted by index, the records' parts join into the base64 text split cut, and slot `j`
      holds the base64 text of the key of layer `j`. */
  lemma LegacyRejoined(path: string, total: int, now: int, read: string -> Result<seq<byte>, Failure>,
                       entropy: seq<byte>, c: Codecs, files: seq<LegacyFile>, order: seq<int>, pos: seq<int>,
                       hs: seq<LegacyHorcrux>)
    returns (ordered: seq<LegacyHorcrux>)
    requires LegacySplit(path, total, now, read, entropy, c) == Ok(files)
    requires |order| == |files| == |hs|
    requires forall k :: 0 <= k < |order| ==> 0 <= order[k] < |files| && hs[k] == files[order[k]].record
    requires Permutes(seq(|order|, k requires 0 <= k < |order| => order[k] + 1), pos)
    ensures read(path).Ok? && Keys(entropy, total).Ok? && |Keys(entropy, total).value| == |hs|
    ensures Place(hs, Indices(hs), ZERO_HORCRUX) == Ok(ordered)
    ensures Concat(Contents(ordered)) == c.encode64(EncryptLayers(read(path).value, Keys(entropy, total).value, c.encrypt))
    ensures forall j :: 0 <= j < |hs| ==> ordered[j].key == c.encode64(Keys(entropy, total).value[j])
  {
    LegacySplitContents(path, total, now, read, entropy, c);
    var keys := Keys(entropy, total).value;
    var encoded := c.encode64(EncryptLayers(read(path).value, keys, c.encrypt));
    var parts := SplitIntoEqualParts(encoded, total).value;
    ordered := LegacyOrdered(files, order, pos, hs);
    forall j | 0 <= j < total
      ensures ordered[j].encryptedContent == parts[j] && ordered[j].key == c.encode64(keys[j])
    {
      assert ordered[j] == Record(Base(path), now, total, keys, parts, j, c);
    }
    assert Contents(ordered) == parts;
    EqualPartsConcat(encoded, total);
  }

  /** Bind from the sorted records on: when the joined parts decode to the layered
      encryption and each slot holds the base64 text of its layer's key, bind peels the layers
      and writes the data. */
  lemma LegacyBindFrom(disk: LegacyDisk, c: Codecs, t: Tally, ordered: seq<LegacyHorcrux>, content: seq<byte>, keys: seq<seq<byte>>)
    requires Collect(Listed(disk, c), |Listed(disk, c)|) == Ok(t)
    requires |t.held| == t.total == |keys| && Place(t.held, Indices(t.held), ZERO_HORCRUX) == Ok(ordered)
    requires c.decode64(Concat(Contents(ordered))) == Some(EncryptLayers(content, keys, c.encrypt))
    requires forall j :: 0 <= j < |keys| ==> |keys[j]| == KEY_SIZE && ordered[j].key == c.encode64(keys[j])
    requires forall x :: c.decode64(c.encode64(x)) == Some(x)
    requires forall x, k :: |k| == KEY_SIZE ==> c.decrypt(c.encrypt(x, k), k) == Some(x)
    requires disk.write(disk.target(t.originalFilename), content) == None
    ensures LegacyBind(disk, c) == Ok(Output(disk.target(t.originalFilename), content))
  {
    assert keys[..|keys| - 0] == keys;
    PeelLayers(content, keys, ordered, 0, c);
  }

  /** Every listed path opens and reads back as the record of its file. */
  lemma LegacyHeld(disk: LegacyDisk, c: Codecs, files: seq<LegacyFile>, order: seq<int>) returns (hs: seq<LegacyHorcrux>)
    requires LegacyListing(disk, c, files, order)
    requires forall i :: 0 <= i < |files| ==> c.decode(files[i].Content(c.marshal)) == files[i].record
    ensures AllOk(Listed(disk, c), |Listed(disk, c)|) && hs == Values(Listed(disk, c), |Listed(disk, c)|)
    ensures |hs| == |order| && forall k :: 0 <= k < |order| ==> hs[k] == files[order[k]].record
  {
    var tries := Listed(disk, c);
    forall k | 0 <= k < |order|
      ensures tries[k] == Ok(files[order[k]].record)
    {
    }
    hs := Values(tries, |tries|);
  }

  /** Records from one split agree: they all carry the split file's name, which is never
      empty, and the same timestamp. */
  lemma LegacyAgree(path: string, total: int, now: int, hs: seq<LegacyHorcrux>)
    requires forall k :: 0 <= k < |hs| ==> hs[k].originalFilename == Base(path) && hs[k].timestamp == now
    ensures Agree(hs)
  {
  }

  /** Sorting the records by index puts split's records back in split's order. */
  lemma LegacyOrdered(files: seq<LegacyFile>, order: seq<int>, pos: seq<int>, hs: seq<LegacyHorcrux>) returns (ordered: seq<LegacyHorcrux>)
    requires |order| == |files| == |hs|
    requires forall i :: 0 <= i < |files| ==> files[i].record.index == i + 1
    requires forall k :: 0 <= k < |order| ==> 0 <= order[k] < |files| && hs[k] == files[order[k]].record
    requires Permutes(seq(|order|, k requires 0 <= k < |order| => order[k] + 1), pos)
    ensures Place(hs, Indices(hs), ZERO_HORCRUX) == Ok(ordered)
    ensures |ordered| == |files| && forall j :: 0 <= j < |files| ==> ordered[j] == files[j].record
  {
    assert Indices(hs) == seq(|order|, k requires 0 <= k < |order| => order[k] + 1);
    PlaceSorts(hs, Indices(hs), ZERO_HORCRUX, pos);
    ordered := Place(hs, Indices(hs), ZERO_HORCRUX).value;
    forall j | 0 <= j < |files|
      ensures ordered[j] == files[j].record
    {
      assert Indices(hs)[pos[j]] == j + 1;
    }
  }
}

=== FILE: multiplexing.dfy ===
/** The round-robin distribution engine of pkg/multiplexing: a Demultiplexer that spreads a byte
    stream over N writers in turns of BYTE_QUOTA bytes, and a Multiplexer that reads it back. */
module Multiplexing {
  import opened Bytes

  const BYTE_QUOTA: int := 100

  function Min(a: int, b: int): (r: int)
    ensures r <= a && r <= b
    ensures r == a || r == b
  {
    if a > b then b else a
  }

  // ---------------------------------------------------------------------------------------------
  // The turn: whose turn it is, and how much of its quota it has used

  /** The engine state shared by both directions: `writerIndex`/`bytesWritten` of the
      Demultiplexer, `readerIndex`/`bytesRead` of the Multiplexer. */
  datatype Turn = Turn(index: int, used: int)

  predicate ValidTurn(t: Turn, n: int) {
    0 <= t.index < n && 0 <= t.used < BYTE_QUOTA
  }

  /** nextWriter / nextReader: the next participant, wrapping to the first, with a fresh quota. */
  function NextTurn(t: Turn, n: int): (r: Turn)
    ensures r.used == 0
    ensures 0 <= t.index < n ==> ValidTurn(r, n) && r.index == (t.index + 1) % n
  {
    Turn(if t.index + 1 > n - 1 then 0 else t.index + 1, 0)
  }

  /** The turn after `k` more bytes went to the participant in turn: the quota is used up when
      nothing of it remains (`remaining - k <= 0`). */
  function AfterChunk(t: Turn, n: int, k: int): Turn {
    if BYTE_QUOTA - t.used - k <= 0 then NextTurn(t, n) else Turn(t.index, t.used + k)
  }

  // ---------------------------------------------------------------------------------------------
  // The reference distribution, one byte at a time

  function TotalLength(outs: seq<seq<byte>>): nat {
    if |outs| == 0 then 0 else |outs[0]| + TotalLength(outs[1..])
  }

  lemma {:induction false} TotalLengthAppend(outs: seq<seq<byte>>, i: int, b: byte)
    requires 0 <= i < |outs|
    ensures TotalLength(outs[i := outs[i] + [b]]) == TotalLength(outs) + 1
    decreases |outs|
  {
    if i > 0 {
      assert outs[i := outs[i] + [b]][1..] == outs[1..][i - 1 := outs[i] + [b]];
      TotalLengthAppend(outs[1..], i - 1, b);
    }
  }

  datatype Spread = Spread(outs: seq<seq<byte>>, turn: Turn)

  /** Where each byte of `s` goes: appended to the output in turn, one byte using one unit of
      quota. */
  function Deal(outs: seq<seq<byte>>, turn: Turn, s: seq<byte>): (r: Spread)
    requires 0 <= turn.index < |outs|
    ensures |r.outs| == |outs|
    ensures 0 <= r.turn.index < |outs|
    ensures ValidTurn(turn, |outs|) ==> ValidTurn(r.turn, |outs|)
    decreases |s|
  {
    if |s| == 0 then Spread(outs, turn)
    else
      var i := turn.index;
      Deal(outs[i := outs[i] + [s[0]]], AfterChunk(turn, |outs|, 1), s[1..])
  }

  /** Outputs only grow, and exactly |s| bytes are added over all of them: nothing is
      duplicated or dropped. */
  lemma {:induction false} DealGrows(outs: seq<seq<byte>>, turn: Turn, s: seq<byte>)
    requires 0 <= turn.index < |outs|
    ensures forall j :: 0 <= j < |outs| ==> outs[j] <= Deal(outs, turn, s).outs[j]
    ensures TotalLength(Deal(outs, turn, s).outs) == TotalLength(outs) + |s|
    decreases |s|
  {
    if |s| > 0 {
      var i := turn.index;
      var outs1 := outs[i := outs[i] + [s[0]]];
      TotalLengthAppend(outs, i, s[0]);
      DealGrows(outs1, AfterChunk(turn, |outs|, 1), s[1..]);
      assert forall j :: 0 <= j < |outs| ==> outs[j] <= outs1[j];
    }
  }

  /** n empty outputs, and the engine at its zero state: what `Demultiplexer{Writers: files}`
      starts from. */
  function Empties(n: nat): seq<seq<byte>> {
    seq(n, j => [])
  }

  function DealFresh(n: nat, s: seq<byte>): Spread
    requires n > 0
  {
    Deal(Empties(n), Turn(0, 0), s)
  }

  lemma {:induction false} DealAppend(outs: seq<seq<byte>>, turn: Turn, x: seq<byte>, y: seq<byte>)
    requires 0 <= turn.index < |outs|
    ensures Deal(outs, turn, x + y) == Deal(Deal(outs, turn, x).outs, Deal(outs, turn, x).turn, y)
    decreases |x|
  {
    if |x| > 0 {
      assert (x + y)[0] == x[0];
      assert (x + y)[1..] == x[1..] + y;
      DealAppend(outs[turn.index := outs[turn.index] + [x[0]]], AfterChunk(turn, |outs|, 1), x[1..], y);
    } else {
      assert x + y == y;
    }
  }

  /** A run that fits in what is left of the current quota goes, whole, to the participant in
      turn; the turn moves on exactly when the quota is used up. */
  lemma {:induction false} DealChunk(outs: seq<seq<byte>>, turn: Turn, y: seq<byte>)
    requires ValidTurn(turn, |outs|)
    requires turn.used + |y| <= BYTE_QUOTA
    ensures Deal(outs, turn, y)
         == Spread(outs[turn.index := outs[turn.index] + y],
                   if |y| == 0 then turn else AfterChunk(turn, |outs|, |y|))
    decreases |y|
  {
    if |y| == 0 {
      assert outs[turn.index] + y == outs[turn.index];
      assert outs[turn.index := outs[turn.index] + y] == outs;
    } else if |y| == 1 {
      assert y == [y[0]];
    } else {
      var i := turn.index;
      var outs1 := outs[i := outs[i] + [y[0]]];
      var turn1 := Turn(i, turn.used + 1);
      assert AfterChunk(turn, |outs|, 1) == turn1;
      DealChunk(outs1, turn1, y[1..]);
      assert outs1[i] + y[1..] == outs[i] + y by {
        assert [y[0]] + y[1..] == y;
        assert outs1[i] == outs[i] + [y[0]];
      }
      assert outs1[i := outs1[i] + y[1..]] == outs[i := outs[i] + y];
    }
  }

  // ---------------------------------------------------------------------------------------------
  // Demultiplexer

  /** An underlying writer: what it holds, and how many more bytes it can take before failing
      (a file on a full disk). A writer that accepts everything has room for the whole stream. */
  datatype Sink = Sink(data: seq<byte>, room: nat)

  datatype Accepted = Accepted(sink: Sink, n: nat, failed: bool)

  /** `File.Write`: accepts as much as there is room for, and reports an error exactly when it
      accepted less than it was given. */
  function SinkWrite(w: Sink, chunk: seq<byte>): (r: Accepted)
    ensures r.n <= |chunk|
    ensures r.sink.data == w.data + chunk[..r.n]
    ensures r.sink.room + r.n == w.room
    ensures r.failed <==> r.n < |chunk|
    ensures r.failed ==> r.sink.room == 0
  {
    var n := Min(|chunk|, w.room);
    Accepted(Sink(w.data + chunk[..n], w.room - n), n, n < |chunk|)
  }

  datatype Demultiplexer = Demultiplexer(writers: seq<Sink>, writerIndex: int, bytesWritten: int)

  predicate ValidDemultiplexer(d: Demultiplexer) {
    ValidTurn(Turn(d.writerIndex, d.bytesWritten), |d.writers|)
  }

  function Contents(ws: seq<Sink>): (r: seq<seq<byte>>)
    ensures |r| == |ws|
  {
    seq(|ws|, j requires 0 <= j < |ws| => ws[j].data)
  }

  /** `Demultiplexer.Write(p)`: returns the number of bytes taken and whether a writer failed.
      The bytes taken are distributed exactly as the reference `Deal` distributes them, so that
      consecutive calls compose (see `DealAppend`); with writers that accept everything all of
      `p` is taken; after a failure the engine stays on the failing writer. No writer takes more
      than the bytes taken overall. `sizes` lists the lengths of the slices handed to the
      underlying writers, in order. */
  method Write(d: Demultiplexer, p: seq<byte>) returns (d': Demultiplexer, n: int, failed: bool, sizes: seq<int>)
    requires ValidDemultiplexer(d)
    ensures ValidDemultiplexer(d') && |d'.writers| == |d.writers|
    ensures 0 <= n <= |p|
    ensures Spread(Contents(d'.writers), Turn(d'.writerIndex, d'.bytesWritten))
         == Deal(Contents(d.writers), Turn(d.writerIndex, d.bytesWritten), p[..n])
    ensures !failed ==> n == |p|
    ensures failed ==> n < |p| && d'.writers[d'.writerIndex].room == 0
    ensures (forall j :: 0 <= j < |d.writers| ==> d.writers[j].room >= |p|) ==> !failed
    ensures forall j :: 0 <= j < |d.writers| ==> d'.writers[j].room + n >= d.writers[j].room
    ensures ChunkSizes(sizes, BYTE_QUOTA - d.bytesWritten)
  {
    var ws := d.writers;
    var turn := Turn(d.writerIndex, d.bytesWritten);
    n := 0;
    failed := false;
    sizes := [];
    while n < |p| && !failed
      invariant 0 <= n <= |p|
      invariant WriteProgress(d, p, ws, turn, n)
      invariant ChunkSizes(sizes, BYTE_QUOTA - d.bytesWritten)
      invariant sizes == [] ==> turn == Turn(d.writerIndex, d.bytesWritten)
      invariant failed ==> n < |p| && ws[turn.index].room == 0
      decreases |p| - n, !failed
    {
      var remainingBytes := |p| - n;
      var remainingBytesForWriter := BYTE_QUOTA - turn.used;
      var chunk := p[n..n + Min(remainingBytesForWriter, remainingBytes)];
      sizes := sizes + [|chunk|];
      var a := SinkWrite(ws[turn.index], chunk);
      var ws', n' := ws[turn.index := a.sink], n + a.n;
      var turn' := if a.failed then Turn(turn.index, turn.used + a.n) else AfterChunk(turn, |ws|, a.n);
      WriteStep(d, p, ws, turn, n, chunk, a, ws', turn', n');
      ws, n, turn, failed := ws', n', turn', a.failed;
    }
    d' := Demultiplexer(ws, turn.index, turn.used);
  }

  /** Every slice handed to an underlying writer is non-empty and within the quota; the first one
      fits in what is left of the current writer's turn. */
  predicate ChunkSizes(sizes: seq<int>, firstRoom: int)
  {
    && (forall i :: 0 <= i < |sizes| ==> 1 <= sizes[i] <= BYTE_QUOTA)
    && (|sizes| > 0 ==> sizes[0] <= firstRoom)
  }

  /** The loop state of `Write` after `n` bytes: the writers hold what the reference would have
      put there, and none has taken more than `n` bytes of its room. */
  ghost predicate WriteProgress(d: Demultiplexer, p: seq<byte>, ws: seq<Sink>, turn: Turn, n: int)
    requires ValidDemultiplexer(d) && 0 <= n <= |p|
  {
    && |ws| == |d.writers|
    && ValidTurn(turn, |ws|)
    && Spread(Contents(ws), turn) == Deal(Contents(d.writers), Turn(d.writerIndex, d.bytesWritten), p[..n])
    && (forall j :: 0 <= j < |ws| ==> ws[j].room + n >= d.writers[j].room)
  }

  lemma WriteStep(d: Demultiplexer, p: seq<byte>, ws: seq<Sink>, turn: Turn, n: int,
                  chunk: seq<byte>, a: Accepted, ws': seq<Sink>, turn': Turn, n': int)
    requires ValidDemultiplexer(d) && 0 <= n < |p|
    requires WriteProgress(d, p, ws, turn, n)
    requires chunk == p[n..n + Min(BYTE_QUOTA - turn.used, |p| - n)]
    requires a == SinkWrite(ws[turn.index], chunk)
    requires ws' == ws[turn.index := a.sink] && n' == n + a.n
    requires turn' == if a.failed then Turn(turn.index, turn.used + a.n) else AfterChunk(turn, |ws|, a.n)
    ensures 0 <= n' <= |p| && WriteProgress(d, p, ws', turn', n')
    ensures a.failed ==> n' < |p| && ws'[turn'.index].room == 0
    ensures !a.failed ==> n' > n
  {
    AdvanceDeal(Contents(d.writers), Turn(d.writerIndex, d.bytesWritten), ws, turn, p, n, chunk, a, ws', turn');
    RoomStep(d.writers, ws, turn.index, a, n, ws');
  }

  /** A write charges the writer in turn exactly the bytes it took. */
  lemma RoomStep(w0: seq<Sink>, ws: seq<Sink>, i: int, a: Accepted, n: int, ws': seq<Sink>)
    requires |w0| == |ws| && 0 <= i < |ws| && ws' == ws[i := a.sink] && a.sink.room + a.n == ws[i].room
    requires forall j :: 0 <= j < |ws| ==> ws[j].room + n >= w0[j].room
    ensures forall j :: 0 <= j < |ws| ==> ws'[j].room + n + a.n >= w0[j].room
  {
  }

  /** The pieces of a stream, joined. */
  function Flatten(cs: seq<seq<byte>>): seq<byte> {
    if |cs| == 0 then [] else Flatten(cs[..|cs| - 1]) + cs[|cs| - 1]
  }

  lemma {:induction false} FlattenSplit(cs: seq<seq<byte>>, k: int)
    requires 0 <= k <= |cs|
    ensures |Flatten(cs[..k])| <= |Flatten(cs)|
    decreases |cs|
  {
    if k < |cs| {
      assert cs[..|cs| - 1][..k] == cs[..k];
      FlattenSplit(cs[..|cs| - 1], k);
    } else {
      assert cs[..k] == cs;
    }
  }

  /** `io.Copy` into a demultiplexer, the input arriving in `chunks` of whatever sizes the
      source produces. With writers that have room for the whole input, nothing fails and the
      writers end up exactly as one write of the whole input would leave them. */
  method WriteAll(d: Demultiplexer, chunks: seq<seq<byte>>) returns (d': Demultiplexer, failed: bool)
    requires ValidDemultiplexer(d)
    requires forall j :: 0 <= j < |d.writers| ==> d.writers[j].room >= |Flatten(chunks)|
    ensures ValidDemultiplexer(d') && |d'.writers| == |d.writers| && !failed
    ensures Spread(Contents(d'.writers), Turn(d'.writerIndex, d'.bytesWritten))
         == Deal(Contents(d.writers), Turn(d.writerIndex, d.bytesWritten), Flatten(chunks))
  {
    d' := d;
    failed := false;
    var k := 0;
    while k < |chunks|
      invariant 0 <= k <= |chunks| && !failed
      invariant ValidDemultiplexer(d') && |d'.writers| == |d.writers|
      invariant Spread(Contents(d'.writers), Turn(d'.writerIndex, d'.bytesWritten))
             == Deal(Contents(d.writers), Turn(d.writerIndex, d.bytesWritten), Flatten(chunks[..k]))
      invariant forall j :: 0 <= j < |d.writers| ==> d'.writers[j].room + |Flatten(chunks[..k])| >= d.writers[j].room
    {
      FlattenSplit(chunks, k + 1);
      assert chunks[..k + 1][..k] == chunks[..k];
      assert Flatten(chunks[..k + 1]) == Flatten(chunks[..k]) + chunks[k];
      var n, sizes;
      d', n, failed, sizes := Write(d', chunks[k]);
      assert chunks[k][..n] == chunks[k];
      DealAppend(Contents(d.writers), Turn(d.writerIndex, d.bytesWritten), Flatten(chunks[..k]), chunks[k]);
      k := k + 1;
    }
    assert chunks[..k] == chunks;
  }

  /** The writers after one more chunk hold what the reference puts there after as many more
      bytes of the input. */
  lemma {:induction false} AdvanceDeal(c0: seq<seq<byte>>, t0: Turn, ws: seq<Sink>, turn: Turn, p: seq<byte>, n: int,
                    chunk: seq<byte>, a: Accepted, ws': seq<Sink>, turn': Turn)
    requires 0 <= t0.index < |c0| && |ws| == |c0| && ValidTurn(turn, |ws|)
    requires 0 <= n < |p|
    requires chunk == p[n..n + Min(BYTE_QUOTA - turn.used, |p| - n)]
    requires a == SinkWrite(ws[turn.index], chunk)
    requires Spread(Contents(ws), turn) == Deal(c0, t0, p[..n])
    requires ws' == ws[turn.index := a.sink]
    requires turn' == if a.failed then Turn(turn.index, turn.used + a.n) else AfterChunk(turn, |ws|, a.n)
    ensures Spread(Contents(ws'), turn') == Deal(c0, t0, p[..n + a.n])
  {
    var cs := Contents(ws);
    var piece := chunk[..a.n];
    assert 1 <= |chunk| <= BYTE_QUOTA - turn.used;
    SliceJoin(p, n, n + |chunk|, a.n, chunk, piece);
    DealExtend(c0, t0, p[..n], piece, cs, turn);
    ChunkLands(ws, turn, chunk, a, piece, ws', turn');
  }

  /** Dealing more bytes continues from where the first ones left the outputs. */
  lemma {:induction false} DealExtend(c0: seq<seq<byte>>, t0: Turn, x: seq<byte>, y: seq<byte>, cs: seq<seq<byte>>, turn: Turn)
    requires 0 <= t0.index < |c0|
    requires Deal(c0, t0, x) == Spread(cs, turn)
    ensures Deal(c0, t0, x + y) == Deal(cs, turn, y)
  {
    DealAppend(c0, t0, x, y);
  }

  /** The part of a chunk a writer accepts lands on that writer as the reference deals it. */
  lemma {:induction false} ChunkLands(ws: seq<Sink>, turn: Turn, chunk: seq<byte>, a: Accepted, piece: seq<byte>, ws': seq<Sink>, turn': Turn)
    requires ValidTurn(turn, |ws|) && 1 <= |chunk| <= BYTE_QUOTA - turn.used
    requires a == SinkWrite(ws[turn.index], chunk) && piece == chunk[..a.n]
    requires ws' == ws[turn.index := a.sink]
    requires turn' == if a.failed then Turn(turn.index, turn.used + a.n) else AfterChunk(turn, |ws|, a.n)
    ensures Spread(Contents(ws'), turn') == Deal(Contents(ws), turn, piece)
  {
    DealChunk(Contents(ws), turn, piece);
    ChunkTurn(turn, |ws|, chunk, a, turn');
    ContentsUpdate(ws, turn.index, a.sink, piece, ws');
  }

  lemma SliceJoin(p: seq<byte>, n: int, m: int, k: int, chunk: seq<byte>, piece: seq<byte>)
    requires 0 <= n <= m <= |p| && 0 <= k <= m - n
    requires chunk == p[n..m] && piece == chunk[..k]
    ensures p[..n + k] == p[..n] + piece
  {
    assert piece == p[n..n + k];
  }

  /** The turn after a write is the reference's turn after the bytes it accepted. */
  lemma ChunkTurn(turn: Turn, n: int, chunk: seq<byte>, a: Accepted, turn': Turn)
    requires ValidTurn(turn, n) && 1 <= |chunk| <= BYTE_QUOTA - turn.used
    requires a.n <= |chunk| && (a.failed <==> a.n < |chunk|)
    requires turn' == if a.failed then Turn(turn.index, turn.used + a.n) else AfterChunk(turn, n, a.n)
    ensures turn' == if a.n == 0 then turn else AfterChunk(turn, n, a.n)
  {
  }

  lemma ContentsUpdate(ws: seq<Sink>, i: int, w: Sink, piece: seq<byte>, ws': seq<Sink>)
    requires 0 <= i < |ws| && w.data == ws[i].data + piece && ws' == ws[i := w]
    ensures Contents(ws') == Contents(ws)[i := Contents(ws)[i] + piece]
  {
  }

  // ---------------------------------------------------------------------------------------------
  // Multiplexer

  /** An underlying reader, as the bytes it has not yet returned. A `missing` reader is a nil
      `*os.File` slot: it holds nothing and every read of it fails (os.ErrInvalid). */
  datatype Source = Source(rest: seq<byte>, missing: bool)

  datatype Got = Got(source: Source, bytes: seq<byte>, eof: bool, failed: bool)

  /** `File.Read` with a buffer of `want` bytes: a nil file fails before anything else; an empty
      buffer reads nothing; at end of file it returns no bytes and io.EOF; otherwise as many
      bytes as it has, up to `want`. */
  function SourceRead(r: Source, want: int): (g: Got)
    ensures g.bytes + g.source.rest == r.rest && g.source.missing == r.missing
    ensures g.failed <==> r.missing
    ensures g.eof <==> !r.missing && want > 0 && r.rest == []
    ensures |g.bytes| == (if r.missing || want <= 0 then 0 else Min(want, |r.rest|))
  {
    if r.missing then Got(r, [], false, true)
    else if want <= 0 then Got(r, [], false, false)
    else if r.rest == [] then Got(r, [], true, false)
    else
      var k := Min(want, |r.rest|);
      Got(r.(rest := r.rest[k..]), r.rest[..k], false, false)
  }

  datatype Multiplexer = Multiplexer(readers: seq<Source>, readerIndex: int, bytesRead: int)

  predicate ValidMultiplexer(m: Multiplexer) {
    ValidTurn(Turn(m.readerIndex, m.bytesRead), |m.readers|)
  }

  /** The reader in turn is a nil slot. */
  predicate Stuck(m: Multiplexer)
    requires ValidMultiplexer(m)
  {
    m.readers[m.readerIndex].missing
  }

  function Unread(rs: seq<Source>): nat {
    if |rs| == 0 then 0 else |rs[0].rest| + Unread(rs[1..])
  }

  lemma {:induction false} UnreadConsume(rs: seq<Source>, i: int, k: nat)
    requires 0 <= i < |rs| && k <= |rs[i].rest|
    ensures Unread(rs[i := rs[i].(rest := rs[i].rest[k..])]) + k == Unread(rs)
    decreases |rs|
  {
    if i > 0 {
      assert rs[i := rs[i].(rest := rs[i].rest[k..])][1..] == rs[1..][i - 1 := rs[i].(rest := rs[i].rest[k..])];
      UnreadConsume(rs[1..], i - 1, k);
    }
  }

  /** The state after the reader in turn gave `k` of its bytes. */
  function Consume(m: Multiplexer, k: nat): (m': Multiplexer)
    requires ValidMultiplexer(m) && k <= |m.readers[m.readerIndex].rest|
    ensures |m'.readers| == |m.readers|
    ensures 0 <= m'.readerIndex < |m.readers|
  {
    var i := m.readerIndex;
    var t := AfterChunk(Turn(i, m.bytesRead), |m.readers|, k);
    Multiplexer(m.readers[i := m.readers[i].(rest := m.readers[i].rest[k..])], t.index, t.used)
  }

  /** Everything the multiplexer delivers, over any number of reads, before a read reports end
      of input or fails: full quotas taken in turn, until the reader in turn is a nil slot or
      has nothing left. */
  function Pending(m: Multiplexer): seq<byte>
    requires ValidMultiplexer(m)
    decreases Unread(m.readers)
  {
    var r := m.readers[m.readerIndex];
    if r.missing || r.rest == [] then []
    else
      var k := Min(BYTE_QUOTA - m.bytesRead, |r.rest|);
      UnreadConsume(m.readers, m.readerIndex, k);
      r.rest[..k] + Pending(Consume(m, k))
  }

  /** Whether reading to the end ends in a failure (a nil slot) rather than end of input. */
  predicate Fails(m: Multiplexer)
    requires ValidMultiplexer(m)
    decreases Unread(m.readers)
  {
    var r := m.readers[m.readerIndex];
    if r.missing then true
    else if r.rest == [] then false
    else
      var k := Min(BYTE_QUOTA - m.bytesRead, |r.rest|);
      UnreadConsume(m.readers, m.readerIndex, k);
      Fails(Consume(m, k))
  }

  /** Two reads that together take a full quota's remainder leave the state one read leaves. */
  lemma ConsumeTwice(m: Multiplexer, k: nat, full: nat)
    requires ValidMultiplexer(m)
    requires full == Min(BYTE_QUOTA - m.bytesRead, |m.readers[m.readerIndex].rest|)
    requires 1 <= k < full
    ensures ValidMultiplexer(Consume(m, k))
    ensures Consume(m, k).readers[m.readerIndex] == m.readers[m.readerIndex].(rest := m.readers[m.readerIndex].rest[k..])
    ensures Consume(m, k).readerIndex == m.readerIndex
    ensures Min(BYTE_QUOTA - Consume(m, k).bytesRead, |m.readers[m.readerIndex].rest| - k) == full - k
    ensures Consume(Consume(m, k), full - k) == Consume(m, full)
  {
    var i := m.readerIndex;
    var rest := m.readers[i].rest;
    var m1 := Consume(m, k);
    assert m1.readerIndex == i && m1.bytesRead == m.bytesRead + k;
    assert rest[k..][full - k..] == rest[full..];
  }

  /** A shorter read than a full quota does not change what is delivered overall. */
  lemma PendingSplit(m: Multiplexer, k: nat)
    requires ValidMultiplexer(m) && !Stuck(m)
    requires 1 <= k <= Min(BYTE_QUOTA - m.bytesRead, |m.readers[m.readerIndex].rest|)
    ensures ValidMultiplexer(Consume(m, k))
    ensures Pending(m) == m.readers[m.readerIndex].rest[..k] + Pending(Consume(m, k))
    ensures Fails(m) == Fails(Consume(m, k))
  {
    var rest := m.readers[m.readerIndex].rest;
    var full := Min(BYTE_QUOTA - m.bytesRead, |rest|);
    if k < full {
      PendingSplitShort(m, k, full, rest);
    } else {
      PendingUnfold(m, k);
    }
  }

  lemma PendingSplitShort(m: Multiplexer, k: nat, full: nat, rest: seq<byte>)
    requires ValidMultiplexer(m) && !Stuck(m)
    requires rest == m.readers[m.readerIndex].rest
    requires full == Min(BYTE_QUOTA - m.bytesRead, |rest|)
    requires 1 <= k < full
    ensures ValidMultiplexer(Consume(m, k))
    ensures Pending(m) == rest[..k] + Pending(Consume(m, k))
    ensures Fails(m) == Fails(Consume(m, k))
  {
    PendingUnfold(m, full);
    ConsumeTwice(m, k, full);
    PendingUnfold(Consume(m, k), full - k);
    JoinReads(rest, k, full, Pending(m), Pending(Consume(m, k)), Pending(Consume(m, full)));
  }

  lemma JoinReads(rest: seq<byte>, k: nat, full: nat, whole: seq<byte>, later: seq<byte>, tail: seq<byte>)
    requires k <= full <= |rest|
    requires whole == rest[..full] + tail
    requires later == rest[k..][..full - k] + tail
    ensures whole == rest[..k] + later
  {
    assert rest[..full] == rest[..k] + rest[k..][..full - k];
  }

  lemma PendingUnfold(m: Multiplexer, full: nat)
    requires ValidMultiplexer(m) && !Stuck(m)
    requires m.readers[m.readerIndex].rest != []
    requires full == Min(BYTE_QUOTA - m.bytesRead, |m.readers[m.readerIndex].rest|)
    ensures ValidMultiplexer(Consume(m, full))
    ensures Pending(m) == m.readers[m.readerIndex].rest[..full] + Pending(Consume(m, full))
    ensures Fails(m) == Fails(Consume(m, full))
  {
  }

  /** `Multiplexer.Read(p)`. Because the loop reassigns `p` to the bytes read so far, it ends
      after a single underlying read: at most one quota's remainder per call. What it returns
      is always the next part of `Pending`; it reports end of input, or fails on a nil slot,
      exactly when nothing is pending. `requests` lists the sizes asked of the underlying
      readers. */
  method Read(m: Multiplexer, p: seq<byte>)
    returns (m': Multiplexer, got: seq<byte>, eof: bool, failed: bool, requests: seq<int>)
    requires ValidMultiplexer(m)
    ensures ValidMultiplexer(m') && |m'.readers| == |m.readers|
    ensures |got| <= |p| && |got| <= BYTE_QUOTA - m.bytesRead
    ensures Pending(m) == got + Pending(m') && Fails(m') == Fails(m)
    ensures eof <==> |p| > 0 && Pending(m) == [] && !Stuck(m)
    ensures failed <==> |p| > 0 && Stuck(m)
    ensures |p| > 0 && Pending(m) != [] ==> |got| > 0
    ensures |requests| == (if |p| > 0 then 1 else 0)
    ensures forall i :: 0 <= i < |requests| ==> 1 <= requests[i] <= BYTE_QUOTA - m.bytesRead
  {
    var buffer := p;
    var totalN := 0;
    m' := m;
    eof, failed := false, false;
    requests := [];
    while totalN < |buffer|
      invariant 0 <= totalN <= |buffer| <= |p|
      invariant totalN == 0 ==> m' == m && buffer == p && requests == []
      invariant totalN > 0 ==> totalN == |buffer| && TookOnce(m, p, m', buffer, requests)
      decreases |buffer| - totalN
    {
      var remainingBytes := |buffer| - totalN;
      var remainingBytesForReader := BYTE_QUOTA - m'.bytesRead;
      var want := Min(remainingBytes, remainingBytesForReader);
      requests := requests + [want];
      var g := SourceRead(m'.readers[m'.readerIndex], want);
      if g.eof || g.failed {
        eof, failed := g.eof, g.failed;
        got := buffer[..totalN];
        ReadAtEnd(m, p, m', got, eof, failed, requests);
        return;
      }
      buffer := buffer[..totalN] + g.bytes;
      totalN := totalN + |g.bytes|;
      m' := Consume(m', |g.bytes|);
    }
    got := buffer[..totalN];
    if totalN == 0 {
      ReadNothing(m, p, m', got, requests);
    } else {
      ReadSome(m, p, m', got, requests);
    }
  }

  /** The single underlying read of `Read` asked for `requests[0]` bytes and returned `got`,
      the start of what the reader in turn held. */
  predicate TookOnce(m: Multiplexer, p: seq<byte>, m': Multiplexer, got: seq<byte>, requests: seq<int>)
    requires ValidMultiplexer(m)
  {
    var r := m.readers[m.readerIndex];
    && requests == [Min(|p|, BYTE_QUOTA - m.bytesRead)]
    && !r.missing
    && 1 <= |got| <= requests[0] && |got| <= |r.rest| && got == r.rest[..|got|]
    && m' == Consume(m, |got|)
  }

  /** What `Read` ensures, as one predicate for the three ways it can end. */
  ghost predicate ReadOutcome(m: Multiplexer, p: seq<byte>, m': Multiplexer, got: seq<byte>, eof: bool, failed: bool,
                              requests: seq<int>)
    requires ValidMultiplexer(m)
  {
    && ValidMultiplexer(m') && |m'.readers| == |m.readers|
    && |got| <= |p| && |got| <= BYTE_QUOTA - m.bytesRead
    && Pending(m) == got + Pending(m') && Fails(m') == Fails(m)
    && (eof <==> |p| > 0 && Pending(m) == [] && !Stuck(m))
    && (failed <==> |p| > 0 && Stuck(m))
    && (|p| > 0 && Pending(m) != [] ==> |got| > 0)
    && |requests| == (if |p| > 0 then 1 else 0)
    && (forall i :: 0 <= i < |requests| ==> 1 <= requests[i] <= BYTE_QUOTA - m.bytesRead)
  }

  /** An empty buffer: nothing is read and nothing is asked of any reader. */
  lemma ReadNothing(m: Multiplexer, p: seq<byte>, m': Multiplexer, got: seq<byte>, requests: seq<int>)
    requires ValidMultiplexer(m)
    requires |p| == 0 && m' == m && got == [] && requests == []
    ensures ReadOutcome(m, p, m', got, false, false, requests)
  {
    assert Pending(m) == got + Pending(m');
  }

  /** The reader in turn is at end of file, or is a nil slot: nothing is pending. */
  lemma ReadAtEnd(m: Multiplexer, p: seq<byte>, m': Multiplexer, got: seq<byte>, eof: bool, failed: bool,
                  requests: seq<int>)
    requires ValidMultiplexer(m)
    requires |p| > 0 && m' == m && got == []
    requires var r := m.readers[m.readerIndex]; failed == r.missing && eof == (!r.missing && r.rest == [])
    requires eof || failed
    requires requests == [Min(|p|, BYTE_QUOTA - m.bytesRead)]
    ensures ReadOutcome(m, p, m', got, eof, failed, requests)
  {
    assert Pending(m) == [];
  }

  /** One successful underlying read delivers the next part of `Pending`. */
  lemma ReadSome(m: Multiplexer, p: seq<byte>, m': Multiplexer, got: seq<byte>, requests: seq<int>)
    requires ValidMultiplexer(m)
    requires |p| > 0 && TookOnce(m, p, m', got, requests)
    ensures ReadOutcome(m, p, m', got, false, false, requests)
  {
    PendingSplit(m, |got|);
  }

  /** `io.Copy` out of a multiplexer with a buffer of `size` bytes: read until end of input or
      a failure. Whatever the buffer size, what comes out is everything pending, and the copy
      fails exactly when delivery runs into a nil slot. */
  method Copy(m: Multiplexer, size: nat) returns (out: seq<byte>, failed: bool)
    requires ValidMultiplexer(m) && size > 0
    ensures out == Pending(m)
    ensures failed <==> Fails(m)
  {
    var cur := m;
    out := [];
    var eof := false;
    failed := false;
    var buf := seq(size, i => 0 as byte);
    while !eof && !failed
      invariant ValidMultiplexer(cur)
      invariant Pending(m) == out + Pending(cur) && Fails(cur) == Fails(m)
      invariant eof ==> Pending(cur) == [] && !Stuck(cur)
      invariant failed ==> Stuck(cur)
      decreases |Pending(cur)|, !eof && !failed
    {
      var got, requests;
      cur, got, eof, failed, requests := Read(cur, buf);
      out := out + got;
    }
    CopyEnds(cur);
  }

  /** Once nothing is pending, the reader in turn decides between end of input and failure. */
  lemma CopyEnds(m: Multiplexer)
    requires ValidMultiplexer(m) && Pending(m) == []
    ensures Fails(m) <==> Stuck(m)
  {
  }
}

=== FILE: multiplexing_laws.dfy ===
/** Laws of the round-robin engine: the Multiplexer reads back exactly what the Demultiplexer
    spread, byte k of the stream lands with participant (k / BYTE_QUOTA) mod N, and nothing is
    duplicated or dropped. */
module MultiplexingLaws {
  import opened Bytes
  import opened Multiplexing

  /** Readers over the given contents, in the given order, at the engine's zero state. */
  function FreshMux(bodies: seq<seq<byte>>): (m: Multiplexer)
    requires |bodies| > 0
    ensures ValidMultiplexer(m)
    ensures |m.readers| == |bodies|
    ensures forall j :: 0 <= j < |bodies| ==> m.readers[j] == Source(bodies[j], false)
  {
    Multiplexer(seq(|bodies|, j requires 0 <= j < |bodies| => Source(bodies[j], false)), 0, 0)
  }

  /** The multiplexer `m` is in step with a distribution of `y` that starts from `outs` at
      `turn`: each reader still holds exactly what that distribution adds to its output, and
      the turns agree. */
  ghost predicate Tracks(m: Multiplexer, outs: seq<seq<byte>>, turn: Turn, y: seq<byte>)
    requires ValidTurn(turn, |outs|)
  {
    && |m.readers| == |outs|
    && m.readerIndex == turn.index && m.bytesRead == turn.used
    && (forall j :: 0 <= j < |outs| ==> !m.readers[j].missing)
    && (forall j :: 0 <= j < |outs| ==> outs[j] + m.readers[j].rest == Deal(outs, turn, y).outs[j])
  }

  /** A multiplexer in step with a distribution of `y` delivers `y`, and then end of input. */
  lemma {:induction false} PendingTracks(m: Multiplexer, outs: seq<seq<byte>>, turn: Turn, y: seq<byte>)
    requires ValidTurn(turn, |outs|)
    requires Tracks(m, outs, turn, y)
    ensures ValidMultiplexer(m)
    ensures Pending(m) == y && !Fails(m)
    decreases |y|
  {
    var i := turn.index;
    if |y| == 0 {
      assert Deal(outs, turn, y) == Spread(outs, turn);
      assert |outs[i] + m.readers[i].rest| == |outs[i]|;
    } else {
      var k := Min(BYTE_QUOTA - turn.used, |y|);
      var x, z := y[..k], y[k..];
      assert y == x + z;
      DealAppend(outs, turn, x, z);
      DealChunk(outs, turn, x);
      var outs1 := outs[i := outs[i] + x];
      var turn1 := AfterChunk(turn, |outs|, k);
      assert Deal(outs, turn, y) == Deal(outs1, turn1, z);
      var rest := m.readers[i].rest;
      assert |rest| >= k && rest[..k] == x && Min(BYTE_QUOTA - m.bytesRead, |rest|) == k by {
        TracksHead(m, outs, turn, y, k, outs1, turn1, z);
      }
      PendingUnfold(m, k);
      var m1 := Consume(m, k);
      TracksStep(m, outs, turn, y, k, outs1, turn1, z, m1);
      PendingTracks(m1, outs1, turn1, z);
    }
  }

  /** The reader in turn holds the first `k` bytes of `y` first, and the quota is what limits
      the read whenever `y` goes beyond it. */
  lemma TracksHead(m: Multiplexer, outs: seq<seq<byte>>, turn: Turn, y: seq<byte>, k: int,
                   outs1: seq<seq<byte>>, turn1: Turn, z: seq<byte>)
    requires ValidTurn(turn, |outs|) && Tracks(m, outs, turn, y)
    requires |y| > 0 && k == Min(BYTE_QUOTA - turn.used, |y|) && z == y[k..]
    requires outs1 == outs[turn.index := outs[turn.index] + y[..k]]
    requires turn1 == AfterChunk(turn, |outs|, k)
    requires Deal(outs, turn, y) == Deal(outs1, turn1, z)
    ensures |m.readers[turn.index].rest| >= k
    ensures m.readers[turn.index].rest[..k] == y[..k]
    ensures Min(BYTE_QUOTA - m.bytesRead, |m.readers[turn.index].rest|) == k
  {
    var i := turn.index;
    var whole := Deal(outs1, turn1, z).outs[i];
    DealGrows(outs1, turn1, z);
    AfterPrefix(outs[i], y[..k], whole, m.readers[i].rest);
    if k < BYTE_QUOTA - turn.used {
      assert z == [];
      assert Deal(outs1, turn1, z).outs == outs1;
    }
  }

  /** What follows `a` in an extension of `a + x` starts with `x`. */
  lemma AfterPrefix(a: seq<byte>, x: seq<byte>, whole: seq<byte>, rest: seq<byte>)
    requires a + x <= whole && a + rest == whole
    ensures |x| <= |rest| && rest[..|x|] == x
    ensures whole == a + x ==> rest == x
  {
    assert rest == whole[|a|..];
    assert whole[..|a| + |x|] == a + x;
  }

  /** After the reader in turn gives its `k` bytes, the multiplexer is in step with the
      distribution of the rest of the stream. */
  lemma TracksStep(m: Multiplexer, outs: seq<seq<byte>>, turn: Turn, y: seq<byte>, k: int,
                   outs1: seq<seq<byte>>, turn1: Turn, z: seq<byte>, m1: Multiplexer)
    requires ValidTurn(turn, |outs|) && Tracks(m, outs, turn, y)
    requires |y| > 0 && k == Min(BYTE_QUOTA - turn.used, |y|) && z == y[k..]
    requires outs1 == outs[turn.index := outs[turn.index] + y[..k]]
    requires turn1 == AfterChunk(turn, |outs|, k)
    requires Deal(outs, turn, y) == Deal(outs1, turn1, z)
    requires |m.readers[turn.index].rest| >= k && m.readers[turn.index].rest[..k] == y[..k]
    requires m1 == Consume(m, k)
    ensures ValidTurn(turn1, |outs1|) && Tracks(m1, outs1, turn1, z)
  {
    var i := turn.index;
    var rs := m.readers;
    assert m1.readers == rs[i := rs[i].(rest := rs[i].rest[k..])];
    ReadersStep(rs, i, y[..k], outs, outs1, Deal(outs1, turn1, z).outs, m1.readers);
  }

  /** The per-reader half of `TracksStep`, over plain sequences: the bytes `x` leave the front
      of reader `i` and join the end of output `i`. */
  lemma ReadersStep(rs: seq<Source>, i: int, x: seq<byte>, outs: seq<seq<byte>>, outs1: seq<seq<byte>>,
                    d: seq<seq<byte>>, rs1: seq<Source>)
    requires |rs| == |outs| == |outs1| == |d| && 0 <= i < |outs|
    requires outs1 == outs[i := outs[i] + x]
    requires |rs[i].rest| >= |x| && rs[i].rest[..|x|] == x
    requires forall j :: 0 <= j < |outs| ==> !rs[j].missing && outs[j] + rs[j].rest == d[j]
    requires rs1 == rs[i := rs[i].(rest := rs[i].rest[|x|..])]
    ensures forall j :: 0 <= j < |outs| ==> !rs1[j].missing && outs1[j] + rs1[j].rest == d[j]
  {
    var r := rs[i].rest;
    assert r == x + r[|x|..];
    assert outs1[i] + rs1[i].rest == outs[i] + r;
  }

  /** The inverse law: a multiplexer over the demultiplexer's outputs, in the same order,
      delivers exactly the original stream, then end of input. */
  lemma MultiplexInverts(n: nat, s: seq<byte>)
    requires n > 0
    ensures Pending(FreshMux(DealFresh(n, s).outs)) == s
    ensures !Fails(FreshMux(DealFresh(n, s).outs))
  {
    var m := FreshMux(DealFresh(n, s).outs);
    forall j | 0 <= j < n
      ensures Empties(n)[j] + m.readers[j].rest == Deal(Empties(n), Turn(0, 0), s).outs[j]
    {
    }
    PendingTracks(m, Empties(n), Turn(0, 0), s);
  }

  // -------------------------------------------------------------------------------------------
  // Where each byte goes

  /** The bytes of `s` at the positions k with (k / BYTE_QUOTA) mod n == j, in stream order. */
  function Portion(s: seq<byte>, n: nat, j: int): seq<byte>
    requires n > 0
  {
    if |s| == 0 then []
    else Portion(s[..|s| - 1], n, j) + (if ((|s| - 1) / BYTE_QUOTA) % n == j then [s[|s| - 1]] else [])
  }

  /** The stream position `pos` in closed form: which participant is in turn, and how much of
      its quota is used. */
  function TurnAt(pos: nat, n: nat): Turn
    requires n > 0
  {
    Turn((pos / BYTE_QUOTA) % n, pos % BYTE_QUOTA)
  }

  lemma ModSucc(a: nat, n: nat)
    requires n > 0
    ensures (a + 1) % n == if a % n + 1 == n then 0 else a % n + 1
  {
    var q, r := a / n, a % n;
    assert a == q * n + r;
    if r + 1 == n {
      DivModUnique(a + 1, n, q + 1, 0);
    } else {
      DivModUnique(a + 1, n, q, r + 1);
    }
  }

  lemma DivModUnique(x: int, n: int, q: int, r: int)
    requires n > 0 && 0 <= r < n && x == q * n + r
    ensures x / n == q && x % n == r
  {
    var q', r' := x / n, x % n;
    assert x == q' * n + r';
    if q > q' {
      assert (q' + 1) * n == q' * n + n;
      MulLe(q' + 1, q, n);
      assert false;
    } else if q < q' {
      assert (q + 1) * n == q * n + n;
      MulLe(q + 1, q', n);
      assert false;
    }
  }

  lemma MulLe(a: int, b: int, n: int)
    requires a <= b && n >= 0
    ensures a * n <= b * n
  {
    assert b * n - a * n == (b - a) * n;
  }

  /** One more byte: it goes to the participant in turn, and the turn moves on exactly at a
      quota boundary. */
  lemma TurnAtStep(pos: nat, n: nat)
    requires n > 0
    ensures ValidTurn(TurnAt(pos, n), n)
    ensures AfterChunk(TurnAt(pos, n), n, 1) == TurnAt(pos + 1, n)
  {
    var q := pos / BYTE_QUOTA;
    if pos % BYTE_QUOTA == BYTE_QUOTA - 1 {
      assert (pos + 1) / BYTE_QUOTA == q + 1 && (pos + 1) % BYTE_QUOTA == 0;
      ModSucc(q, n);
    } else {
      assert (pos + 1) / BYTE_QUOTA == q && (pos + 1) % BYTE_QUOTA == pos % BYTE_QUOTA + 1;
    }
  }

  /** Byte k of the stream is appended to participant (k / BYTE_QUOTA) mod n, in stream order,
      and afterwards the engine is at the closed-form turn for position |s|. */
  lemma {:induction false} DealFreshClosedForm(n: nat, s: seq<byte>)
    requires n > 0
    ensures forall j :: 0 <= j < n ==> DealFresh(n, s).outs[j] == Portion(s, n, j)
    ensures DealFresh(n, s).turn == TurnAt(|s|, n)
    decreases |s|
  {
    if |s| == 0 {
      assert DealFresh(n, s) == Spread(Empties(n), Turn(0, 0));
    } else {
      var s', b := s[..|s| - 1], s[|s| - 1];
      assert s == s' + [b];
      DealFreshClosedForm(n, s');
      DealAppend(Empties(n), Turn(0, 0), s', [b]);
      ClosedFormStep(n, s, s', b, DealFresh(n, s'), DealFresh(n, s));
    }
  }

  lemma ClosedFormStep(n: nat, s: seq<byte>, s': seq<byte>, b: byte, before: Spread, after: Spread)
    requires n > 0 && s == s' + [b]
    requires |before.outs| == n && before.turn == TurnAt(|s'|, n)
    requires forall j :: 0 <= j < n ==> before.outs[j] == Portion(s', n, j)
    requires after == Deal(before.outs, before.turn, [b])
    ensures forall j :: 0 <= j < n ==> after.outs[j] == Portion(s, n, j)
    ensures after.turn == TurnAt(|s|, n)
  {
    var i := before.turn.index;
    TurnAtStep(|s'|, n);
    assert after == Deal(before.outs[i := before.outs[i] + [b]], AfterChunk(before.turn, n, 1), [b][1..]);
    assert [b][1..] == [];
    assert s[..|s| - 1] == s' && s[|s| - 1] == b;
  }

  /** Nothing is duplicated or dropped: the participants' shares add up to the stream. */
  lemma DealFreshTotal(n: nat, s: seq<byte>)
    requires n > 0
    ensures TotalLength(DealFresh(n, s).outs) == |s|
  {
    DealGrows(Empties(n), Turn(0, 0), s);
    EmptiesTotal(n);
  }

  lemma {:induction false} EmptiesTotal(n: nat)
    ensures TotalLength(Empties(n)) == 0
  {
    if n > 0 {
      assert Empties(n)[1..] == Empties(n - 1);
      EmptiesTotal(n - 1);
    }
  }
}

=== FILE: naming.dfy ===
/** File names: Go's decimal formatting of integers, `filepath.Ext`, `strings.TrimSuffix`, and
    the shard file name `<name without extension>_<index>_of_<total>.horcrux`. */
module Naming {

  import opened Bytes

  // ---------------------------------------------------------------------------------------------
  // Decimal integers, as `%d` / `strconv.Itoa` print them

  predicate IsDigit(c: char) {
    '0' <= c <= '9'
  }

  function DigitChar(d: int): (c: char)
    requires 0 <= d < 10
    ensures IsDigit(c) && c as int - '0' as int == d
  {
    ('0' as int + d) as char
  }

  /** The decimal digits of `n`, without leading zeros. */
  function Digits(n: nat): (s: string)
    ensures |s| >= 1
    ensures forall k :: 0 <= k < |s| ==> IsDigit(s[k])
    decreases n
  {
    if n < 10 then [DigitChar(n)] else Digits(n / 10) + [DigitChar(n % 10)]
  }

  /** `%d` of an int: a minus sign for negative numbers, then the digits. */
  function Itoa(i: int): (s: string)
    ensures |s| >= 1
    ensures forall k :: 0 <= k < |s| ==> IsDigit(s[k]) || (k == 0 && s[k] == '-')
  {
    if i < 0 then "-" + Digits(-i) else Digits(i)
  }

  function DigitValue(c: char): (d: int)
    requires IsDigit(c)
    ensures 0 <= d < 10
  {
    c as int - '0' as int
  }

  lemma ItoaPrintable(i: int)
    ensures Printable(Itoa(i))
  {
  }

  /** The value of a string of digits. */
  function DigitsValue(s: string): (v: int)
    requires forall k :: 0 <= k < |s| ==> IsDigit(s[k])
    ensures v >= 0
  {
    if |s| == 0 then 0 else DigitsValue(s[..|s| - 1]) * 10 + DigitValue(s[|s| - 1])
  }

  /** The inverse of `Itoa`, as `strconv.Atoi` reads such a string back. */
  function Atoi(s: string): int
    requires |s| >= 1
    requires forall k :: 0 <= k < |s| ==> IsDigit(s[k]) || (k == 0 && s[k] == '-')
  {
    if s[0] == '-' then 0 - DigitsValue(s[1..]) else DigitsValue(s)
  }

  lemma {:induction false} DigitsRoundTrip(n: nat)
    ensures DigitsValue(Digits(n)) == n
    decreases n
  {
    if n >= 10 {
      var s := Digits(n);
      assert s[..|s| - 1] == Digits(n / 10);
      DigitsRoundTrip(n / 10);
    }
  }

  lemma ItoaRoundTrip(i: int)
    ensures Atoi(Itoa(i)) == i
  {
    if i < 0 {
      assert Itoa(i)[1..] == Digits(-i);
      DigitsRoundTrip(-i);
    } else {
      DigitsRoundTrip(i);
    }
  }

  /** Different numbers print differently. */
  lemma ItoaInjective(a: int, b: int)
    requires Itoa(a) == Itoa(b)
    ensures a == b
  {
    ItoaRoundTrip(a);
    ItoaRoundTrip(b);
  }

  // ---------------------------------------------------------------------------------------------
  // Path elements, with `/` as the only separator

  /** A possible extension: empty, or a `.` followed by neither `.` nor `/`. */
  predicate IsExtension(e: string) {
    |e| == 0 || (e[0] == '.' && forall k :: 1 <= k < |e| ==> e[k] != '.' && e[k] != '/')
  }

  predicate IsSuffix(e: string, s: string) {
    |e| <= |s| && s[|s| - |e|..] == e
  }

  /** The extension of `path` as `filepath.Ext` finds it: the suffix from the last `.` of the
      final element, or "" when that element has no `.`. */
  function Ext(path: string): (e: string)
    ensures IsSuffix(e, path) && IsExtension(e)
  {
    if |path| == 0 then ""
    else
      var c := path[|path| - 1];
      if c == '/' then ""
      else if c == '.' then "."
      else
        var e := Ext(path[..|path| - 1]);
        if |e| == 0 then "" else e + [c]
  }

  /** `filepath.Base`: the final element of `path` once trailing slashes are removed; "." for the
      empty path and "/" for a path of slashes only. */
  function Base(path: string): (b: string)
    ensures |b| > 0
    ensures |path| == 0 ==> b == "."
    ensures |path| > 0 && |TrimSlashes(path)| == 0 ==> b == "/"
    ensures |TrimSlashes(path)| > 0 ==>
              var t := TrimSlashes(path);
              && IsSuffix(b, t)
              && '/' !in b
              && (|b| == |t| || t[|t| - |b| - 1] == '/')
  {
    if |path| == 0 then "."
    else
      var trimmed := TrimSlashes(path);
      if |trimmed| == 0 then "/" else LastElement(trimmed)
  }

  function TrimSlashes(path: string): (r: string)
    ensures |r| <= |path| && r == path[..|r|]
    ensures |r| == 0 || r[|r| - 1] != '/'
    ensures forall k :: |r| <= k < |path| ==> path[k] == '/'
  {
    if |path| == 0 || path[|path| - 1] != '/' then path else TrimSlashes(path[..|path| - 1])
  }

  /** The text after the last `/`, or all of `path` when it has none. */
  function LastElement(path: string): (r: string)
    ensures IsSuffix(r, path) && '/' !in r
    ensures |r| == |path| || path[|path| - |r| - 1] == '/'
  {
    if |path| == 0 || path[|path| - 1] == '/' then "" else LastElement(path[..|path| - 1]) + [path[|path| - 1]]
  }

  /** `filepath.Join(dir, name)` for a file name `name`: the name alone under an empty directory,
      otherwise the two with one `/` between them. */
  function JoinPath(dir: string, name: string): (p: string)
    ensures IsSuffix(name, p)
    ensures |dir| == 0 ==> p == name
    ensures |dir| > 0 ==> |dir| <= |p| - |name| && p[..|dir|] == dir && p[|p| - |name| - 1] == '/'
  {
    if |dir| == 0 then name else if dir[|dir| - 1] == '/' then dir + name else dir + "/" + name
  }

  /** `strings.TrimSuffix`. */
  function TrimSuffix(s: string, suffix: string): (r: string)
    ensures IsSuffix(suffix, s) ==> r + suffix == s
    ensures !IsSuffix(suffix, s) ==> r == s
  {
    if IsSuffix(suffix, s) then s[..|s| - |suffix|] else s
  }

  /** A file name with its last extension removed. */
  function Stem(name: string): (r: string)
    ensures r + Ext(name) == name
  {
    TrimSuffix(name, Ext(name))
  }

  const SHARD_EXT := ".horcrux"

  /** The name of shard `index` of `total` made from the file called `name`:
      `<name without extension>_<index>_of_<total>.horcrux`. */
  function ShardFilename(name: string, index: int, total: int): string {
    Stem(name) + "_" + Itoa(index) + "_of_" + Itoa(total) + SHARD_EXT
  }

  /** The test the binder applies to directory entries. */
  predicate IsShardName(name: string) {
    Ext(name) == SHARD_EXT
  }

  /** The entries the binder keeps from a directory listing: those whose extension is exactly
      `.horcrux`, in the listing's order. */
  function ShardNames(names: seq<string>): (r: seq<string>)
    ensures forall x :: x in r <==> x in names && IsShardName(x)
    ensures |r| <= |names|
  {
    if |names| == 0 then []
    else
      var last := names[|names| - 1];
      ShardNames(names[..|names| - 1]) + (if IsShardName(last) then [last] else [])
  }

  // ---------------------------------------------------------------------------------------------
  // Properties

  /** Filtering a listing piece by piece gives the same names, in the same order and with the
      same repeats, as filtering it whole. */
  lemma {:induction false} ShardNamesAppend(a: seq<string>, b: seq<string>)
    ensures ShardNames(a + b) == ShardNames(a) + ShardNames(b)
    decreases |b|
  {
    if |b| == 0 {
      assert a + b == a;
    } else {
      var b' := b[..|b| - 1];
      assert (a + b)[..|a + b| - 1] == a + b';
      ShardNamesAppend(a, b');
    }
  }

  /** A listing of shard names only is kept whole and in order. */
  lemma {:induction false} ShardNamesKeepsAll(names: seq<string>)
    requires forall i :: 0 <= i < |names| ==> IsShardName(names[i])
    ensures ShardNames(names) == names
  {
    if |names| > 0 {
      ShardNamesKeepsAll(names[..|names| - 1]);
      assert names == names[..|names| - 1] + [names[|names| - 1]];
    }
  }

  /** A listing without shard names keeps nothing. */
  lemma {:induction false} ShardNamesNone(names: seq<string>)
    requires forall i :: 0 <= i < |names| ==> !IsShardName(names[i])
    ensures ShardNames(names) == []
  {
    if |names| > 0 {
      ShardNamesNone(names[..|names| - 1]);
    }
  }

  /** `Ext` picks out exactly a non-empty extension placed at the end. */
  lemma {:induction false} ExtOfSuffix(stem: string, e: string)
    requires IsExtension(e) && |e| > 0
    ensures Ext(stem + e) == e
    decreases |e|
  {
    var p := stem + e;
    if |e| > 1 {
      var e' := e[..|e| - 1];
      assert p[..|p| - 1] == stem + e';
      ExtOfSuffix(stem, e');
    }
  }

  /** A final element without a `.` has no extension. */
  lemma {:induction false} ExtNone(path: string)
    requires |path| == 0 || '.' !in LastElement(path)
    ensures Ext(path) == ""
    decreases |path|
  {
    if |path| > 0 && path[|path| - 1] != '/' {
      var q := path[..|path| - 1];
      assert LastElement(path) == LastElement(q) + [path[|path| - 1]];
      assert '.' !in LastElement(q) by {
        assert forall x :: x in LastElement(q) ==> x in LastElement(path);
      }
      ExtNone(q);
    }
  }

  /** `Base` of a path whose last element is `name` is `name`. */
  lemma {:induction false} BaseOfJoin(dir: string, name: string)
    requires |name| > 0 && '/' !in name
    ensures Base(name) == name
    ensures Base(dir + "/" + name) == name
  {
    assert "" + name == name;
    BaseNoTrailing(name);
    LastElementOf("", name);
    var p := dir + "/" + name;
    assert p == (dir + "/") + name;
    assert p[|p| - 1] == name[|name| - 1];
    BaseNoTrailing(p);
    LastElementOf(dir + "/", name);
  }

  /** The file a joined path names is the name it was joined from. */
  lemma {:induction false} JoinPathBase(dir: string, name: string)
    requires |name| > 0 && '/' !in name
    ensures Base(JoinPath(dir, name)) == name
  {
    if |dir| == 0 {
      BaseOfJoin(dir, name);
    } else if dir[|dir| - 1] == '/' {
      var p := dir + name;
      assert JoinPath(dir, name) == p;
      assert p[|p| - 1] == name[|name| - 1];
      BaseNoTrailing(p);
      LastElementOf(dir, name);
    } else {
      assert JoinPath(dir, name) == dir + "/" + name;
      BaseOfJoin(dir, name);
    }
  }

  /** A path that does not end in `/` has its last element as its base. */
  lemma {:induction false} BaseNoTrailing(p: string)
    requires |p| > 0 && p[|p| - 1] != '/'
    ensures Base(p) == LastElement(p)
  {
    assert TrimSlashes(p) == p;
  }

  lemma {:induction false} LastElementOf(dir: string, name: string)
    requires |name| > 0 && '/' !in name
    requires |dir| == 0 || dir[|dir| - 1] == '/'
    ensures LastElement(dir + name) == name
    decreases |name|
  {
    var p := dir + name;
    var c := name[|name| - 1];
    var name' := name[..|name| - 1];
    assert p[..|p| - 1] == dir + name';
    if |name| > 1 {
      assert '/' !in name' by {
        assert name == name' + [c];
      }
      LastElementOf(dir, name');
    } else {
      assert dir + name' == dir;
    }
    LastStep(p, name', c);
    assert name == name' + [c];
  }

  lemma LastStep(p: string, prev: string, c: char)
    requires |p| > 0 && p[|p| - 1] == c && c != '/'
    requires LastElement(p[..|p| - 1]) == prev
    ensures LastElement(p) == prev + [c]
  {
  }

  /** The shard name keeps the extension test of the binder true. */
  lemma ShardFilenameExt(name: string, index: int, total: int)
    ensures Ext(ShardFilename(name, index, total)) == SHARD_EXT
    ensures IsShardName(ShardFilename(name, index, total))
  {
    ShardExtIsExtension();
    ExtOfSuffix(Stem(name) + "_" + Itoa(index) + "_of_" + Itoa(total), SHARD_EXT);
  }

  lemma ShardExtIsExtension()
    ensures IsExtension(SHARD_EXT) && |SHARD_EXT| > 0
  {
  }

  /** Shards of one file and one total get pairwise different names. */
  lemma ShardFilenameInjective(name: string, i: int, j: int, total: int)
    requires ShardFilename(name, i, total) == ShardFilename(name, j, total)
    ensures i == j
  {
    var pre := Stem(name) + "_";
    var tail := "_of_" + Itoa(total) + SHARD_EXT;
    Cancel(pre, Itoa(i), tail, Itoa(j), ShardFilename(name, i, total));
    ItoaInjective(i, j);
  }

  lemma Cancel(pre: string, a: string, tail: string, b: string, whole: string)
    requires whole == pre + a + tail && whole == pre + b + tail
    ensures a == b
  {
    assert |a| == |b|;
    assert a == whole[|pre|..|pre| + |a|];
    assert b == whole[|pre|..|pre| + |b|];
  }
}

=== FILE: ordering.dfy ===
/** Sorting by index as both binders do it: a slice with one slot per shard held, and shard `i`
    stored at slot `Index - 1`. Nothing checks the indices first, so an index outside
    1..len(slots) is a runtime panic, a repeated index overwrites the earlier shard, and a slot
    that no shard claims keeps its zero value. */
module Ordering {
  import opened Wrappers
  import opened Failures

  /** The last of the first `k` positions whose index is `v`, or -1 when there is none. */
  function Owner(indices: seq<int>, v: int, k: nat): (i: int)
    requires k <= |indices|
    ensures -1 <= i < k
    ensures i >= 0 ==> indices[i] == v
    ensures forall i' :: i < i' < k ==> indices[i'] != v
  {
    if k == 0 then -1 else if indices[k - 1] == v then k - 1 else Owner(indices, v, k - 1)
  }

  /** The slice after the loop has stored the first `k` items: item `i` at slot `indices[i] - 1`
      of `n` slots that start out `empty`. */
  function PlaceFirst<T>(items: seq<T>, indices: seq<int>, n: nat, empty: T, k: nat): (r: Result<seq<T>, Failure>)
    requires |indices| == |items| && k <= |items|
    ensures r.Ok? <==> forall i :: 0 <= i < k ==> 1 <= indices[i] <= n
    ensures r.Err? ==> r.error.Panic?
    ensures r.Ok? ==> |r.value| == n
  {
    if k == 0 then Ok(seq(n, _ => empty))
    else
      var slots :- PlaceFirst(items, indices, n, empty, k - 1);
      var v := indices[k - 1];
      if 1 <= v <= n then Ok(slots[v - 1 := items[k - 1]]) else Err(Panic("index out of range"))
  }

  /** `ordered[headers[i].Index-1] = files[i]` for every held shard, in a slice of `len(files)`
      slots. */
  function Place<T>(items: seq<T>, indices: seq<int>, empty: T): (r: Result<seq<T>, Failure>)
    requires |indices| == |items|
    ensures r.Ok? <==> forall i :: 0 <= i < |items| ==> 1 <= indices[i] <= |items|
    ensures r.Err? ==> r.error.Panic?
    ensures r.Ok? ==> |r.value| == |items|
  {
    PlaceFirst(items, indices, |items|, empty, |items|)
  }

  /** Slot `j` holds the last of the first `k` items whose index is `j + 1`, or the empty value
      when none of them has that index. */
  lemma {:induction false} PlaceFirstContents<T>(items: seq<T>, indices: seq<int>, n: nat, empty: T, k: nat)
    requires |indices| == |items| && k <= |items|
    requires PlaceFirst(items, indices, n, empty, k).Ok?
    ensures forall j :: 0 <= j < n ==>
              PlaceFirst(items, indices, n, empty, k).value[j] ==
              (if Owner(indices, j + 1, k) >= 0 then items[Owner(indices, j + 1, k)] else empty)
  {
    if k > 0 {
      PlaceFirstContents(items, indices, n, empty, k - 1);
    }
  }

  /** After the loop, a slot holds the last shard listed with its index, and a slot no index
      names stays empty: a repeated index keeps only its last shard. */
  lemma PlaceContents<T>(items: seq<T>, indices: seq<int>, empty: T)
    requires |indices| == |items| && Place(items, indices, empty).Ok?
    ensures forall j :: 0 <= j < |items| ==>
              Place(items, indices, empty).value[j] ==
              (if Owner(indices, j + 1, |items|) >= 0 then items[Owner(indices, j + 1, |items|)] else empty)
  {
    PlaceFirstContents(items, indices, |items|, empty, |items|);
  }

  /** `indices` lists each of 1..n exactly once, and `pos` says where: `pos[j]` is the position
      holding index `j + 1`. */
  predicate Permutes(indices: seq<int>, pos: seq<int>) {
    && |pos| == |indices|
    && (forall i :: 0 <= i < |indices| ==> 1 <= indices[i] <= |indices| && pos[indices[i] - 1] == i)
    && (forall j :: 0 <= j < |pos| ==> 0 <= pos[j] < |indices| && indices[pos[j]] == j + 1)
  }

  // ---------------------------------------------------------------------------------------------
  // Properties

  /** When the indices are a permutation of 1..n, every slot is filled, and slot `j` holds the
      shard whose index is `j + 1`: the shards come out in ascending index order. */
  lemma PlaceSorts<T>(items: seq<T>, indices: seq<int>, empty: T, pos: seq<int>)
    requires |indices| == |items| && Permutes(indices, pos)
    ensures Place(items, indices, empty).Ok?
    ensures forall j :: 0 <= j < |items| ==> Place(items, indices, empty).value[j] == items[pos[j]]
  {
    var r := Place(items, indices, empty);
    assert r.Ok?;
    PlaceContents(items, indices, empty);
    forall j | 0 <= j < |items|
      ensures r.value[j] == items[pos[j]]
    {
      PermutesOwner(indices, pos, j);
    }
  }

  /** The owner of `v` is the last position holding `v`. */
  lemma OwnerIs(indices: seq<int>, v: int, k: nat, i: int)
    requires 0 <= i < k <= |indices| && indices[i] == v
    requires forall i' :: i < i' < k ==> indices[i'] != v
    ensures Owner(indices, v, k) == i
  {
  }

  /** Shards the permutation puts into order are found where they should be: the shard with
      index `j + 1` sits at slot `j` whatever the order the shards were listed in. */
  lemma PermutesOwner(indices: seq<int>, pos: seq<int>, j: int)
    requires Permutes(indices, pos) && 0 <= j < |indices|
    ensures Owner(indices, j + 1, |indices|) == pos[j]
  {
    OwnerIs(indices, j + 1, |indices|, pos[j]);
  }

  /** The identity permutation: shards listed in index order. */
  lemma InOrderPermutes(n: nat)
    ensures Permutes(seq(n, i => i + 1), seq(n, j => j))
  {
  }
}

=== FILE: round_trip.dfy ===
/** The round trip: binding the shards a split wrote restores the original file. When every
    shard is needed, the binder must hold all of them, listed in any order; otherwise any
    `threshold` or more of them will do, since each holds the whole encrypted file. */
module RoundTrip {
  import opened Wrappers
  import opened Bytes
  import opened Naming
  import opened Failures
  import opened Cipher
  import opened ShardFormat
  import opened Multiplexing
  import opened MultiplexingLaws
  import opened Ordering
  import opened Collaborators
  import opened Split
  import opened Bind

  /** The shards chosen from a split, in the order they are listed: shard `chosen[k]` (counting
      from 0) holds its own record and its body. */
  function Expected(name: string, now: int, total: nat, threshold: int, fragments: seq<seq<byte>>,
                    stream: seq<byte>, chosen: seq<int>): (hs: seq<Held>)
    requires total <= |fragments| && forall k :: 0 <= k < |chosen| ==> 0 <= chosen[k] < total
    ensures |hs| == |chosen|
  {
    seq(|chosen|, k requires 0 <= k < |chosen| =>
      Held(ShardRecord(name, now, total, threshold, fragments, chosen[k]), ShardBodyOf(total, threshold, stream, chosen[k])))
  }

  /** The names of the chosen shards, as a directory listing gives them. */
  function Names(name: string, total: int, chosen: seq<int>): (ns: seq<string>)
    ensures |ns| == |chosen|
  {
    seq(|chosen|, k requires 0 <= k < |chosen| => ShardFilename(name, chosen[k] + 1, total))
  }

  /** The key fragments of the chosen shards, in listing order. */
  function ChosenFragments(fragments: seq<seq<byte>>, chosen: seq<int>): (fs: seq<seq<byte>>)
    requires forall k :: 0 <= k < |chosen| ==> 0 <= chosen[k] < |fragments|
    ensures |fs| == |chosen|
  {
    seq(|chosen|, k requires 0 <= k < |chosen| => fragments[chosen[k]])
  }

  /** Everything a round trip needs of the world between split and bind. */
  predicate Scenario(path: string, destination: string, total: int, threshold: int, sys: System, lib: Libraries,
                     key: seq<byte>, fragments: seq<seq<byte>>, data: seq<byte>, files: seq<ShardFile>,
                     chosen: seq<int>, disk: Disk)
  {
    // The split wrote `files`, with this key, these fragments and this file.
    && GenerateKey(sys.entropy) == Ok(key) && lib.shamirSplit(key, total, threshold) == Ok(fragments)
    && sys.read(path) == Ok(data)
    && Split.Split(path, destination, total, threshold, sys, lib) == Ok(files)
    && total <= |fragments| && |files| == total
    // The chosen shards are what the directory lists, and each opens as the file split wrote.
    && (forall k :: 0 <= k < |chosen| ==> 0 <= chosen[k] < total)
    && disk.listing.Ok? && ShardNames(disk.listing.value) == Names(Base(path), total, chosen)
    && Opens(disk.open, Names(Base(path), total, chosen), files, chosen)
    // The libraries: each header line reads back as its record, and the chosen fragments
    // recombine into the key.
    && (forall i :: 0 <= i < total ==> HeaderCodecInverts(lib, ShardRecord(Base(path), sys.now, total, threshold, fragments, i)))
    && lib.shamirCombine(ChosenFragments(fragments, chosen)) == Ok(key)
    // The restored file can be written.
    && disk.create(disk.target(Base(path))).None?
  }

  /** The `k`-th name opens as the file of shard `chosen[k]`. */
  predicate Opens(open: string -> Result<seq<byte>, Failure>, names: seq<string>, files: seq<ShardFile>, chosen: seq<int>)
    requires |names| == |chosen| && forall k :: 0 <= k < |chosen| ==> 0 <= chosen[k] < |files|
  {
    forall k :: 0 <= k < |chosen| ==> open(names[k]) == Ok(files[chosen[k]].Content())
  }

  /** The binder restores the original file, under the name it chooses for it, from the shards
      of a split: all of them in any listing order when the threshold equals the total, and at
      least `threshold` of them otherwise. */
  lemma BindOfSplit(path: string, destination: string, total: int, threshold: int, sys: System, lib: Libraries,
                    key: seq<byte>, fragments: seq<seq<byte>>, data: seq<byte>, files: seq<ShardFile>,
                    chosen: seq<int>, pos: seq<int>, disk: Disk)
    requires Scenario(path, destination, total, threshold, sys, lib, key, fragments, data, files, chosen, disk)
    requires threshold == total ==> |chosen| == total > 0 && Permutes(seq(|chosen|, k requires 0 <= k < |chosen| => chosen[k] + 1), pos)
    requires threshold != total ==> 0 < |chosen| && threshold <= |chosen|
    ensures Bind.Bind(disk, lib) == Ok(Restored(disk.target(Base(path)), data))
  {
    var stream := XorStream(lib.keystream, key, data, 0);
    var held := Expected(Base(path), sys.now, total, threshold, fragments, stream, chosen);
    GatherShards(path, destination, total, threshold, sys, lib, key, fragments, data, files, chosen, disk);
    FragmentsOf(Base(path), sys.now, total, threshold, fragments, stream, chosen);
    InputOf(Base(path), sys.now, total, threshold, fragments, stream, chosen, pos);
    XorStreamInvolution(lib.keystream, key, data, 0);
    BindFrom(disk, lib, held, key, stream, data, Base(path));
  }

  /** The last steps of bind, once its shards, key and stream are known. */
  lemma BindFrom(disk: Disk, lib: Libraries, held: seq<Held>, key: seq<byte>, stream: seq<byte>, data: seq<byte>, name: string)
    requires disk.listing.Ok?
    requires Gather(OpenAll(ShardNames(disk.listing.value), disk.open, lib.unmarshal), |ShardNames(disk.listing.value)|) == Ok(held)
    requires 0 < |held| && held[0].header.threshold <= |held| && held[0].header.originalFilename == name
    requires lib.shamirCombine(Fragments(held)) == Ok(key) && |key| == KEY_SIZE
    requires MakeInput(held).Ok? && (MakeInput(held).value.Muxed? ==> ValidMultiplexer(MakeInput(held).value.mux))
    requires Drain(MakeInput(held).value) == Ok(stream)
    requires XorStream(lib.keystream, key, stream, 0) == data
    requires disk.create(disk.target(name)).None?
    ensures Bind.Bind(disk, lib) == Ok(Restored(disk.target(name), data))
  {
  }

  /** Every listed name opens as the shard split wrote, so the loop over them keeps them all, in
      the listing's order. */
  lemma GatherShards(path: string, destination: string, total: int, threshold: int, sys: System, lib: Libraries,
                     key: seq<byte>, fragments: seq<seq<byte>>, data: seq<byte>, files: seq<ShardFile>,
                     chosen: seq<int>, disk: Disk)
    requires Scenario(path, destination, total, threshold, sys, lib, key, fragments, data, files, chosen, disk)
    ensures var names := ShardNames(disk.listing.value);
            Gather(OpenAll(names, disk.open, lib.unmarshal), |names|) ==
            Ok(Expected(Base(path), sys.now, total, threshold, fragments, XorStream(lib.keystream, key, data, 0), chosen))
  {
    var names := ShardNames(disk.listing.value);
    var held := Expected(Base(path), sys.now, total, threshold, fragments, XorStream(lib.keystream, key, data, 0), chosen);
    var tries := OpenAll(names, disk.open, lib.unmarshal);
    forall k | 0 <= k < |chosen|
      ensures tries[k] == Ok(held[k])
    {
      ListedShard(path, destination, total, threshold, sys, lib, key, fragments, data, files, chosen, disk, k);
    }
    ExpectedConsistent(Base(path), sys.now, total, threshold, fragments, XorStream(lib.keystream, key, data, 0), chosen);
    GatherAll(tries, held);
  }

  /** The shards of one split share their origin. */
  lemma ExpectedConsistent(name: string, now: int, total: nat, threshold: int, fragments: seq<seq<byte>>,
                           stream: seq<byte>, chosen: seq<int>)
    requires total <= |fragments| && forall k :: 0 <= k < |chosen| ==> 0 <= chosen[k] < total
    ensures Consistent(Expected(name, now, total, threshold, fragments, stream, chosen))
  {
  }

  /** Attempts that all succeed, with shards of one origin, are all kept. */
  lemma GatherAll(tries: seq<Result<Held, Failure>>, held: seq<Held>)
    requires |tries| == |held| && forall k :: 0 <= k < |held| ==> tries[k] == Ok(held[k])
    requires Consistent(held)
    ensures Gather(tries, |tries|) == Ok(held)
  {
    assert Values(tries, |tries|) == held;
  }

  /** The `k`-th listed name opens and loads as shard `chosen[k]`. */
  lemma ListedShard(path: string, destination: string, total: int, threshold: int, sys: System, lib: Libraries,
                    key: seq<byte>, fragments: seq<seq<byte>>, data: seq<byte>, files: seq<ShardFile>,
                    chosen: seq<int>, disk: Disk, k: int)
    requires Scenario(path, destination, total, threshold, sys, lib, key, fragments, data, files, chosen, disk)
    requires 0 <= k < |chosen|
    ensures OpenAll(ShardNames(disk.listing.value), disk.open, lib.unmarshal)[k] ==
            Ok(Expected(Base(path), sys.now, total, threshold, fragments, XorStream(lib.keystream, key, data, 0), chosen)[k])
  {
    var i := chosen[k];
    var record := ShardRecord(Base(path), sys.now, total, threshold, fragments, i);
    var body := ShardBodyOf(total, threshold, XorStream(lib.keystream, key, data, 0), i);
    SplitContent(path, destination, total, threshold, sys, lib, key, fragments, data, i);
    assert HeaderCodecInverts(lib, record);
    LoadsAs(files[i], lib.marshal(record), body, lib.unmarshal, record);
  }

  /** A shard file loads as the record its header line decodes to, and its body. */
  lemma LoadsAs(file: ShardFile, line: seq<byte>, body: seq<byte>, unmarshal: seq<byte> -> Decoded, record: HorcruxHeader)
    requires file.line == line && file.body == body && PlainLine(line) && unmarshal(line) == Decoded(record, true)
    ensures Load(file.Content(), unmarshal) == Held(record, body)
  {
    ReadsBack(file.Content(), file.index, file.total, line, body, unmarshal);
  }

  /** The fragments the binder combines are the chosen shards' fragments, in listing order. */
  lemma FragmentsOf(name: string, now: int, total: nat, threshold: int, fragments: seq<seq<byte>>,
                    stream: seq<byte>, chosen: seq<int>)
    requires total <= |fragments| && forall k :: 0 <= k < |chosen| ==> 0 <= chosen[k] < total
    ensures Fragments(Expected(name, now, total, threshold, fragments, stream, chosen)) == ChosenFragments(fragments, chosen)
  {
  }

  /** The binder's reader gives back the encrypted stream: the multiplexer over the bodies sorted
      by index when every shard is needed, the first body otherwise. */
  lemma InputOf(name: string, now: int, total: nat, threshold: int, fragments: seq<seq<byte>>,
                stream: seq<byte>, chosen: seq<int>, pos: seq<int>)
    requires total <= |fragments| && forall k :: 0 <= k < |chosen| ==> 0 <= chosen[k] < total
    requires threshold == total ==> |chosen| == total > 0 && Permutes(seq(|chosen|, k requires 0 <= k < |chosen| => chosen[k] + 1), pos)
    requires threshold != total ==> 0 < |chosen|
    ensures var held := Expected(name, now, total, threshold, fragments, stream, chosen);
            && MakeInput(held).Ok?
            && (MakeInput(held).value.Muxed? ==> ValidMultiplexer(MakeInput(held).value.mux))
            && Drain(MakeInput(held).value) == Ok(stream)
  {
    var held := Expected(name, now, total, threshold, fragments, stream, chosen);
    if threshold == total {
      var deal := DealFresh(total, stream).outs;
      forall k | 0 <= k < |held|
        ensures held[k].header.index == chosen[k] + 1 && held[k].body == deal[chosen[k]]
      {
      }
      IndicesPermute(held, chosen, pos);
      SortedInput(held, total, deal, chosen, pos);
      Muxes(held, FreshMux(deal).readers, FreshMux(deal));
      MultiplexInverts(total, stream);
    }
  }

  /** Shards that each hold their index and the body dealt to that index, listed in any order,
      are placed back in the order of the deal. */
  lemma SortedInput(held: seq<Held>, total: nat, deal: seq<seq<byte>>, chosen: seq<int>, pos: seq<int>)
    requires |held| == |chosen| == total == |deal| > 0
    requires held[0].header.total == held[0].header.threshold
    requires forall k :: 0 <= k < total ==> 0 <= chosen[k] < total
    requires forall k :: 0 <= k < total ==> held[k].header.index == chosen[k] + 1 && held[k].body == deal[chosen[k]]
    requires Permutes(Indices(held), pos)
    ensures Place(Sources(held), Indices(held), Source([], true)) == Ok(FreshMux(deal).readers)
  {
    var items := Sources(held);
    PlaceSorts(items, Indices(held), Source([], true), pos);
    var placed := Place(items, Indices(held), Source([], true)).value;
    forall j | 0 <= j < total
      ensures placed[j] == FreshMux(deal).readers[j]
    {
      var k := pos[j];
      assert Indices(held)[k] == j + 1;
    }
    assert placed == FreshMux(deal).readers;
  }

  /** Shards listed with indices `chosen[k] + 1` are sorted by the permutation of those
      indices. */
  lemma IndicesPermute(held: seq<Held>, chosen: seq<int>, pos: seq<int>)
    requires |held| == |chosen|
    requires forall k :: 0 <= k < |held| ==> held[k].header.index == chosen[k] + 1
    requires Permutes(seq(|chosen|, k requires 0 <= k < |chosen| => chosen[k] + 1), pos)
    ensures Permutes(Indices(held), pos)
  {
    assert Indices(held) == seq(|chosen|, k requires 0 <= k < |chosen| => chosen[k] + 1);
  }

  /** The multiplexer bind builds over the files it placed by index. */
  lemma Muxes(held: seq<Held>, placed: seq<Source>, m: Multiplexer)
    requires |held| > 0 && held[0].header.total == held[0].header.threshold
    requires Place(Sources(held), Indices(held), Source([], true)) == Ok(placed)
    requires m == Multiplexer(placed, 0, 0)
    ensures MakeInput(held) == Ok(Muxed(m))
  {
  }
}

=== FILE: shard_format.dfy ===
/** The layout of a shard file and the scanner that reads it back. A shard starts with a banner of
    comment lines, then the `-- HEADER --` marker, the header record on one line, the `-- BODY --`
    marker, and then the body; the scanner finds the header line and the offset of the body. */
module ShardFormat {

  import opened Wrappers
  import opened Bytes
  import opened Naming
  import opened Failures

  /** The record on the header line of every shard. */
  datatype HorcruxHeader = HorcruxHeader(
    originalFilename: string,
    timestamp: int,
    index: int,
    total: int,
    threshold: int,
    keyFragment: seq<byte>)

  /** The zero value the parsers decode into. */
  const ZERO_HEADER := HorcruxHeader("", 0, 0, 0, 0, [])

  // ---------------------------------------------------------------------------------------------
  // Writing

  /** Words separated by single spaces. */
  function Spaced(ws: seq<string>): string {
    if |ws| == 0 then "" else if |ws| == 1 then ws[0] else ws[0] + " " + Spaced(ws[1..])
  }

  const REPOSITORY_URL := "https://" + "github.com/" + "jesseduffield/" + "horcrux"
  const HEADER_MARKER := "-- HEADER --"
  const BODY_MARKER := "-- BODY --"

  const LINE_1_WORDS := ["#", "THIS", "FILE", "IS", "A", "HORCRUX."]

  const LINE_2_BEFORE := ["#", "IT", "IS", "ONE", "OF"]
  const LINE_2_AFTER := ["HORCRUXES", "THAT", "EACH", "CONTAIN", "PART", "OF", "AN", "ORIGINAL", "FILE."]

  function Line2Words(total: int): seq<string> {
    LINE_2_BEFORE + [Itoa(total)] + LINE_2_AFTER
  }

  const LINE_3_BEFORE := ["#", "THIS", "IS", "HORCRUX", "NUMBER"]

  function Line3Words(index: int): seq<string> {
    LINE_3_BEFORE + [Itoa(index) + "."]
  }

  const LINE_4_BEFORE := ["#", "IN", "ORDER", "TO", "RESURRECT", "THIS", "ORIGINAL", "FILE", "YOU", "MUST", "FIND",
                          "THE", "OTHER"]
  const LINE_4_AFTER := ["HORCRUX(ES)", "AND", "THEN", "BIND", "THEM", "USING"]
  const LINE_4_END := ["THE", "PROGRAM", "FOUND", "AT", "THE", "FOLLOWING", "URL"]

  function Line4Words(total: int): seq<string> {
    LINE_4_BEFORE + [Itoa(total - 1)] + LINE_4_AFTER + LINE_4_END
  }

  const LINE_5_WORDS := ["#", REPOSITORY_URL]

  /** A line that reads back unchanged and starts with `#`. */
  predicate IsComment(l: seq<byte>) {
    PlainLine(l) && |l| > 0 && l[0] == '#' as bv8
  }

  /** A comment line as bytes. */
  function CommentBytes(ws: seq<string>): (l: seq<byte>)
    requires CommentWords(ws)
    ensures IsComment(l)
  {
    CommentLine(ws);
    PrintablePlainLine(Spaced(ws));
    Ascii(Spaced(ws))
  }

  function Line1Bytes(): (l: seq<byte>)
    ensures IsComment(l)
  {
    Line1();
    CommentBytes(LINE_1_WORDS)
  }

  function Line2Bytes(total: int): (l: seq<byte>)
    ensures IsComment(l)
  {
    Line2(total);
    CommentBytes(Line2Words(total))
  }

  function Line3Bytes(index: int): (l: seq<byte>)
    ensures IsComment(l)
  {
    Line3(index);
    CommentBytes(Line3Words(index))
  }

  function Line4Bytes(total: int): (l: seq<byte>)
    ensures IsComment(l)
  {
    Line4(total);
    CommentBytes(Line4Words(total))
  }

  function Line5Bytes(): (l: seq<byte>)
    ensures IsComment(l)
  {
    Line5();
    CommentBytes(LINE_5_WORDS)
  }

  /** The banner: five comment lines giving the total, the index and how many others are needed,
      then an empty line. */
  function Banner(index: int, total: int): (ls: seq<seq<byte>>)
    ensures |ls| == 6 && ls[5] == []
    ensures IsComment(ls[0]) && IsComment(ls[1]) && IsComment(ls[2]) && IsComment(ls[3]) && IsComment(ls[4])
  {
    [Line1Bytes(), Line2Bytes(total), Line3Bytes(index), Line4Bytes(total), Line5Bytes(), []]
  }

  function MarkerBytes(): (m: seq<byte>)
    ensures |m| == 12 && m[0] == '-' as bv8
  {
    MarkersPrintable();
    Ascii(HEADER_MARKER)
  }

  function BodyMarkerBytes(): seq<byte> {
    MarkersPrintable();
    Ascii(BODY_MARKER)
  }

  /** Everything `header(index, total, headerLine)` writes before the body of a shard. */
  function Header(index: int, total: int, headerLine: seq<byte>): seq<byte> {
    JoinLines(Banner(index, total) + [MarkerBytes(), headerLine, BodyMarkerBytes()])
  }

  // ---------------------------------------------------------------------------------------------
  // Reading: line scanning as `bufio.Scanner` with `ScanLines` does it

  /** The first position at or after `from` holding `b`, or the length when there is none. */
  function IndexOf(data: seq<byte>, from: nat, b: byte): (j: nat)
    requires from <= |data|
    ensures from <= j <= |data|
    ensures j < |data| ==> data[j] == b
    ensures forall k :: from <= k < j ==> data[k] != b
    decreases |data| - from
  {
    if from == |data| || data[from] == b then from else IndexOf(data, from + 1, b)
  }

  /** A line without its one trailing carriage return, if it has one. */
  function DropCR(l: seq<byte>): (r: seq<byte>)
    ensures l == r || l == r + [CR]
  {
    if |l| > 0 && l[|l| - 1] == CR then l[..|l| - 1] else l
  }

  /** A token and the position after it. */
  datatype Token = Token(line: seq<byte>, next: nat)

  /** One `Scan()` from position `pos`: the next line without its line feed and trailing carriage
      return; the last line may lack a line feed. `None` at the end of the input. */
  function NextToken(data: seq<byte>, pos: nat): (t: Option<Token>)
    requires pos <= |data|
    ensures t.None? <==> pos == |data|
    ensures t.Some? ==> pos < t.value.next <= |data| && |t.value.line| < t.value.next - pos + 1
  {
    if pos == |data| then None
    else
      var j := IndexOf(data, pos, NL);
      if j < |data| then Some(Token(DropCR(data[pos..j]), j + 1))
      else Some(Token(DropCR(data[pos..]), |data|))
  }

  /** A `Scan()` whose outcome is not checked: at the end of the input the token is empty. */
  function ScanAny(data: seq<byte>, pos: nat): (t: Token)
    requires pos <= |data|
    ensures pos <= t.next <= |data|
  {
    match NextToken(data, pos)
    case None => Token([], pos)
    case Some(t) => t
  }

  /** An unchecked scan stays put, with an empty token, exactly at the end of the input. */
  lemma ScanAnyAtEnd(data: seq<byte>, pos: nat)
    requires pos <= |data|
    ensures ScanAny(data, pos).next == pos <==> pos == |data|
    ensures pos == |data| ==> ScanAny(data, pos).line == []
  {
  }

  /** What the scanning loop finds: the line after the first marker line, if there is one, and
      the count of bytes before the body, which adds the length of every token consumed plus one. */
  datatype Found = Found(headerLine: Option<seq<byte>>, offset: nat)

  /** The scanning loop from position `pos`: stop at the first token equal to the marker, take the
      next token as the header line and skip one more, without looking at it. */
  function FindHeader(data: seq<byte>, pos: nat): (f: Found)
    requires pos <= |data|
    decreases |data| - pos
  {
    match NextToken(data, pos)
    case None => Found(None, 0)
    case Some(t) =>
      if t.line == MarkerBytes() then
        var h := ScanAny(data, t.next);
        var b := ScanAny(data, h.next);
        Found(Some(h.line), |t.line| + 1 + |h.line| + 1 + |b.line| + 1)
      else
        var r := FindHeader(data, t.next);
        Found(r.headerLine, |t.line| + 1 + r.offset)
  }

  /** The body a reader sees after seeking to `offset`: nothing when that is past the end. */
  function Body(data: seq<byte>, offset: nat): (b: seq<byte>)
    ensures offset <= |data| ==> data == data[..offset] + b
    ensures offset >= |data| ==> b == []
  {
    if offset <= |data| then data[offset..] else []
  }

  /** What decoding a header line into a zero header leaves there, and whether it succeeded. The
      decoder (`json.Unmarshal`) is a parameter of the model. */
  datatype Decoded = Decoded(header: HorcruxHeader, ok: bool)

  /** A parsed header and the offset of the body. */
  datatype Parsed = Parsed(header: HorcruxHeader, offset: nat)

  /** `GetHeaderFromHorcruxFile`: a header line that fails to decode is an error; a file without
      a marker gives the zero header and no error. */
  function GetHeader(data: seq<byte>, unmarshal: seq<byte> -> Decoded): (r: Result<Parsed, Failure>)
    ensures r.Err? ==> r.error == DecodeError && FindHeader(data, 0).headerLine.Some?
    ensures r.Ok? ==> r.value.offset == FindHeader(data, 0).offset
    ensures FindHeader(data, 0).headerLine.Some? ==>
              var d := unmarshal(FindHeader(data, 0).headerLine.value);
              && (r.Err? <==> !d.ok)
              && (r.Ok? ==> r.value.header == d.header)
    ensures FindHeader(data, 0).headerLine.None? ==> r == Ok(Parsed(ZERO_HEADER, FindHeader(data, 0).offset))
  {
    var f := FindHeader(data, 0);
    match f.headerLine
    case None => Ok(Parsed(ZERO_HEADER, f.offset))
    case Some(line) =>
      var d := unmarshal(line);
      if d.ok then Ok(Parsed(d.header, f.offset)) else Err(DecodeError)
  }

  /** The binder's copy of the parser, which ignores decoding errors and keeps whatever the
      decoder left in the header. */
  function GetHeaderLenient(data: seq<byte>, unmarshal: seq<byte> -> Decoded): (p: Parsed)
    ensures p.offset == FindHeader(data, 0).offset
  {
    var f := FindHeader(data, 0);
    match f.headerLine
    case None => Parsed(ZERO_HEADER, f.offset)
    case Some(line) => Parsed(unmarshal(line).header, f.offset)
  }

  /** An opened shard: its path, its header, and what remains to be read from its file. */
  datatype Horcrux = Horcrux(path: string, header: HorcruxHeader, body: seq<byte>)

  /** `NewHorcrux`: open the file (a parameter standing for the file system), parse its header and
      leave the file at the body. Open and parse errors are passed on. */
  function NewHorcrux(path: string, open: string -> Result<seq<byte>, Failure>,
                      unmarshal: seq<byte> -> Decoded): (r: Result<Horcrux, Failure>)
    ensures open(path).Err? ==> r == Err(open(path).error)
    ensures r.Ok? ==> r.value.path == path && open(path).Ok?
    ensures open(path).Ok? && GetHeader(open(path).value, unmarshal).Err? ==> r == Err(DecodeError)
    ensures r.Ok? ==> |r.value.body| <= |open(path).value| &&
                      r.value.body == open(path).value[|open(path).value| - |r.value.body|..]
    ensures open(path).Ok? && GetHeader(open(path).value, unmarshal).Ok? ==>
              var parsed := GetHeader(open(path).value, unmarshal).value;
              r == Ok(Horcrux(path, parsed.header, Body(open(path).value, parsed.offset)))
  {
    var data :- open(path);
    var parsed :- GetHeader(data, unmarshal);
    Ok(Horcrux(path, parsed.header, Body(data, parsed.offset)))
  }

  // ---------------------------------------------------------------------------------------------
  // Facts about the text

  lemma {:induction false} SpacedPrintable(ws: seq<string>)
    requires forall k :: 0 <= k < |ws| ==> Printable(ws[k])
    ensures Printable(Spaced(ws))
  {
    if |ws| > 1 {
      SpacedPrintable(ws[1..]);
      PrintableConcat(ws[0], " ");
      PrintableConcat(ws[0] + " ", Spaced(ws[1..]));
    }
  }

  lemma SpacedFirst(ws: seq<string>)
    requires |ws| > 0 && |ws[0]| > 0
    ensures |Spaced(ws)| > 0 && Spaced(ws)[0] == ws[0][0]
  {
  }

  predicate AllPrintable(ws: seq<string>) {
    forall k :: 0 <= k < |ws| ==> Printable(ws[k])
  }

  /** A comment line: printable words, the first of them `#`. */
  predicate CommentWords(ws: seq<string>) {
    |ws| > 0 && ws[0] == "#" && AllPrintable(ws)
  }

  lemma AllPrintableConcat(a: seq<string>, b: seq<string>)
    requires AllPrintable(a) && AllPrintable(b)
    ensures AllPrintable(a + b)
  {
  }

  lemma CommentLine(ws: seq<string>)
    requires CommentWords(ws)
    ensures Printable(Spaced(ws)) && |Spaced(ws)| > 0 && Spaced(ws)[0] == '#'
  {
    SpacedPrintable(ws);
    SpacedFirst(ws);
  }

  lemma Line1()
    ensures CommentWords(LINE_1_WORDS)
  {
  }

  lemma Line2(total: int)
    ensures CommentWords(Line2Words(total))
  {
    assert AllPrintable(LINE_2_BEFORE);
    assert AllPrintable(LINE_2_AFTER);
    ItoaPrintable(total);
    AllPrintableConcat(LINE_2_BEFORE, [Itoa(total)]);
    AllPrintableConcat(LINE_2_BEFORE + [Itoa(total)], LINE_2_AFTER);
  }

  lemma Line3(index: int)
    ensures CommentWords(Line3Words(index))
  {
    assert AllPrintable(LINE_3_BEFORE);
    ItoaPrintable(index);
    PrintableConcat(Itoa(index), ".");
    AllPrintableConcat(LINE_3_BEFORE, [Itoa(index) + "."]);
  }

  lemma Line4Before()
    ensures AllPrintable(LINE_4_BEFORE)
  {
  }

  lemma Line4After()
    ensures AllPrintable(LINE_4_AFTER)
  {
  }

  lemma Line4End()
    ensures AllPrintable(LINE_4_END)
  {
  }

  lemma Line4(total: int)
    ensures CommentWords(Line4Words(total))
  {
    Line4Before();
    Line4After();
    ItoaPrintable(total - 1);
    AllPrintableConcat(LINE_4_BEFORE, [Itoa(total - 1)]);
    Line4End();
    AllPrintableConcat(LINE_4_BEFORE + [Itoa(total - 1)], LINE_4_AFTER);
    AllPrintableConcat(LINE_4_BEFORE + [Itoa(total - 1)] + LINE_4_AFTER, LINE_4_END);
  }

  lemma Line5()
    ensures CommentWords(LINE_5_WORDS)
  {
    PrintableConcat("https://", "github.com/");
    PrintableConcat("https://" + "github.com/", "jesseduffield/");
    PrintableConcat("https://" + "github.com/" + "jesseduffield/", "horcrux");
  }

  lemma MarkersPrintable()
    ensures Printable(HEADER_MARKER) && Printable(BODY_MARKER)
  {
  }

  /** The banner lines read back as they were written, and none of them is the marker. */
  lemma BannerLines(index: int, total: int)
    ensures forall k :: 0 <= k < 6 ==> PlainLine(Banner(index, total)[k]) && Banner(index, total)[k] != MarkerBytes()
  {
    NotMarker(Banner(index, total), MarkerBytes());
  }

  lemma NotMarker(ls: seq<seq<byte>>, m: seq<byte>)
    requires |ls| == 6 && ls[5] == [] && |m| == 12 && m[0] == '-' as bv8
    requires IsComment(ls[0]) && IsComment(ls[1]) && IsComment(ls[2]) && IsComment(ls[3]) && IsComment(ls[4])
    ensures forall k :: 0 <= k < 6 ==> PlainLine(ls[k]) && ls[k] != m
  {
    forall k | 0 <= k < 6
      ensures PlainLine(ls[k]) && ls[k] != m
    {
      if k < 5 {
        assert ls[k][0] != m[0];
      }
    }
  }

  // ---------------------------------------------------------------------------------------------
  // Facts about scanning

  lemma IndexOfIs(data: seq<byte>, from: nat, b: byte, j: nat)
    requires from <= j < |data| && data[j] == b
    requires forall k :: from <= k < j ==> data[k] != b
    ensures IndexOf(data, from, b) == j
  {
  }

  /** A token other than the marker is skipped. */
  lemma SkipToken(data: seq<byte>, pos: nat, l: seq<byte>, next: nat)
    requires pos <= |data| && NextToken(data, pos) == Some(Token(l, next)) && l != MarkerBytes()
    ensures FindHeader(data, pos) == Found(FindHeader(data, next).headerLine, |l| + 1 + FindHeader(data, next).offset)
  {
  }

  /** A plain line followed by a line feed is read as one token, unchanged. */
  lemma TokenAt(data: seq<byte>, pos: nat, l: seq<byte>, rest: seq<byte>)
    requires pos <= |data| && data[pos..] == l + [NL] + rest && PlainLine(l)
    ensures pos + |l| < |data|
    ensures NextToken(data, pos) == Some(Token(l, pos + |l| + 1))
  {
    var j := pos + |l|;
    assert data[j] == data[pos..][|l|] == NL;
    forall k | pos <= k < j
      ensures data[k] != NL
    {
      assert data[k] == data[pos..][k - pos] == l[k - pos];
    }
    IndexOfIs(data, pos, NL, j);
    assert data[pos..j] == l;
  }

  lemma Advance(data: seq<byte>, pos: nat, l: seq<byte>, rest: seq<byte>)
    requires pos <= |data| && data[pos..] == l + [NL] + rest
    ensures pos + |l| + 1 <= |data| && data[pos + |l| + 1..] == rest
  {
    assert data[pos + |l| + 1..] == data[pos..][|l| + 1..];
  }

  /** Plain lines that are not the marker are skipped, each adding its length plus one. */
  lemma {:induction false} SkipLines(data: seq<byte>, pos: nat, ls: seq<seq<byte>>, rest: seq<byte>, end: nat)
    requires pos <= |data| && data[pos..] == JoinLines(ls) + rest
    requires forall k :: 0 <= k < |ls| ==> PlainLine(ls[k]) && ls[k] != MarkerBytes()
    requires end == pos + |JoinLines(ls)|
    ensures end <= |data|
    ensures FindHeader(data, pos) == Found(FindHeader(data, end).headerLine, end - pos + FindHeader(data, end).offset)
    decreases |ls|
  {
    if |ls| > 0 {
      var l := ls[0];
      var tail := JoinLines(ls[1..]) + rest;
      assert data[pos..] == l + [NL] + tail;
      TokenAt(data, pos, l, tail);
      Advance(data, pos, l, tail);
      var next := pos + |l| + 1;
      SkipToken(data, pos, l, next);
      SkipLines(data, next, ls[1..], rest, end);
      assert |JoinLines(ls)| == |l| + 1 + |JoinLines(ls[1..])|;
    }
  }

  /** At the marker the scanner takes the next line as the header line and skips one more line,
      whatever it holds; nothing after that is looked at. */
  lemma AtMarker(data: seq<byte>, pos: nat, h: seq<byte>, b: seq<byte>, rest: seq<byte>)
    requires pos <= |data| && data[pos..] == MarkerBytes() + [NL] + (h + [NL] + (b + [NL] + rest))
    requires PlainLine(h) && PlainLine(b)
    ensures FindHeader(data, pos) == Found(Some(h), |MarkerBytes()| + |h| + |b| + 3)
  {
    var m := MarkerBytes();
    MarkerLine();
    TokenAt(data, pos, m, h + [NL] + (b + [NL] + rest));
    Advance(data, pos, m, h + [NL] + (b + [NL] + rest));
    var p1 := pos + |m| + 1;
    TokenAt(data, p1, h, b + [NL] + rest);
    Advance(data, p1, h, b + [NL] + rest);
    var p2 := p1 + |h| + 1;
    TokenAt(data, p2, b, rest);
    TakeHeader(data, pos, p1, Token(h, p2), Token(b, p2 + |b| + 1));
  }

  /** The marker case of the loop, unfolded once. */
  lemma TakeHeader(data: seq<byte>, pos: nat, p1: nat, t1: Token, t2: Token)
    requires pos <= |data| && NextToken(data, pos) == Some(Token(MarkerBytes(), p1))
    requires ScanAny(data, p1) == t1 && ScanAny(data, t1.next) == t2
    ensures FindHeader(data, pos) == Found(Some(t1.line), |MarkerBytes()| + |t1.line| + |t2.line| + 3)
  {
  }

  lemma MarkerLine()
    ensures PlainLine(MarkerBytes()) && PlainLine(BodyMarkerBytes())
  {
    MarkersPrintable();
    PrintablePlainLine(HEADER_MARKER);
    PrintablePlainLine(BODY_MARKER);
  }

  lemma JoinThree(a: seq<byte>, b: seq<byte>, c: seq<byte>)
    ensures JoinLines([a, b, c]) == a + [NL] + (b + [NL] + (c + [NL]))
  {
    assert [a, b, c][1..] == [b, c];
    assert [b, c][1..] == [c];
    assert [c][1..] == [];
    assert JoinLines([c]) == c + [NL] + JoinLines([]);
    assert JoinLines([b, c]) == b + [NL] + JoinLines([c]);
    assert JoinLines([a, b, c]) == a + [NL] + JoinLines([b, c]);
  }

  /** The header written at the top of a shard is found again: the scanner returns its header line
      and the exact length of everything before the body, whatever the body holds. */
  lemma FindHeaderInShard(index: int, total: int, h: seq<byte>, body: seq<byte>)
    requires PlainLine(h)
    ensures FindHeader(Header(index, total, h) + body, 0) == Found(Some(h), |Header(index, total, h)|)
  {
    BannerLines(index, total);
    MarkerLine();
    FindHeaderAfter(Banner(index, total), h, BodyMarkerBytes(), body);
  }

  /** The same for any lines above the marker that are plain and not the marker themselves. */
  lemma FindHeaderAfter(ls: seq<seq<byte>>, h: seq<byte>, bm: seq<byte>, body: seq<byte>)
    requires forall k :: 0 <= k < |ls| ==> PlainLine(ls[k]) && ls[k] != MarkerBytes()
    requires PlainLine(h) && PlainLine(bm)
    ensures FindHeader(JoinLines(ls + [MarkerBytes(), h, bm]) + body, 0) ==
            Found(Some(h), |JoinLines(ls + [MarkerBytes(), h, bm])|)
  {
    var m := MarkerBytes();
    var data := JoinLines(ls + [m, h, bm]) + body;
    var p := |JoinLines(ls)|;
    Layout(ls, m, h, bm, body);
    SkipLines(data, 0, ls, m + [NL] + (h + [NL] + (bm + [NL])) + body, p);
    AtMarker(data, p, h, bm, body);
    Concluded(data, p, FindHeader(data, 0), FindHeader(data, p), h, |m| + |h| + |bm| + 3);
  }

  /** Where the lines before the marker end and the marker, header and body-marker lines begin. */
  lemma Layout(ls: seq<seq<byte>>, m: seq<byte>, h: seq<byte>, bm: seq<byte>, body: seq<byte>)
    ensures var data := JoinLines(ls + [m, h, bm]) + body;
            var back := m + [NL] + (h + [NL] + (bm + [NL]));
            && |JoinLines(ls + [m, h, bm])| == |JoinLines(ls)| + |m| + |h| + |bm| + 3
            && data[0..] == JoinLines(ls) + (back + body)
            && data[|JoinLines(ls)|..] == m + [NL] + (h + [NL] + (bm + [NL] + body))
  {
    var whole := JoinLines(ls + [m, h, bm]);
    JoinLinesAppend(ls, [m, h, bm]);
    JoinThree(m, h, bm);
    var front := JoinLines(ls);
    var back := m + [NL] + (h + [NL] + (bm + [NL]));
    assert whole == front + back;
    var data := whole + body;
    assert data[0..] == front + (back + body);
    assert data[|front|..] == back + body;
  }

  lemma Concluded(data: seq<byte>, p: nat, whole: Found, atMarker: Found, h: seq<byte>, n: nat)
    requires whole == Found(atMarker.headerLine, p + atMarker.offset)
    requires atMarker == Found(Some(h), n)
    ensures whole == Found(Some(h), p + n)
  {
  }

  /** Reading on from the offset the scanner reports gives back exactly the body. */
  lemma ShardBody(index: int, total: int, h: seq<byte>, body: seq<byte>)
    ensures Body(Header(index, total, h) + body, |Header(index, total, h)|) == body
  {
    var data := Header(index, total, h) + body;
    assert data[|Header(index, total, h)|..] == body;
  }

  /** Both parsers read a shard's header as the decoder reads its header line; the strict one fails
      exactly when the decoder does. */
  lemma GetHeaderOfShard(index: int, total: int, h: seq<byte>, body: seq<byte>,
                         unmarshal: seq<byte> -> Decoded)
    requires PlainLine(h)
    ensures unmarshal(h).ok ==>
      GetHeader(Header(index, total, h) + body, unmarshal) == Ok(Parsed(unmarshal(h).header, |Header(index, total, h)|))
    ensures !unmarshal(h).ok ==> GetHeader(Header(index, total, h) + body, unmarshal) == Err(DecodeError)
    ensures GetHeaderLenient(Header(index, total, h) + body, unmarshal) ==
            Parsed(unmarshal(h).header, |Header(index, total, h)|)
  {
    FindHeaderInShard(index, total, h, body);
  }

  /** Opening a shard file gives its header and exactly its body. */
  lemma NewHorcruxOfShard(path: string, open: string -> Result<seq<byte>, Failure>,
                          unmarshal: seq<byte> -> Decoded, index: int, total: int, h: seq<byte>, body: seq<byte>)
    requires open(path) == Ok(Header(index, total, h) + body)
    requires PlainLine(h) && unmarshal(h).ok
    ensures NewHorcrux(path, open, unmarshal) == Ok(Horcrux(path, unmarshal(h).header, body))
  {
    GetHeaderOfShard(index, total, h, body, unmarshal);
    ShardBody(index, total, h, body);
  }

  /** A file of plain lines without the marker has no header: both parsers give the zero header
      with no error, and the body is empty. */
  lemma NoMarker(ls: seq<seq<byte>>, unmarshal: seq<byte> -> Decoded)
    requires forall k :: 0 <= k < |ls| ==> PlainLine(ls[k]) && ls[k] != MarkerBytes()
    ensures GetHeader(JoinLines(ls), unmarshal) == Ok(Parsed(ZERO_HEADER, |JoinLines(ls)|))
    ensures GetHeaderLenient(JoinLines(ls), unmarshal) == Parsed(ZERO_HEADER, |JoinLines(ls)|)
    ensures Body(JoinLines(ls), |JoinLines(ls)|) == []
  {
    var data := JoinLines(ls);
    assert data[0..] == data + [];
    SkipLines(data, 0, ls, [], |data|);
  }
}

=== FILE: split.dfy ===
/** The `split` command: make a key, share it out with Shamir's scheme, write one header per
    shard, and stream the encrypted file into the shard bodies, either dealt round-robin (when
    every shard will be needed) or copied whole into each shard. */
module Split {
  import opened Wrappers
  import opened Bytes
  import opened Naming
  import opened Failures
  import opened Cipher
  import opened ShardFormat
  import opened Multiplexing
  import opened MultiplexingLaws
  import opened Collaborators

  /** What `os.Stat` reports about the destination. */
  datatype Destination = Missing | Directory | NotDirectory | StatFailed(error: Failure)

  /** The operating system around one split. */
  datatype System = System(
    /** The bytes `crypto/rand` hands out. */
    entropy: seq<byte>,
    /** `time.Now().Unix()`. */
    now: int,
    /** The error, if any, of `os.Open` on a path. */
    open: string -> Option<Failure>,
    /** What reading an opened file to its end gives: its bytes, or the read error (a directory,
        say, opens but cannot be read). The source is only read by the copy into the shards. */
    read: string -> Result<seq<byte>, Failure>,
    destination: Destination,
    /** What `os.MkdirAll` returns when the destination is missing. */
    mkdir: Option<Failure>,
    /** The error, if any, of creating a shard file and writing its header. */
    create: string -> Option<Failure>,
    /** The error, if any, a shard file gives while the encrypted stream is written into it. */
    bodyWrite: Option<Failure>)

  /** A shard file as split leaves it. */
  datatype ShardFile = ShardFile(path: string, index: int, total: int, line: seq<byte>, body: seq<byte>) {
    /** The bytes of the file: the header written from the shard's index, the total and the
        header line, then the body the copy appended. */
    function Content(): seq<byte> {
      Header(index, total, line) + body
    }
  }

  /** A shard file once its header is written: where it is, its record, and the record as the
      header line holds it. */
  datatype Started = Started(path: string, record: HorcruxHeader, line: seq<byte>)

  /** The record written into shard `i`, counting from 0: its own index (from 1) and key fragment,
      and the fields all shards share. */
  function ShardRecord(name: string, now: int, total: int, threshold: int, fragments: seq<seq<byte>>, i: int): HorcruxHeader
    requires 0 <= i < |fragments|
  {
    HorcruxHeader(name, now, i + 1, total, threshold, fragments[i])
  }

  /** Where shard `i` goes: `<name without extension>_<i+1>_of_<total>.horcrux` in the destination. */
  function ShardPath(destination: string, name: string, total: int, i: int): string {
    JoinPath(destination, ShardFilename(name, i + 1, total))
  }

  /** The first `k` rounds of the header loop: each creates its shard file and writes the banner,
      the marshalled record and the body marker. A round whose key fragment is missing panics;
      a file that cannot be created stops the loop with its error. */
  function StartShards(destination: string, name: string, now: int, total: int, threshold: int,
                       fragments: seq<seq<byte>>, marshal: HorcruxHeader -> seq<byte>,
                       create: string -> Option<Failure>, k: nat): (r: Result<seq<Started>, Failure>)
    ensures r.Ok? <==> k <= |fragments| && forall i :: 0 <= i < k ==> create(ShardPath(destination, name, total, i)).None?
    ensures r.Ok? ==> |r.value| == k
    ensures r.Ok? ==> forall i :: 0 <= i < k ==>
      && r.value[i].path == ShardPath(destination, name, total, i)
      && r.value[i].record == ShardRecord(name, now, total, threshold, fragments, i)
      && r.value[i].line == marshal(r.value[i].record)
    ensures r.Err? ==> r.error.Panic? || exists i :: 0 <= i < k && create(ShardPath(destination, name, total, i)) == Some(r.error)
  {
    if k == 0 then Ok([])
    else
      var earlier :- StartShards(destination, name, now, total, threshold, fragments, marshal, create, k - 1);
      var i := k - 1;
      if i >= |fragments| then Err(Panic("index out of range"))
      else
        var record := ShardRecord(name, now, total, threshold, fragments, i);
        var path := ShardPath(destination, name, total, i);
        match create(path)
        case Some(e) => Err(e)
        case None => Ok(earlier + [Started(path, record, marshal(record))])
  }

  /** What the copy leaves in each shard after its header. When threshold == total the stream
      goes through one Demultiplexer over the shards in index order; otherwise `MultiWriter`
      gives every shard the whole stream. A Demultiplexer over no shards panics on its first
      write. */
  function Bodies(total: nat, threshold: int, stream: seq<byte>): (r: Result<seq<seq<byte>>, Failure>)
    ensures r.Err? <==> threshold == total == 0 && |stream| > 0
    ensures r.Ok? ==> |r.value| == total
    ensures r.Ok? && threshold != total ==> forall i :: 0 <= i < total ==> r.value[i] == stream
  {
    if threshold != total then Ok(seq(total, _ => stream))
    else if total == 0 then (if |stream| == 0 then Ok([]) else Err(Panic("index out of range")))
    else Ok(DealFresh(total, stream).outs)
  }

  /** What split has in hand before it writes anything: the key and its fragments. */
  datatype Prepared = Prepared(key: seq<byte>, fragments: seq<seq<byte>>)

  /** The first part of split, in the program's order: make the key, share it out, open the
      source file, then make sure the destination is a directory, creating it when it is
      missing. */
  function Prepare(path: string, total: int, threshold: int, sys: System, lib: Libraries): (r: Result<Prepared, Failure>)
    ensures r.Ok? <==> && GenerateKey(sys.entropy).Ok?
                       && lib.shamirSplit(GenerateKey(sys.entropy).value, total, threshold).Ok?
                       && sys.open(path).None?
                       && (sys.destination == Directory || (sys.destination == Missing && sys.mkdir.None?))
    ensures r.Ok? ==> && r.value.key == GenerateKey(sys.entropy).value
                      && r.value.fragments == lib.shamirSplit(r.value.key, total, threshold).value
    ensures GenerateKey(sys.entropy).Err? ==> r == Err(GenerateKey(sys.entropy).error)
    ensures && GenerateKey(sys.entropy).Ok?
            && lib.shamirSplit(GenerateKey(sys.entropy).value, total, threshold).Ok?
            && sys.open(path).Some?
            ==> r == Err(sys.open(path).value)
  {
    var key :- GenerateKey(sys.entropy);
    var fragments :- lib.shamirSplit(key, total, threshold);
    if sys.open(path).Some? then Err(sys.open(path).value)
    else
      match sys.destination
      case StatFailed(e) => Err(e)
      case NotDirectory => Err(DestinationNotDirectory)
      case Missing => if sys.mkdir.Some? then Err(sys.mkdir.value) else Ok(Prepared(key, fragments))
      case Directory => Ok(Prepared(key, fragments))
  }

  /** `Split(path, destination, total, threshold)`: the shard files it writes, or the error it
      stops with. After the preparation come the header of each shard, then the copy, which
      reads the source file and writes the encrypted stream into the shards: a read error, or
      an error of a shard file once there is something to write into it, ends split with the
      headers already written. */
  function Split(path: string, destination: string, total: int, threshold: int, sys: System, lib: Libraries): (r: Result<seq<ShardFile>, Failure>)
    ensures r.Ok? ==> Prepare(path, total, threshold, sys, lib).Ok? && total <= |Prepare(path, total, threshold, sys, lib).value.fragments|
    ensures r.Ok? ==> |r.value| == total
    ensures r.Ok? ==> forall i :: 0 <= i < total ==> r.value[i].path == ShardPath(destination, Base(path), total, i)
    ensures r.Ok? ==> sys.read(path).Ok? && (sys.bodyWrite.Some? ==> total == 0 || |sys.read(path).value| == 0)
  {
    var p :- Prepare(path, total, threshold, sys, lib);
    if total < 0 then Err(Panic("makeslice: len out of range"))
    else
      var started :- StartShards(destination, Base(path), sys.now, total, threshold, p.fragments, lib.marshal, sys.create, total);
      var data :- sys.read(path);
      // A generated key is an AES-256 key, so the cipher is always built.
      var encrypted := Crypt(lib.keystream, p.key, data).value;
      var bodies :- Bodies(total, threshold, encrypted);
      if total > 0 && |encrypted| > 0 && sys.bodyWrite.Some? then Err(sys.bodyWrite.value)
      else Ok(seq(total, i requires 0 <= i < total => ShardFile(started[i].path, i + 1, total, started[i].line, bodies[i])))
  }

  // ---------------------------------------------------------------------------------------------
  // Properties

  /** A destination that exists and is not a directory stops split with "Destination must be a
      directory" before any shard file is created or the source is read: the outcome does not
      depend on what creating a file, reading the source or writing a body would do. */
  lemma NotDirectoryFirst(path: string, destination: string, total: int, threshold: int, sys: System, lib: Libraries,
                          create: string -> Option<Failure>, read: string -> Result<seq<byte>, Failure>,
                          bodyWrite: Option<Failure>)
    requires GenerateKey(sys.entropy).Ok? && sys.open(path).None?
    requires lib.shamirSplit(GenerateKey(sys.entropy).value, total, threshold).Ok?
    requires sys.destination == NotDirectory
    ensures Split(path, destination, total, threshold, sys, lib) == Err(DestinationNotDirectory)
    ensures Split(path, destination, total, threshold, sys.(create := create, read := read, bodyWrite := bodyWrite), lib)
            == Err(DestinationNotDirectory)
  {
    assert Prepare(path, total, threshold, sys, lib) == Err(DestinationNotDirectory);
    var sys' := sys.(create := create, read := read, bodyWrite := bodyWrite);
    assert Prepare(path, total, threshold, sys', lib) == Err(DestinationNotDirectory);
  }

  /** The copy's errors, once every header is written: a source that cannot be read ends split
      with the read error, and a shard file that fails while there are bytes to write ends it
      with that file's error. */
  lemma CopyErrors(path: string, destination: string, total: int, threshold: int, sys: System, lib: Libraries)
    requires Prepare(path, total, threshold, sys, lib).Ok? && total >= 0
    requires var p := Prepare(path, total, threshold, sys, lib).value;
             StartShards(destination, Base(path), sys.now, total, threshold, p.fragments, lib.marshal, sys.create, total).Ok?
    ensures sys.read(path).Err? ==> Split(path, destination, total, threshold, sys, lib) == Err(sys.read(path).error)
    ensures sys.read(path).Ok? && |sys.read(path).value| > 0 && total > 0 && sys.bodyWrite.Some? ==>
              Split(path, destination, total, threshold, sys, lib) == Err(sys.bodyWrite.value)
  {
  }

  /** Shard `i` of a successful split reads back as the record with index `i + 1` and key
      fragment `i`, sharing the original file's name, the time, the total and the threshold;
      reading on from the offset the parser finds gives exactly the body the copy wrote. */
  lemma SplitShard(path: string, destination: string, total: int, threshold: int, sys: System, lib: Libraries,
                   key: seq<byte>, fragments: seq<seq<byte>>, data: seq<byte>, i: int)
    requires GenerateKey(sys.entropy) == Ok(key) && lib.shamirSplit(key, total, threshold) == Ok(fragments)
    requires sys.read(path) == Ok(data)
    requires Split(path, destination, total, threshold, sys, lib).Ok? && 0 <= i < total
    requires PlainLine(lib.marshal(ShardRecord(Base(path), sys.now, total, threshold, fragments, i)))
    ensures i < |fragments|
    ensures var content := Split(path, destination, total, threshold, sys, lib).value[i].Content();
            var record := ShardRecord(Base(path), sys.now, total, threshold, fragments, i);
            var offset := |Header(i + 1, total, lib.marshal(record))|;
            && GetHeaderLenient(content, lib.unmarshal) == Parsed(lib.unmarshal(lib.marshal(record)).header, offset)
            && Body(content, offset) == ShardBodyOf(total, threshold, XorStream(lib.keystream, key, data, 0), i)
  {
    SplitContent(path, destination, total, threshold, sys, lib, key, fragments, data, i);
    var record := ShardRecord(Base(path), sys.now, total, threshold, fragments, i);
    ReadsBack(Split(path, destination, total, threshold, sys, lib).value[i].Content(), i + 1, total,
              lib.marshal(record), ShardBodyOf(total, threshold, XorStream(lib.keystream, key, data, 0), i), lib.unmarshal);
  }

  /** Shard `i` holds the header made from its record, then its share of the encrypted stream. */
  lemma SplitContent(path: string, destination: string, total: int, threshold: int, sys: System, lib: Libraries,
                     key: seq<byte>, fragments: seq<seq<byte>>, data: seq<byte>, i: int)
    requires GenerateKey(sys.entropy) == Ok(key) && lib.shamirSplit(key, total, threshold) == Ok(fragments)
    requires sys.read(path) == Ok(data)
    requires Split(path, destination, total, threshold, sys, lib).Ok? && 0 <= i < total
    ensures i < |fragments|
    ensures Split(path, destination, total, threshold, sys, lib).value[i] ==
            ShardFile(ShardPath(destination, Base(path), total, i), i + 1, total,
                      lib.marshal(ShardRecord(Base(path), sys.now, total, threshold, fragments, i)),
                      ShardBodyOf(total, threshold, XorStream(lib.keystream, key, data, 0), i))
  {
    var name := Base(path);
    assert Prepare(path, total, threshold, sys, lib) == Ok(Prepared(key, fragments));
    var started := StartShards(destination, name, sys.now, total, threshold, fragments, lib.marshal, sys.create, total).value;
    var encrypted := XorStream(lib.keystream, key, data, 0);
    var bodies := Bodies(total, threshold, encrypted).value;
    var files := seq(total, j requires 0 <= j < total => ShardFile(started[j].path, j + 1, total, started[j].line, bodies[j]));
    assert Split(path, destination, total, threshold, sys, lib) == Ok(files);
    BodiesRecombine(total, threshold, encrypted);
    var line := lib.marshal(ShardRecord(name, sys.now, total, threshold, fragments, i));
    assert started[i].line == line;
    assert files[i] == ShardFile(started[i].path, i + 1, total, started[i].line, bodies[i]);
  }

  /** A header followed by a body reads back as the header line's record and that body. */
  lemma ReadsBack(content: seq<byte>, index: int, total: int, line: seq<byte>, body: seq<byte>,
                  unmarshal: seq<byte> -> Decoded)
    requires content == Header(index, total, line) + body && PlainLine(line)
    ensures GetHeaderLenient(content, unmarshal) == Parsed(unmarshal(line).header, |Header(index, total, line)|)
    ensures Body(content, |Header(index, total, line)|) == body
  {
    GetHeaderOfShard(index, total, line, body, unmarshal);
    ShardFormat.ShardBody(index, total, line, body);
  }

  /** The body the copy writes into shard `i`. */
  function ShardBodyOf(total: nat, threshold: int, stream: seq<byte>, i: int): seq<byte>
    requires 0 <= i < total
  {
    if threshold == total then DealFresh(total, stream).outs[i] else stream
  }

  /** When every shard is needed the bodies share out the encrypted stream without duplicating or
      dropping a byte, a multiplexer over them in index order reads the stream back, and byte k
      of the stream lands in shard (k / 100) mod total. Otherwise each body is the whole stream. */
  lemma BodiesRecombine(total: nat, threshold: int, stream: seq<byte>)
    requires Bodies(total, threshold, stream).Ok?
    ensures var bodies := Bodies(total, threshold, stream).value;
            threshold == total && total > 0 ==>
              && TotalLength(bodies) == |stream|
              && Pending(FreshMux(bodies)) == stream
              && !Fails(FreshMux(bodies))
              && forall j :: 0 <= j < total ==> bodies[j] == Portion(stream, total, j)
    ensures forall i :: 0 <= i < total ==> Bodies(total, threshold, stream).value[i] == ShardBodyOf(total, threshold, stream, i)
  {
    if threshold == total && total > 0 {
      DealFreshTotal(total, stream);
      MultiplexInverts(total, stream);
      DealFreshClosedForm(total, stream);
    }
  }
}

=== FILE: wrappers.dfy ===
/** Failure-compatible wrappers shared by the whole model. */
module Wrappers {

  datatype Option<+T> = None | Some(value: T)

  /** The outcome of an operation of the program that can fail: Go's `(value, error)` pair
      (and, for the orchestrators, a runtime panic is one more kind of error). */
  datatype Result<+T, +E> = Ok(value: T) | Err(error: E) {

    predicate IsFailure() {
      Err?
    }

    function PropagateFailure<U>(): Result<U, E>
      requires Err?
    {
      Err(error)
    }

    function Extract(): T
      requires Ok?
    {
      value
    }
  }

  /** Every one of the first `k` attempts succeeded. */
  predicate AllOk<T, E>(tries: seq<Result<T, E>>, k: nat)
    requires k <= |tries|
  {
    forall i :: 0 <= i < k ==> tries[i].Ok?
  }

  /** The values the first `k` attempts gave. */
  function Values<T, E>(tries: seq<Result<T, E>>, k: nat): (vs: seq<T>)
    requires k <= |tries| && AllOk(tries, k)
    ensures |vs| == k
    ensures forall i :: 0 <= i < k ==> vs[i] == tries[i].value
  {
    seq(k, i requires 0 <= i < k => tries[i].value)
  }
}
